=== FILE: README.md ===
# Perspective's coordination layer, modelled in Dafny

Perspective keeps a mutable table in a WebAssembly engine and serves many live
views of it. This project models the logic that sits between the two. On the
JavaScript side (`perspective.js`) that is:

- the per-table recompute debounce;
- the canonicalizer that turns user expressions into engine descriptors;
- the update-callback registry and its dispatch loop;
- the index arithmetic of `to_format`, `column_to_format` and `num_columns`;
- the configuration checks of `table.view`.

On the Emscripten side (`emscripten.cpp`) it is the pure list and bit routines:

- the validity bitmap and value array of `col_to_typed_array`;
- the bitmap reader `fill_col_valid`;
- the synthetic keys of `_fill_data`;
- the schema type names of `get_data_types`;
- the column discovery of `get_column_names`;
- `make_view_config`, and the depths `make_context` sets.

Every operation is a pure function over immutable datatypes, or a method with loop invariants. Mutable JavaScript state becomes explicit state records:

- `_POOL_DEBOUNCES` and the engine side effects become `Scheduler.State`, a pending map plus an event log.
- `update_callbacks` becomes `Dispatch.Table`.

Engine calls become function parameters. Examples are `rowDelta` for
`_get_row_delta`, `depth` for a row path's length, `compiles` for the expression
parser, `validFilter` for the engine's filter check, `initSortSpec` for the
sort specification `t_view_config::init` derives, and `infer` for type
inference.

The modules are:

- `wrappers.dfy`: `Option` and `Result`, plus snoc-style `Count`, `Filter` and `MapSeq`.
- `arith.dfy`: facts about Euclidean remainders.
- `scheduler.dfy`: `_set_process`, `_call_process`, `_remove_process` and their callers.
- `expressions.dfy`: `parse_expression_strings`. This includes exact models of the alias, word and quote regular expressions, as a lexer.
- `dispatch.dfy`: `on_update`, `remove_update`, `filterInPlace`, `_update_callback`, `view.delete` and `table.delete`.
- `materialize.dfy`: `_num_hidden`, `_parse_format_options`, the traversal of `to_format`, `column_to_format`, `num_columns`, `table.view` and the view constructor's choice of engine view.
- `binding.dfy`: the `emscripten.cpp` routines.

Behaviour of the code worth knowing:

- **Flush order.** `_call_process` runs `pool._process()` *before* it clears the table's slot. A re-schedule triggered by the recompute therefore finds the slot occupied, and its handle is deleted. It is not kept for a later flush (`Scheduler.CallProcess`, `Scheduler.PerformAllKeepsSlot`).
- **User code runs inside a flush.** `pool._process()` calls the update callbacks synchronously. A callback that deletes a view of the table empties the slot mid-flush. An update after that defers a flush, and the flush's own `_remove_process` then releases the new handle without running it, so the deferred flush finds nothing (`Scheduler.CancelThenScheduleIsReleased`). A callback that reads the table runs the same pending handle a second time (`Scheduler.FlushInsideFlushRunsTwice`).
- **The unit context is never chosen.** The view constructor tests `this.table.index === ""`, but `perspective.table` stores `options.index || null`, so an unindexed table has index `null` (see Findings).
- **`remove_update` removes every match.** It removes every registration of the callback, not exactly one. A callback that is not registered is not an error: the source only calls `console.assert` (`Dispatch.RemoveUpdate` returns the `shrank` flag the assertion tests).
- **Canonicalization is not idempotent.** The literal of an already wrapped text is wrapped again (`Expressions.WrapLiteralsTwice`).
- **The delta cache does not work.** The per-dispatch cache does not limit row-delta fetches to one per port (see Findings).

## Model

| member | source | states |
|---|---|---|
| Scheduler.SetProcess | packages/perspective/src/js/perspective.js:45-52 | The table's slot holds the first handle. A handle arriving while one is pending is released at once. Other tables are untouched. A flush is deferred only when the slot was empty. |
| Scheduler.RemoveProcess | packages/perspective/src/js/perspective.js:62-65 | Cancelling empties the slot, releasing the pending handle without running it. With nothing pending, nothing changes. Other tables are untouched. |
| Scheduler.RunPending | packages/perspective/src/js/perspective.js:54-60 | A flush with no re-entrant calls runs the pending handle and then releases it. The table is left with nothing pending, other tables are untouched, and with nothing pending nothing changes. |
| Scheduler.CallProcess | packages/perspective/src/js/perspective.js:54-60 | After a flush the table has nothing pending. With nothing pending, nothing changes. Otherwise the pending handle runs before any call made by the code it runs, and the log only grows. |
| Scheduler.Commit | packages/perspective/src/js/perspective.js:136-143 | Updates and removes are debounced through the slot. Any other load runs `_process` and releases the pool at once, leaving the pending map alone. |
| Scheduler.Update | packages/perspective/src/js/perspective.js:1953-1995 | An update that schedules nothing (empty data, or a caught engine failure) changes nothing. Otherwise the first handle for an idle table is stored with a deferred flush, and a handle for a pending table is released at once. |
| Scheduler.Clear | packages/perspective/src/js/perspective.js:1363-1366 | `clear` leaves nothing pending for the table, leaves other tables' slots alone, and runs no recompute. |
| Scheduler.Replace | packages/perspective/src/js/perspective.js:1371-1376 | `replace` leaves nothing pending. Without a new handle it is a cancellation. With one, the handle is deferred and then run right after the cancellation. |
| Scheduler.Read | packages/perspective/src/js/perspective.js:1435-1437 | A read flushes first: nothing is pending afterwards, and a pending handle runs before anything else happens. |
| Scheduler.SetProcessPreservesValid | packages/perspective/src/js/perspective.js:45-52 | Scheduling a fresh handle keeps the invariant: at most one live pending handle per table, with no handle shared between tables. |
| Scheduler.RemoveProcessPreservesValid | packages/perspective/src/js/perspective.js:62-65 | Cancelling restores the invariant for the cancelled table. |
| Scheduler.PerformAllPreservesValid | packages/perspective/src/js/perspective.js:45-65 | Any sequence of schedulings with fresh handles, cancellations and flushes keeps the invariant. |
| Scheduler.CallProcessPreservesValid | packages/perspective/src/js/perspective.js:54-60 | A flush keeps the invariant, whatever fresh re-schedules, view deletions and reads the code run by `_process` issues. |
| Scheduler.PerformAllKeepsSlot | packages/perspective/src/js/perspective.js:45-51 | While a table is pending and nothing cancels or flushes it, its handle stays in the slot. So a re-schedule during a flush is discarded. |
| Scheduler.ScheduleAllKeepsFirst | packages/perspective/src/js/perspective.js:45-51 | A loop of updates on a pending table keeps the first handle and releases every later one, in order. |
| Scheduler.BurstLog | packages/perspective/src/js/perspective.js:45-51 | A burst of updates on an idle table stores the first handle, defers one flush and releases the others in order, running nothing. |
| Scheduler.FlushLog | packages/perspective/src/js/perspective.js:54-60 | Flushing a pending table that the code it runs does not read runs the handle once, first, and leaves nothing pending. |
| Scheduler.BatchRunsOnce | packages/perspective/src/js/perspective.js:45-60 | A burst of updates followed by one flush runs the recompute exactly once, with the first handle. Every later handle is released, and nothing is left pending. |
| Scheduler.FlushIdempotent | packages/perspective/src/js/perspective.js:54-60 | A second flush changes nothing. |
| Scheduler.CancelRunsNothing | packages/perspective/src/js/perspective.js:62-65 | Cancelling never adds a recompute run. |
| Scheduler.PerformAllRunsNothing | packages/perspective/src/js/perspective.js:45-65 | Calls made from inside a flush that do not read the table add no run of it. |
| Scheduler.CancelThenScheduleIsReleased | packages/perspective/src/js/perspective.js:54-60 | A callback that deletes a view and then updates the same table: the new handle gets a deferred flush but is released by the outer `_remove_process` without running, and the deferred flush finds nothing. |
| Scheduler.FlushInsideFlushRunsTwice | packages/perspective/src/js/perspective.js:54-60 | A read of the table from inside its own flush runs the pending handle a second time before it is released. |
| Scheduler.ReplaceRunsUpdateOnce | packages/perspective/src/js/perspective.js:1371-1376 | `replace` cancels, updates and flushes. The table ends with nothing pending, and the new handle ran exactly once. |
| Expressions.Trim | packages/perspective/src/js/perspective.js:1513 | `trim` removes only JavaScript white space and line terminators from both ends, and the result neither starts nor ends with one. |
| Expressions.TrimSlices | packages/perspective/src/js/perspective.js:1513 | The input is leading white space, then the trimmed text, then trailing white space. |
| Expressions.AliasGroupMeansAliasLine | packages/perspective/src/js/perspective.js:1510-1514 | The alias regex matches exactly when the text starts with `//`, followed by a non-empty run without line terminators and then a newline. The group is that run. |
| Expressions.Alias | packages/perspective/src/js/perspective.js:1507-1519 | The alias is the trimmed first-line comment when that is non-empty. Otherwise it is the whole expression, in particular when there is no alias line. |
| Expressions.WordLength | packages/perspective/src/js/perspective.js:1522-1524 | The word regex takes the maximal run of `[a-zA-Z0-9_]`. |
| Expressions.RewriteBooleans | packages/perspective/src/js/perspective.js:1522-1533 | The reserved-word pass keeps the length of the text. |
| Expressions.RewriteBooleansOnlyCapitalises | packages/perspective/src/js/perspective.js:1522-1533 | The reserved-word pass keeps the length and changes a character only from `t` to `T` or from `f` to `F`. |
| Expressions.RewriteBooleansSplits | packages/perspective/src/js/perspective.js:1522-1533 | Matches never cross a non-word character, so the pass works piecewise on text cut there. |
| Expressions.ReservedWordsRewritten | packages/perspective/src/js/perspective.js:1525-1531 | A whole word `true` or `false` becomes `True` or `False`. Every other word is unchanged. |
| Expressions.Close | packages/perspective/src/js/perspective.js:1535-1536 | A close that the lazy quote regex finds is a non-backslash character followed by the quote, with no line terminator before it. |
| Expressions.CloseIsFirst | packages/perspective/src/js/perspective.js:1535-1536 | The match is lazy: no earlier position closes the literal. When there is no match, no position before the first line terminator closes it. |
| Expressions.LexRoundTrip | packages/perspective/src/js/perspective.js:1535-1537 | The quote lexer loses nothing: its segments spell the input again. |
| Expressions.LexBodiesWellFormed | packages/perspective/src/js/perspective.js:1535-1537 | Every quoted body is one the regex accepts: non-empty, and not ending in a backslash. |
| Expressions.LexWithoutQuote | packages/perspective/src/js/perspective.js:1535-1537 | A text without the quote character has no quoted segments. |
| Expressions.Unescape | packages/perspective/src/js/perspective.js:1541 | Unescaping `\"` never lengthens a name, and a name without `\"` is unchanged. |
| Expressions.Escape | packages/perspective/src/js/perspective.js:1541 | Escaping puts a backslash before each quote, so it never shortens a name. |
| Expressions.UnescapeEscape | packages/perspective/src/js/perspective.js:1541 | For a name without backslashes, unescaping the escaped name gives the name back. |
| Expressions.DecimalInjective | packages/perspective/src/js/perspective.js:1545 | Distinct counters print as distinct decimal strings. |
| Expressions.ColumnIdInjective | packages/perspective/src/js/perspective.js:1545 | `COLUMN<k>` ids are equal exactly when their counters are. |
| Expressions.Distinct | packages/perspective/src/js/perspective.js:1543-1547 | The referenced names without repeats: the same set, each name once. |
| Expressions.DistinctFirstOrder | packages/perspective/src/js/perspective.js:1543-1547 | The distinct names are in order of first appearance. |
| Expressions.ReplayIsSummary | packages/perspective/src/js/perspective.js:1543-1550 | After any run of references, each name's id is the position of its first reference. The counter counts every reference. |
| Expressions.RenderRefsSummary | packages/perspective/src/js/perspective.js:1535-1552 | The reference pass over a whole expression ends with first-occurrence ids, the distinct names in order, and the total reference count. |
| Expressions.ReplaceColumnsIds | packages/perspective/src/js/perspective.js:1535-1552 | The id map lists every referenced name exactly once, in order of first occurrence. Each name is paired with `COLUMN<k>`, where k is the number of references before its first occurrence. |
| Expressions.ReplaceColumns | packages/perspective/src/js/perspective.js:1535-1552 | The rewritten text replaces every quoted reference by `COLUMN<k>`, where k is the position of the first reference to its unescaped name among all references. Every other character stays. |
| Expressions.RenderRefsText | packages/perspective/src/js/perspective.js:1535-1552 | Continuing after earlier references, the pass renders each reference by the first position of its name in all references so far, including those earlier ones. |
| Expressions.ReplaceColumnsWithoutQuotes | packages/perspective/src/js/perspective.js:1535-1552 | Text without a double quote is kept, and its id map is empty. |
| Expressions.WrapLiteralsRoundTrip | packages/perspective/src/js/perspective.js:1556-1559 | Removing the `intern(...)` wrappers gives the text back. The wrapping adds exactly eight characters per literal. |
| Expressions.UnwrapRender | packages/perspective/src/js/perspective.js:1556-1559 | Each quoted segment is wrapped exactly as `intern(` + segment + `)`, so unwrapping inverts rendering. |
| Expressions.WrapLiteralsTwice | packages/perspective/src/js/perspective.js:1556-1559 | Wrapping an already wrapped literal wraps it again, so the pass is not idempotent. |
| Expressions.Canonicalize | packages/perspective/src/js/perspective.js:1590-1595 | A descriptor keeps the original text, and its alias is the expression's alias. |
| Expressions.CanonicalizeKept | packages/perspective/src/js/perspective.js:1490-1496 | Exactly the expressions without `""` are canonicalized. Every kept one is represented. |
| Expressions.CanonicalizeKeptInOrder | packages/perspective/src/js/perspective.js:1490-1496 | The canonicalized list is the kept expressions, in input order, each canonicalized. |
| Expressions.DedupMatchesExpected | packages/perspective/src/js/perspective.js:1597-1607 | The `expression_idx_map` loop yields one descriptor per alias, at the alias's first position, carrying its last occurrence. The index map points at it. |
| Expressions.DedupByAlias | packages/perspective/src/js/perspective.js:1597-1607 | The output aliases are distinct and are exactly the input aliases. Each entry is the last descriptor with its alias, and first occurrences keep their relative order. |
| Expressions.ParseExpressionStringsSpec | packages/perspective/src/js/perspective.js:1486-1611 | Every output descriptor is the canonical form of a kept input. Aliases are distinct. Every kept expression's alias is represented. |
| Expressions.ParseExpressionStringsOrder | packages/perspective/src/js/perspective.js:1486-1611 | One descriptor per distinct alias of a kept input, in order of each alias's first occurrence among the inputs. |
| Expressions.LastAliasIndex | packages/perspective/src/js/perspective.js:1597-1607 | The position of the last kept input with a given alias: it has that alias, and no later one does. |
| Expressions.ParseExpressionStringsLastWins | packages/perspective/src/js/perspective.js:1597-1607 | Each descriptor is the canonical form of the last kept input with its alias. |
| Dispatch.ParseMode | packages/perspective/src/js/perspective.js:1081-1085 | Exactly `"none"` and `"row"` are valid modes. |
| Dispatch.OnUpdate | packages/perspective/src/js/perspective.js:1078-1120 | An invalid mode throws the source's message and changes nothing. A valid call appends exactly one registration. Row mode enables deltas for the view. |
| Dispatch.OnUpdateFlushing | packages/perspective/src/js/perspective.js:1078-1079 | The flush happens before the mode check, so it happens even when the call throws. Afterwards nothing is pending for the table. A pending handle runs first, and without one the scheduler is unchanged. |
| Dispatch.FilterInPlace | packages/perspective/src/js/perspective.js:1122-1133 | The two-index in-place loop leaves exactly the elements passing the predicate, in their original order. |
| Dispatch.RemoveUpdate | packages/perspective/src/js/perspective.js:1149-1158 | Every registration of the callback is removed and the others stay in order. The asserted "shrank" holds exactly when the callback was registered. |
| Dispatch.RemoveUpdateFlushing | packages/perspective/src/js/perspective.js:1147-1158 | `remove_update` first flushes the table: its pending recompute runs and nothing stays pending. Then the callback's registrations are removed as above. |
| Dispatch.RemoveFirst | packages/perspective/src/js/perspective.js:257 | `splice(indexOf(v), 1)` removes the first occurrence only. |
| Dispatch.ViewDelete | packages/perspective/src/js/perspective.js:252-270 | Deleting a view cancels the pending recompute and unlists the view. It removes exactly that view's registrations and keeps the others in order. The set of delta-enabled views is left as it is, since the flag belongs to the engine view being deleted. |
| Dispatch.TableDelete | packages/perspective/src/js/perspective.js:1384-1396 | Deleting a table throws while views remain, with their count. Otherwise it cancels the pending recompute without running it, and every other table's pending recompute is left as it was. |
| Dispatch.SyncPassShape | packages/perspective/src/js/perspective.js:1097-1117 | As written, the synchronous loop notifies none-mode callbacks at once. Every row-mode callback misses the cache and suspends on its own fetch. |
| Dispatch.DispatchAsWritten | packages/perspective/src/js/perspective.js:1336-1341 | As written, the notices are the none-mode callbacks in registration order, then the row-mode ones in registration order. The delta is fetched once per row-mode registration. |
| Dispatch.AsWrittenFetchesTwice | packages/perspective/src/js/perspective.js:1107-1111 | Two row-mode callbacks of one view: the delta is fetched twice in one dispatch. |
| Dispatch.AsWrittenReorders | packages/perspective/src/js/perspective.js:1336-1341 | As written, every expected notice goes out, with none-mode notices first and row-mode ones after, each in registration order. |
| Dispatch.DispatchCached | packages/perspective/src/js/perspective.js:1336-1341 | The cache holds exactly the fetched views, each with its own delta. |
| Dispatch.DispatchCachedSpec | packages/perspective/src/js/perspective.js:1097-1117 | With a working cache, every registration receives, in order, its port and its view's delta in row mode. Each view is fetched at most once, and exactly when it has a row-mode registration. |
| Dispatch.CachedFetchesOnce | packages/perspective/src/js/perspective.js:1107-1111 | With a working cache, two row-mode callbacks of one view share one fetch. |
| Materialize.NumHidden | packages/perspective/src/js/perspective.js:291-300 | The count is the number of sort entries whose column is not among the shown columns, so it is at most the number of sort entries. |
| Materialize.NumHiddenBounds | packages/perspective/src/js/perspective.js:291-300 | At most one hidden column per sort entry. There are none exactly when every sort column is shown. |
| Materialize.Or | packages/perspective/src/js/perspective.js:470-471 | `a \|\| b` on numbers: `undefined` and `0` fall through to `b`. |
| Materialize.ParseFormatOptions | packages/perspective/src/js/perspective.js:461-499 | `end_row <= num_rows` and `end_col <= num_columns (+1 if pivoted)`. Starts are option, then viewport, then 0. An explicit `end_col` is offset by the row-path slot and scaled by `hidden + 1`. Without an explicit end but with a viewport size, `end_row` is `min(num_rows, start_row + height)` and `end_col` is `min(max_cols, (start_col + width) * (hidden + 1))`, with no row-path offset. Without option or viewport size, the ends are the maxima. |
| Materialize.JsRem | packages/perspective/src/js/perspective.js:611-614 | JavaScript `%`: the remainder has the dividend's sign and magnitude below the divisor, and matches Euclidean `%` for non-negative dividends. |
| Materialize.ColumnsSpec | packages/perspective/src/js/perspective.js:578-635 | A cell is written for exactly the window's slots other than a pivoted view's first slot and the hidden slots, in increasing order. `__ROW_PATH__` is written, first, exactly when pivoted and not column-only. |
| Materialize.NoHiddenSlots | packages/perspective/src/js/perspective.js:610-617 | With no hidden sort column, no slot is skipped. |
| Materialize.HiddenSlotsPeriodic | packages/perspective/src/js/perspective.js:610-617 | Past the offset, a slot is skipped iff `(cidx - offset) mod (columns + hidden) >= columns`, with period `columns + hidden`. |
| Materialize.RowsSpec | packages/perspective/src/js/perspective.js:562-571 | The rows written lie in the window, increase strictly, and are all kept (`leaves_only` skips short row paths). Each has the same layout. |
| Materialize.RowsComplete | packages/perspective/src/js/perspective.js:562-571 | Every kept row of the window is written. |
| Materialize.ToFormat | packages/perspective/src/js/perspective.js:523-576 | `to_format` writes exactly the kept rows of the window, in increasing order, each with the same column layout. |
| Materialize.IndexOf | packages/perspective/src/js/perspective.js:684 | `indexOf` is the first position of the name, or -1 exactly when it is absent. |
| Materialize.ColumnToFormat | packages/perspective/src/js/perspective.js:679-695 | An unknown column gives `undefined`. A known one is read at its first position, shifted by one in a pivoted view, over `start_row \|\| 0` to `end_row \|\| num_rows`. |
| Materialize.NumColumns | packages/perspective/src/js/perspective.js:960-966 | A zero divisor gives NaN. Otherwise the result times `columns + hidden` equals `ncols * columns`: the hidden share is removed proportionally. |
| Materialize.NumColumnsOfBlocks | packages/perspective/src/js/perspective.js:960-966 | For k blocks of `columns + hidden` engine columns, the count is exactly `k * columns`. |
| Materialize.NormalizeKey | packages/perspective/src/js/perspective.js:1785-1818 | One user key succeeds exactly when it is recognized, a deprecated key's replacement is not yet truthy, and the value under `aggregate` is an array of names or of `{column, op}` objects. An unrecognized key gives the exact "Unrecognized" message. On success, the configuration gains exactly the keys written, and every other key keeps its value. A deprecated or accepted key stores the value as given. `aggregate` writes a truthy `aggregates` and a `columns` array with one entry per element. |
| Materialize.EmptyAggregateArrays | packages/perspective/src/js/perspective.js:1808-1813 | An empty array under `aggregate` is iterated without throwing. It gives the same configuration whichever element type it is written with. |
| Materialize.Normalize | packages/perspective/src/js/perspective.js:1784-1819 | The loop returns a configuration only when every user key is recognized. Its keys are then exactly those that the user's keys write. |
| Materialize.UnrecognizedKeyFails | packages/perspective/src/js/perspective.js:1784-1817 | A key that is neither deprecated, `aggregate` nor accepted makes `table.view` throw, wherever it stands. |
| Materialize.PlainKeysCopied | packages/perspective/src/js/perspective.js:1812-1813 | With accepted keys only, the configuration is copied key for key. |
| Materialize.AliasAfterTargetFails | packages/perspective/src/js/perspective.js:1785-1798 | A deprecated key whose replacement already holds a truthy value throws "Duplicate configuration parameter". |
| Materialize.Sides | packages/perspective/src/js/perspective.js:1861-1869 | Two sides exactly with a non-empty `split_by`; none exactly when both pivot lists are empty. |
| Materialize.TableColumns | packages/perspective/src/js/perspective.js:2064-2077 | `table.columns()` is the schema's names without `psp_okey`. |
| Materialize.TableView | packages/perspective/src/js/perspective.js:1781-1879 | The call fails exactly when the key loop fails. Sides follow the defaulted pivots. The expression descriptors are `parse_expression_strings` of the `expressions` list, and there are none without one. Without `columns`, the view shows the table's columns and then the expression aliases. |
| Materialize.StoredIndex | packages/perspective/src/js/perspective.js:2141 | `options.index \|\| null`: a non-empty index is stored as given. An absent or empty index is stored as null, never as `""`. |
| Materialize.ChooseContext | packages/perspective/src/js/perspective.js:182-224 | As written: the unit context exactly when the stored index is `""`, with 0 sides and an empty configuration. Otherwise the side count picks the context, and more than two sides pick none. |
| Materialize.UnitContextUnreachable | packages/perspective/src/js/perspective.js:182-190 | No stored index is `""`, so the constructor as written never picks the unit context. An unindexed table viewed with an empty configuration gets the zero-sided view. |
| Materialize.ChooseContextIntended | packages/perspective/src/js/perspective.js:182-190 | The intended test: the unit context exactly for a table without an index, with 0 sides and an empty configuration. |
| Materialize.IntendedUnitContext | packages/perspective/src/js/perspective.js:182-190 | With the intended test, a table created without an index, or with an empty one, gets the unit context for an empty zero-sided configuration. An indexed table never does. |
| Binding.NullSize | cpp/perspective/src/cpp/emscripten.cpp:379 | `ceil(n/64)*2` words: even, with at least n bits and fewer than 64 spare bits. |
| Binding.SetWordBit | cpp/perspective/src/cpp/emscripten.cpp:389 | The or-assignment of `1 << (idx % 32)` into word `idx / 32` sets bit `idx` of the bitmap and leaves every other bit as it was. |
| Binding.FlatSetIsWordSet | cpp/perspective/src/cpp/emscripten.cpp:389 | Setting a bit in the flat bit sequence and then packing it into words equals setting the word bit in the packed words. |
| Binding.ScanColumn | cpp/perspective/src/cpp/emscripten.cpp:384-394 | The loop pushes one value per input in order, the zero value for a null. It counts the absent inputs, and afterwards a bit is set exactly at the present inputs' indices and nowhere past them. |
| Binding.ColToTypedArray | cpp/perspective/src/cpp/emscripten.cpp:372-401 | One value slot per input (zero for nulls). The null count equals the number of absent inputs. Bit `idx` of the bitmap is set exactly for present inputs, and the padding stays clear. |
| Binding.FillColValid | cpp/perspective/src/cpp/emscripten.cpp:250-259 | Row i is valid exactly when bit `i % 8` of byte `i / 8` is set. |
| Binding.ByteBitsAreWordBits | cpp/perspective/src/cpp/emscripten.cpp:250-259 | Reading 32-bit words byte by byte, little-endian, gives the same bit for every row. |
| Binding.ValidityRoundTrip | cpp/perspective/src/cpp/emscripten.cpp:250-259 | `fill_col_valid` applied to the encoder's bitmap marks exactly the present inputs valid. |
| Binding.BoolValuesAsWritten | cpp/perspective/src/cpp/emscripten.cpp:418-431 | The bool value array has one byte per input. |
| Binding.OrBit | cpp/perspective/src/cpp/emscripten.cpp:425 | `vals[idx/8] \|= v << idx%8` sets bit `idx % 8` of byte `idx / 8` when v is 1, and changes nothing else. |
| Binding.AsWrittenSetsTrueBits | cpp/perspective/src/cpp/emscripten.cpp:425 | Every present `true` element's bit is set, and later ORs never clear it. |
| Binding.AsWrittenCorruptsNinth | cpp/perspective/src/cpp/emscripten.cpp:423-425 | With nine valid booleans of which only element 1 is true, the bit read for element 8 is set. |
| Binding.AsWrittenNotPlain | cpp/perspective/src/cpp/emscripten.cpp:423-425 | Read as one 0/1 byte per element, byte 0 is not 0 although element 0 is false. |
| Binding.PackBools | cpp/perspective/src/cpp/emscripten.cpp:418-431 | The intended packing: `ceil(n/8)` bytes, where bit i is set exactly for a present true element and the padding is clear. |
| Binding.ToInt32 | cpp/perspective/src/cpp/emscripten.cpp:1112-1115 | Storing a `uint32` key in an `int32` column is two's-complement reinterpretation. |
| Binding.FillKeys | cpp/perspective/src/cpp/emscripten.cpp:1084-1121 | An `__INDEX__` column fills both key columns, whatever index is named. Otherwise a named index is cloned into both. Otherwise both hold `(ridx + offset) % limit`, one per row. |
| Binding.RowKeyBounds | cpp/perspective/src/cpp/emscripten.cpp:1112-1115 | A row key is below `limit`. It is non-negative when the limit fits in `int32`, and equals `(ridx + offset) % limit` while the sum does not wrap. |
| Binding.RowKeysCycle | cpp/perspective/src/cpp/emscripten.cpp:1112-1115 | Rows fewer than `limit` apart have distinct keys. Rows exactly `limit` apart share one, so a limited table overwrites its oldest rows. |
| Binding.ParseTypeName | cpp/perspective/src/cpp/emscripten.cpp:711-728 | The six schema names map to INT32, FLOAT64, STR, BOOL, TIME and DATE. A recognized name is the type's own name. |
| Binding.ParseTypeNameOfTypeName | cpp/perspective/src/cpp/emscripten.cpp:711-728 | Every type's name parses back to the type. |
| Binding.SchemaTypes | cpp/perspective/src/cpp/emscripten.cpp:695-734 | The call succeeds exactly when every non-`__INDEX__` entry names a known type. It then gives one type per such entry, in order. Otherwise it aborts with "Unknown type" naming the first unknown entry: every entry before it is known. |
| Binding.GetDataTypes | cpp/perspective/src/cpp/emscripten.cpp:685-743 | No names aborts, whatever the format. Format 2 reads the schema, and other formats infer one type per name. |
| Binding.SchemaTypesRoundTrip | cpp/perspective/src/cpp/emscripten.cpp:700-733 | A schema written from column types reads back as exactly those types. |
| Binding.AppendAbsent | cpp/perspective/src/cpp/emscripten.cpp:562-570 | Merging appends only keys not yet present. Existing names are a prefix, and distinct names stay distinct. For a row's distinct keys, the result is exactly the names followed by the keys not yet listed, in the row's key order. |
| Binding.Discover | cpp/perspective/src/cpp/emscripten.cpp:552-576 | The first row's keys come first. Every name comes from an inspected row, and names stay distinct. |
| Binding.DiscoverMergesAt | cpp/perspective/src/cpp/emscripten.cpp:555-570 | A row whose key count differs from the number of names found before it has all its keys merged into the result. |
| Binding.DiscoverOnlyMerges | cpp/perspective/src/cpp/emscripten.cpp:555-570 | Conversely, a name not among the first row's keys comes from a row whose key count differed from the names found before it. A row as wide as the names so far contributes nothing. |
| Binding.DiscoverPrefix | cpp/perspective/src/cpp/emscripten.cpp:552-576 | The names found before any row stay in place at the front of the final list: later rows only append. |
| Binding.DiscoverStep | cpp/perspective/src/cpp/emscripten.cpp:555-570 | A merged row with distinct keys appends exactly its unlisted keys, in its key order, right after the names found before it. A row that is not merged appends nothing. |
| Binding.GetColumnNames | cpp/perspective/src/cpp/emscripten.cpp:540-583 | Row format fails exactly on empty data. It starts with the first row's keys and draws names only from the first `min(50, length)` rows. Every key of a checked row whose width differs from the names found before it is included, and every other name is one of the first row's keys or comes from such a row. Each merged row's new keys follow the names found before it, in the row's order. Formats 1 and 2 use the object's keys, and other formats give no names. |
| Binding.SameWidthRowIgnored | cpp/perspective/src/cpp/emscripten.cpp:555 | A later row with as many keys as the names so far is not merged, even when its keys differ. |
| Binding.LateRowsIgnored | cpp/perspective/src/cpp/emscripten.cpp:549-552 | Rows past the fiftieth never change the result: doubling `max_check` does not move the loop bound. |
| Binding.AddExpressions | cpp/perspective/src/cpp/emscripten.cpp:1499-1541 | Success exactly when each alias is new to the schema as extended by the earlier expressions, and each expression compiles against that schema. The schema then gains every alias in order. |
| Binding.MakeViewConfig | cpp/perspective/src/cpp/emscripten.cpp:1449-1591 | Column-only exactly when `group_by` is empty and `split_by` is not, and then `psp_okey` is the sole row pivot. The schema is extended by the aliases. Exactly the filters valid against the extended schema are kept, in their order. Each aggregate keeps its column, and a lone aggregate name becomes a one-element list. Columns, sort, filter operator and depths pass through, and the sort specification is the one `init` derives from the sort list and the extended schema. |
| Binding.RepeatedAliasAborts | cpp/perspective/src/cpp/emscripten.cpp:1509-1539 | The same alias twice in one config aborts, even when the schema lacks it. |
| Binding.Depth | cpp/perspective/src/cpp/emscripten.cpp:1688-1692 | A requested depth `d > -1` sets `d - 1`. Otherwise every pivot level is expanded. |
| Binding.MakeContext | cpp/perspective/src/cpp/emscripten.cpp:1664-1747 | One-sided and two-sided contexts get the row and column depths from their own sides. Totals come before the rows exactly when the derived sort specification is non-empty. |
| Binding.RowDepthIndependent | cpp/perspective/src/cpp/emscripten.cpp:1726-1736 | The row depth does not depend on the column pivots or their requested depth. |
| Binding.ColumnOnlyDepth | cpp/perspective/src/cpp/emscripten.cpp:1484-1487 | A column-only view with no requested depth expands its one synthetic `psp_okey` level. |

## Left out

- The engine (`t_pool._process`, contexts, data slices, `get_row_delta`, expression compilation, filter validation, type inference) has no code here. Each appears as a parameter or an opaque value.
- `setTimeout` deferral is the separate flush operation `Scheduler.CallProcess`, and its timing is not modelled. `pool.delete()` and `pool._process()` are events in a log.
- Scheduler.CallProcess: a read made from inside a flush is a flush with no re-entrant calls of its own. Callbacks re-entered by that inner `_process()` are not modelled.
- The two intern-stripping regex passes (`bucket|match|...` and `replace|replace_all`) are an opaque parameter `strip`. They rely on greedy backtracking over nested calls.
- Emscripten interop is not modelled: `t_val` calls, typed-array construction, memory views, `delete()`.
- Dates, times and floats are left out: date conversion, `toLocaleString` formatting, and `scalar_to_val`/`get_scalar` value conversions. Cell values appear as opaque `Item`s or generic `T`.
- `col_to_typed_array<std::string>` (dictionary encoding) and the Arrow and CSV loaders are not modelled.
- `CONFIG_ALIASES` and `CONFIG_VALID_KEYS` live in a constants file that is not part of this model. They are the parameter `Keys`.
- Console output (`console.warn`, `console.error`, `std::cout`) is left out. The `console.assert` of `remove_update` is the returned flag.
- Dispatch.DispatchAsWritten: takes the registrations as a fixed list. The source loops over the live `update_callbacks` array with `for ... in`, and a callback without a mode runs synchronously inside that loop. If such a callback deletes a view or calls `remove_update`, the array is compacted in place and the loop skips the registration that moved into the visited slot. If it calls `on_update`, the new registration is also visited. Neither effect is modelled.
- Delete callbacks (`on_delete`, `remove_delete`) and the `_delete_callbacks` loop are left out: they only call user code.
- Materialize.NumColumns: computes over exact reals, so floating-point rounding of the division is not modelled.
- Materialize.ParseFormatOptions: takes integer options, so `Math.floor` and `Math.ceil` are the identity there.
- Materialize.Value: abstracts configuration values to what the checks inspect, namely arrays, pair objects, the `aggregate` list and scalar truthiness. Several details follow from this. A non-empty array of names under `aggregate` has no `column` or `op` field in its elements. The source then stores `aggregates = {undefined: undefined}`, which the model keeps only as a truthy object. It also pushes one `undefined` per element to `columns`, modelled as `Holes`. The `aggregate is not iterable` message stands for the JavaScript `TypeError` that `for ... of` raises on a non-array (an object, a number, a boolean or `undefined`). The message for an array of `undefined`s stands for the `TypeError` of reading `column` from `undefined`. The date conversion of filter terms is not modelled.
- Binding.FillColValid: requires at least `ceil(n/8)` bitmap bytes. Reading past a `Uint8Array` is not modelled.
- Binding.FillKeys: requires a positive `limit` (the source divides by it) and at most 2^32 rows (the loop counter is `uint32`).
- Binding.ColToTypedArray: shifting 1 into bit 31 of an `int` is taken to set bit 31 of the word, as two's-complement targets do. The value conversion `get_scalar<F, T>` is the identity.
- Binding.MakeContext: an unset pivot depth is treated like `-1`. The default of `t_view_config` is not part of this model.
- Expressions.ReplaceColumnsIds: a column named like a property of `Object.prototype` (`constructor`, `toString`, `hasOwnProperty`, `__proto__`) is taken as already mapped by `column_name_map`, so the source inserts the text of that property instead of a `COLUMN<k>` id. The model treats every name as an own key.
- Expressions.DedupByAlias: an alias named like a property of `Object.prototype` makes `expression_idx_map[alias] !== undefined` true at its first occurrence, so the source stores the descriptor under a non-numeric array key and drops it from the result. The model keeps it.
- Materialize.UnrecognizedKeyFails: a key named like a property of `Object.prototype` is truthy in `CONFIG_ALIASES`, so the source takes it as a deprecated alias and does not throw. `Keys.aliases` holds only the constant's own keys.
- Binding.ConfigErrorMessage: the text for an expression the engine cannot compile is not the engine's own, which is not part of this model.

## Findings

| source | as written | input that shows it | evidently intended | confidence | as-written member | corrected member |
|---|---|---|---|---|---|---|
| packages/perspective/src/js/perspective.js:1107-1111 | `cache[port_id]["row_delta"]` is assigned only after `await this._get_row_delta()` resumes. Every row-mode callback of the synchronous dispatch loop tests the cache before any fetch completes, so each one fetches. | One update, with two row-mode `on_update` callbacks on the same view: two fetches in one dispatch. | The comment says the cache prevents repeated delta calls for callbacks of the same update. The delta is fetched once per view per dispatch. The correction changes the data structure and not only the timing: the source keys its cache by port (`cache[port_id]`), while the corrected cache is keyed by view, because the views sharing a port have different deltas. | medium; not executed | Dispatch.AsWrittenFetchesTwice | Dispatch.DispatchCachedSpec |
| cpp/perspective/src/cpp/emscripten.cpp:423-425 | For each present boolean, its 0/1 byte is pushed and then OR-ed, shifted, into byte `idx / 8` of the same array. The array therefore has one byte per element, and bytes `0 .. n/8` mix an element's own value with the packed bits of eight others. | Nine valid booleans, only element 1 true. Read as a bitmap, element 8 is true. Two booleans `[false, true]`, read as bytes: byte 0 is 2, not 0. | A bit-packed array of `ceil(n/8)` bytes, where byte k holds exactly elements `8k .. 8k+7`, in the layout `fill_col_valid` reads. | medium; not executed | Binding.AsWrittenCorruptsNinth | Binding.PackBools |
| packages/perspective/src/js/perspective.js:182-190 | The view constructor picks the unit context only when `this.table.index === ""`. `perspective.table` stores `options.index \|\| null` (2141) and passes it to the table constructor (2195-2197, 1311), so the index is a non-empty string or `null` and the test is never true. | `perspective.table(data)` with no index, then `table.view()` with an empty configuration: the zero-sided view is built, not the unit view. | `!this.table.index`: the unit context for every table without an index, which is what the empty-string test was evidently written to detect. | medium; not executed | Materialize.UnitContextUnreachable | Materialize.ChooseContextIntended |

=== FILE: arith.dfy ===
/** Facts about Euclidean division that the solver does not find alone. */
module Arith {

  lemma {:induction false} MulAtLeast(a: nat, m: nat)
    requires a >= 1
    ensures m * a >= m
    decreases a
  {
    if a > 1 {
      MulAtLeast(a - 1, m);
      assert m * a == m * (a - 1) + m;
    }
  }

  lemma Unique(y: int, m: nat, q: int, r: int, q2: int, r2: int)
    requires m > 0 && 0 <= r < m && 0 <= r2 < m
    requires y == m * q + r && y == m * q2 + r2
    ensures q == q2
  {
    var d := q - q2;
    assert m * d == r2 - r by {
      assert m * q - m * q2 == m * (q - q2);
    }
    if d >= 1 {
      MulAtLeast(d, m);
    }
  }

  lemma ModShift(x: nat, m: nat)
    requires m > 0
    ensures (x + m) % m == x % m
  {
    var y := x + m;
    assert x == m * (x / m) + x % m;
    assert y == m * (x / m + 1) + x % m by {
      assert m * (x / m + 1) == m * (x / m) + m;
    }
    assert y == m * (y / m) + y % m;
    Unique(y, m, x / m + 1, x % m, y / m, y % m);
  }

  /** Two numbers less than `m` apart have different remainders. */
  lemma ModDistinct(a: nat, b: nat, m: nat)
    requires 0 < m && a < b < a + m
    ensures a % m != b % m
  {
    if a % m == b % m {
      var d := b / m - a / m;
      assert m * d == b - a by {
        assert a == m * (a / m) + a % m && b == m * (b / m) + b % m;
        assert m * (b / m) - m * (a / m) == m * d;
      }
      if d >= 1 {
        MulAtLeast(d, m);
      }
    }
  }
}

=== FILE: binding.dfy ===
/** The pure list and bit routines of the Emscripten binding
    (`emscripten.cpp`): the typed-array encoder `col_to_typed_array` with its
    validity bitmap and its bool variant, the bitmap reader `fill_col_valid`,
    the synthetic keys of `_fill_data`, the schema type names of
    `get_data_types`, the column discovery of `get_column_names`, and the
    view configuration and context depths of `make_view_config` and
    `make_context`.

    JavaScript values crossing the binding are given as plain Dafny values:
    an object's `Object.keys` order is a `seq<string>`, a typed array is a
    `seq` of fixed-width words. Engine calls (expression compilation, filter
    validation, type inference) are function parameters. */
module Binding {
  import opened Wrappers
  import Arith

  /** A 32-bit word and an 8-bit byte as their bits, least significant
      first: element `b` is the bit `1 << b` selects. */
  type Word = s: seq<bool> | |s| == 32 witness ZeroWord
  type Byte = s: seq<bool> | |s| == 8 witness ZeroByte

  const ZeroWord: seq<bool> :=
    [false, false, false, false, false, false, false, false, false, false, false, false, false, false, false, false]
    + [false, false, false, false, false, false, false, false, false, false, false, false, false, false, false, false]
  const ZeroByte: seq<bool> := [false, false, false, false, false, false, false, false]

  // ---------------------------------------------------------------------------
  // Validity bitmap

  /** One scalar of a column slice: its validity flag, whether its type is
      `DTYPE_NONE`, and its value. */
  datatype Scalar<T> = Scalar(valid: bool, none: bool, value: T)

  /** A scalar that is written as a value and marked valid. */
  predicate Present<T>(x: Scalar<T>)
  {
    x.valid && !x.none
  }

  predicate Absent<T>(x: Scalar<T>)
  {
    !Present(x)
  }

  /** `ceil(n / 64.0) * 2`: enough 32-bit words for whole 64-bit blocks. */
  function NullSize(n: nat): (r: nat)
    ensures r % 2 == 0 && n <= 32 * r < n + 64
  {
    (n + 63) / 64 * 2
  }

  /** Bit `i % 32` of word `i / 32`. */
  predicate WordBit(ws: seq<Word>, i: nat)
    requires i < 32 * |ws|
  {
    ws[i / 32][i % 32]
  }

  /** Bit `i % 8` of byte `i / 8`. */
  predicate ByteBit(bs: seq<Byte>, i: nat)
    requires i < 8 * |bs|
  {
    bs[i / 8][i % 8]
  }

  /** `ws[idx / 32] |= 1 << (idx % 32)`. */
  function SetWordBit(ws: seq<Word>, idx: nat): (r: seq<Word>)
    requires idx < 32 * |ws|
    ensures |r| == |ws|
    ensures forall i :: 0 <= i < 32 * |ws| ==> (WordBit(r, i) <==> i == idx || WordBit(ws, i))
  {
    var w: Word := ws[idx / 32][idx % 32 := true];
    var r := ws[idx / 32 := w];
    assert forall i :: 0 <= i < 32 * |ws| && i / 32 == idx / 32 ==> (i == idx <==> i % 32 == idx % 32);
    r
  }

  /** The value slot of one input: its value, or `zero` for a null. */
  function SlotOf<T>(zero: T): Scalar<T> -> T
  {
    x => if Present(x) then x.value else zero
  }

  /** A flat bit string of `r` words cut into those words: bit `i` lands in
      bit `i % 32` of word `i / 32`. */
  function ToWords(bits: seq<bool>, r: nat): (ws: seq<Word>)
    requires |bits| == 32 * r
    ensures |ws| == r
    ensures forall i :: 0 <= i < |bits| ==> (WordBit(ws, i) <==> bits[i])
  {
    var ws: seq<Word> := seq(r, k requires 0 <= k < r => WordAt(bits, r, k));
    forall i | 0 <= i < |bits|
      ensures WordBit(ws, i) <==> bits[i]
    {
      var k := i / 32;
      assert 32 * k + i % 32 == i;
    }
    ws
  }

  /** Word `k` of a flat bit string of `r` words. */
  function WordAt(bits: seq<bool>, r: nat, k: nat): (w: Word)
    requires |bits| == 32 * r && k < r
    ensures forall b :: 0 <= b < 32 ==> w[b] == bits[32 * k + b]
  {
    bits[32 * k..32 * k + 32]
  }

  /** Setting bit `idx` of the flat string is `SetWordBit` on its words: the
      flat loop below and the source's word update agree bit for bit. */
  lemma FlatSetIsWordSet(bits: seq<bool>, r: nat, idx: nat)
    requires |bits| == 32 * r && idx < |bits|
    ensures forall i :: 0 <= i < |bits| ==>
      (WordBit(ToWords(bits[idx := true], r), i) <==> WordBit(SetWordBit(ToWords(bits, r), idx), i))
  {
  }

  /** The bitmap invariant of `ColToTypedArray` after `idx` inputs: a bit is
      set exactly for the present inputs so far. */
  ghost predicate BitsSoFar<T>(bits: seq<bool>, data: seq<Scalar<T>>, idx: nat)
  {
    && idx <= |data| <= |bits|
    && (forall i :: 0 <= i < idx ==> (bits[i] <==> Present(data[i])))
    && (forall i :: idx <= i < |bits| ==> !bits[i])
  }

  lemma BitsStep<T>(bits: seq<bool>, data: seq<Scalar<T>>, idx: nat)
    requires BitsSoFar(bits, data, idx) && idx < |data|
    ensures BitsSoFar(if Present(data[idx]) then bits[idx := true] else bits, data, idx + 1)
  {
  }

  /** The loop of `col_to_typed_array` over a flat bit string of `32 * r`
      bits: one value slot per input, the nulls counted, and bit `idx` set
      exactly for the present inputs. */
  method ScanColumn<T>(data: seq<Scalar<T>>, zero: T, r: nat) returns (vals: seq<T>, nullCount: nat, bits: seq<bool>)
    requires |data| <= 32 * r
    ensures |bits| == 32 * r && BitsSoFar(bits, data, |data|)
    ensures vals == MapSeq(data, SlotOf(zero))
    ensures nullCount == Count(data, Absent)
  {
    bits := seq(32 * r, _ => false);
    vals := [];
    nullCount := 0;
    var idx := 0;
    while idx < |data|
      invariant |bits| == 32 * r
      invariant BitsSoFar(bits, data, idx)
      invariant vals == MapSeq(data[..idx], SlotOf(zero))
      invariant nullCount == Count(data[..idx], Absent)
    {
      var scalar := data[idx];
      assert data[..idx + 1] == data[..idx] + [scalar];
      MapSnoc(data[..idx], scalar, SlotOf(zero));
      CountSnoc(data[..idx], scalar, Absent);
      BitsStep(bits, data, idx);
      if Present(scalar) {
        vals := vals + [scalar.value];
        bits := bits[idx := true];
      } else {
        vals := vals + [zero];
        nullCount := nullCount + 1;
      }
      idx := idx + 1;
    }
    assert data[..idx] == data;
  }

  /** The generic `col_to_typed_array`: one value slot per input (the zero
      value for a null), the number of nulls, and a validity bitmap of
      `NullSize` words whose bit `idx` is set exactly for the present inputs.
      The bitmap's padding bits stay clear. The loop sets bits of a flat
      string, which `FlatSetIsWordSet` shows is the source's word update. */
  method ColToTypedArray<T>(data: seq<Scalar<T>>, zero: T) returns (vals: seq<T>, nullCount: nat, validity: seq<Word>)
    ensures |vals| == |data|
    ensures forall i :: 0 <= i < |data| ==> vals[i] == if Present(data[i]) then data[i].value else zero
    ensures nullCount == Count(data, Absent)
    ensures |validity| == NullSize(|data|)
    ensures forall i :: 0 <= i < |data| ==> (WordBit(validity, i) <==> Present(data[i]))
    ensures forall i :: |data| <= i < 32 * |validity| ==> !WordBit(validity, i)
  {
    var r := NullSize(|data|);
    var bits;
    vals, nullCount, bits := ScanColumn(data, zero, r);
    validity := ToWords(bits, r);
  }

  /** The bytes of 32-bit words in memory order (little-endian), as a
      `Uint8Array` over the same buffer sees them: byte `k` is bits
      `8 * (k % 4)` to `8 * (k % 4) + 7` of word `k / 4`. */
  function LittleEndian(ws: seq<Word>): (bs: seq<Byte>)
    ensures |bs| == 4 * |ws|
    ensures forall k, b :: 0 <= k < |bs| && 0 <= b < 8 ==> bs[k][b] == ws[k / 4][8 * (k % 4) + b]
  {
    seq(4 * |ws|, k requires 0 <= k < 4 * |ws| => ws[k / 4][8 * (k % 4) .. 8 * (k % 4) + 8])
  }

  /** `fill_col_valid`: row `i` is valid exactly when bit `i % 8` of byte
      `i / 8` is set. The reader indexes byte `i / 8` for every row, so the
      bitmap must hold at least `ceil(n / 8)` bytes. */
  function FillColValid(bitmap: seq<Byte>, n: nat): (valid: seq<bool>)
    requires n <= 8 * |bitmap|
    ensures |valid| == n
    ensures forall i :: 0 <= i < n ==> valid[i] == ByteBit(bitmap, i)
  {
    seq(n, i requires 0 <= i < n => ByteBit(bitmap, i))
  }

  /** Reading the words' bytes bit by bit gives back the words' bits: the
      byte-level and word-level views of the bitmap agree. */
  lemma ByteBitsAreWordBits(ws: seq<Word>, i: nat)
    requires i < 32 * |ws|
    ensures ByteBit(LittleEndian(ws), i) <==> WordBit(ws, i)
  {
    var k := i / 8;
    assert k / 4 == i / 32;
    assert 8 * (k % 4) + i % 8 == i % 32;
  }

  /** Decoding the validity bitmap of `ColToTypedArray` with
      `fill_col_valid` marks exactly the present inputs valid. */
  lemma ValidityRoundTrip<T>(data: seq<Scalar<T>>, validity: seq<Word>)
    requires |validity| == NullSize(|data|)
    requires forall i :: 0 <= i < |data| ==> (WordBit(validity, i) <==> Present(data[i]))
    ensures forall i :: 0 <= i < |data| ==> FillColValid(LittleEndian(validity), |data|)[i] == Present(data[i])
  {
    forall i | 0 <= i < |data|
      ensures FillColValid(LittleEndian(validity), |data|)[i] == Present(data[i])
    {
      ByteBitsAreWordBits(validity, i);
    }
  }

  // ---------------------------------------------------------------------------
  // Bool columns

  /** `get_scalar<std::int8_t>` of a boolean: 0 or 1, so only bit 0 can be
      set. */
  function BoolByte(x: Scalar<bool>): (b: Byte)
    ensures b[0] == x.value && forall j :: 1 <= j < 8 ==> !b[j]
  {
    ZeroByte[0 := x.value]
  }

  /** `vals[idx / 8] |= t_val << (idx % 8)` with `t_val` 0 or 1: bit
      `idx % 8` of byte `idx / 8` is set when the value is true. */
  function OrBit(vals: seq<Byte>, idx: nat, v: bool): (r: seq<Byte>)
    requires idx / 8 < |vals|
    ensures |r| == |vals|
    ensures forall k, b :: 0 <= k < |vals| && 0 <= b < 8 ==>
      r[k][b] == (vals[k][b] || (v && k == idx / 8 && b == idx % 8))
  {
    var w: Byte := vals[idx / 8][idx % 8 := vals[idx / 8][idx % 8] || v];
    vals[idx / 8 := w]
  }

  /** The value array of `col_to_typed_array<bool>` as written: each present
      element pushes its own 0/1 byte and then ORs that value into bit
      `idx % 8` of byte `idx / 8` of the same array; a null pushes 0. */
  function BoolValuesAsWritten(data: seq<Scalar<bool>>): (vals: seq<Byte>)
    ensures |vals| == |data|
  {
    if |data| == 0 then []
    else
      var idx := |data| - 1;
      var prev := BoolValuesAsWritten(data[..idx]);
      var x := data[idx];
      if Present(x) then OrBit(prev + [BoolByte(x)], idx, x.value)
      else prev + [ZeroByte]
  }

  /** Every present `true` element has its bit set at `idx / 8`, `idx % 8`:
      the OR is there, and later ORs never clear it. */
  lemma {:induction false} AsWrittenSetsTrueBits(data: seq<Scalar<bool>>, i: nat)
    requires i < |data| && Present(data[i]) && data[i].value
    ensures ByteBit(BoolValuesAsWritten(data), i)
  {
    var idx := |data| - 1;
    if i < idx {
      assert data[..idx][i] == data[i];
      AsWrittenSetsTrueBits(data[..idx], i);
    }
  }

  /** A column of nine valid booleans, only element 1 true. */
  function NineBools(): seq<Scalar<bool>>
  {
    seq(9, i => Scalar(true, false, i == 1))
  }

  /** As written, element 1's own byte shares its storage with the packed
      byte for elements 8 to 15: with nine valid booleans of which only
      element 1 is true, bit 0 of byte 1 reads as set, so element 8 decodes
      as true although it is false. */
  lemma AsWrittenCorruptsNinth()
    ensures !NineBools()[8].value
    ensures FillColValid(BoolValuesAsWritten(NineBools()), 9)[8]
  {
    var data := NineBools();
    assert data[..2][..1] == data[..1];
    assert BoolValuesAsWritten(data[..2])[1][0];
    var k := 2;
    while k < 9
      invariant 2 <= k <= 9
      invariant BoolValuesAsWritten(data[..k])[1][0]
    {
      assert data[..k + 1][..k] == data[..k];
      k := k + 1;
    }
    assert data[..9] == data;
  }

  /** Read instead as one 0/1 byte per element, the array fails too: with
      element 0 false and element 1 true, byte 0 also carries element 1's
      bit, so it is not the 0 that stands for false. */
  lemma AsWrittenNotPlain()
    ensures var data := [Scalar(true, false, false), Scalar(true, false, true)];
      && !data[0].value
      && BoolValuesAsWritten(data)[0] != ZeroByte
  {
    var data := [Scalar(true, false, false), Scalar(true, false, true)];
    assert data[..1][..0] == [];
    assert BoolValuesAsWritten(data)[0][1];
  }

  /** Up to eight elements into one byte, element `j` at bit `j`; the
      remaining bits are clear. */
  function PackByte(group: seq<Scalar<bool>>): (b: Byte)
    requires |group| <= 8
    ensures forall j :: 0 <= j < |group| ==> (b[j] <==> Present(group[j]) && group[j].value)
    ensures forall j :: |group| <= j < 8 ==> !b[j]
  {
    seq(8, j requires 0 <= j < 8 => j < |group| && Present(group[j]) && group[j].value)
  }

  /** The intended packing: byte `k` holds bit `j` for element `8k + j`
      (set when that element is present and true) and nothing else. */
  function PackBools(data: seq<Scalar<bool>>): (bs: seq<Byte>)
    ensures |bs| == (|data| + 7) / 8
    ensures forall i :: 0 <= i < |data| ==> (ByteBit(bs, i) <==> Present(data[i]) && data[i].value)
    ensures forall i :: |data| <= i < 8 * |bs| ==> !ByteBit(bs, i)
  {
    seq((|data| + 7) / 8, k requires 0 <= k < (|data| + 7) / 8 =>
      PackByte(data[8 * k .. if 8 * k + 8 <= |data| then 8 * k + 8 else |data|]))
  }

  /** Reading the packed bytes with `fill_col_valid` gives each present
      element's truth value back. */
  lemma PackRoundTrip(data: seq<Scalar<bool>>)
    ensures forall i :: 0 <= i < |data| && Present(data[i]) ==> FillColValid(PackBools(data), |data|)[i] == data[i].value
  {
  }

  // ---------------------------------------------------------------------------
  // Synthetic keys

  const Uint32Range: nat := 0x1_0000_0000

  /** `UINT32_MAX`, the limit of a table without one. */
  const NoLimit: nat := Uint32Range - 1

  /** Storing a `uint32` through `set_nth<std::int32_t>`: two's complement
      reinterpretation. */
  function ToInt32(x: nat): (r: int)
    requires x < Uint32Range
    ensures -0x8000_0000 <= r < 0x8000_0000
    ensures (r + Uint32Range) % Uint32Range == x
  {
    if x < 0x8000_0000 then x else x - Uint32Range
  }

  /** Where the two key columns come from. */
  datatype KeySource = FromColumn(column: string) | RowNumbers(keys: seq<int>)

  datatype Keys = Keys(pkey: KeySource, okey: KeySource)

  /** The key of row `ridx`: `(ridx + offset) % limit` in `uint32`
      arithmetic, stored as `int32`. */
  function RowKey(ridx: nat, offset: nat, limit: nat): int
    requires ridx < Uint32Range && offset < Uint32Range && 0 < limit < Uint32Range
  {
    ToInt32((ridx + offset) % Uint32Range % limit)
  }

  /** The key columns `_fill_data` leaves in the table. An `__INDEX__`
      column fills `psp_pkey`, which is cloned to `psp_okey`, whatever index
      was named; otherwise a named index is cloned into both; otherwise both
      hold the row numbers shifted by `offset`, modulo `limit`. A `limit` of
      0 would divide by zero, so the model asks for a positive one. */
  function FillKeys(columns: seq<string>, index: string, offset: nat, limit: nat, size: nat): (k: Keys)
    requires offset < Uint32Range && 0 < limit < Uint32Range && size <= Uint32Range
    ensures "__INDEX__" in columns ==> k == Keys(FromColumn("__INDEX__"), FromColumn("__INDEX__"))
    ensures "__INDEX__" !in columns && index != "" ==> k == Keys(FromColumn(index), FromColumn(index))
    ensures "__INDEX__" !in columns && index == "" ==>
      && k.pkey.RowNumbers? && k.pkey == k.okey && |k.pkey.keys| == size
      && forall r :: 0 <= r < size ==> k.pkey.keys[r] == RowKey(r, offset, limit)
  {
    if "__INDEX__" in columns then Keys(FromColumn("__INDEX__"), FromColumn("__INDEX__"))
    else if index != "" then Keys(FromColumn(index), FromColumn(index))
    else
      var keys := seq(size, r requires 0 <= r < size => RowKey(r, offset, limit));
      Keys(RowNumbers(keys), RowNumbers(keys))
  }

  /** A row key is below `limit`; it is non-negative when the limit fits
      in `int32`, and is exactly the shifted row number while that does not
      wrap. */
  lemma RowKeyBounds(ridx: nat, offset: nat, limit: nat)
    requires ridx < Uint32Range && offset < Uint32Range && 0 < limit < Uint32Range
    ensures RowKey(ridx, offset, limit) < limit
    ensures limit <= 0x8000_0000 ==> 0 <= RowKey(ridx, offset, limit)
    ensures ridx + offset < Uint32Range && limit <= 0x8000_0000 ==> RowKey(ridx, offset, limit) == (ridx + offset) % limit
  {
  }

  /** Rows `limit` apart share a key, so a limited table overwrites its
      oldest rows; rows fewer than `limit` apart never do. */
  lemma RowKeysCycle(r: nat, r': nat, offset: nat, limit: nat)
    requires r < r' && r' + offset < Uint32Range && 0 < limit <= 0x8000_0000
    ensures r' - r < limit ==> RowKey(r, offset, limit) != RowKey(r', offset, limit)
    ensures r' == r + limit ==> RowKey(r, offset, limit) == RowKey(r', offset, limit)
  {
    assert (r + offset) % Uint32Range == r + offset;
    assert (r' + offset) % Uint32Range == r' + offset;
    if r' - r < limit {
      Arith.ModDistinct(r + offset, r' + offset, limit);
    }
    if r' == r + limit {
      Arith.ModShift(r + offset, limit);
    }
  }

  // ---------------------------------------------------------------------------
  // Schema type names

  /** The engine types a schema may name. */
  datatype DType = Int32 | Float64 | Str | Bool | Time | Date

  /** The name a schema uses for each type. */
  function TypeName(t: DType): string
  {
    match t
    case Int32 => "integer"
    case Float64 => "float"
    case Str => "string"
    case Bool => "boolean"
    case Time => "datetime"
    case Date => "date"
  }

  /** The type a schema name stands for, if any. */
  function ParseTypeName(name: string): (t: Option<DType>)
    ensures t.Some? ==> TypeName(t.value) == name
  {
    if name == "integer" then Some(Int32)
    else if name == "float" then Some(Float64)
    else if name == "string" then Some(Str)
    else if name == "boolean" then Some(Bool)
    else if name == "datetime" then Some(Time)
    else if name == "date" then Some(Date)
    else None
  }

  lemma ParseTypeNameOfTypeName(t: DType)
    ensures ParseTypeName(TypeName(t)) == Some(t)
  {
  }

  predicate IsIndexEntry(e: (string, string))
  {
    e.0 == "__INDEX__"
  }

  predicate NotIndexEntry(e: (string, string))
  {
    e.0 != "__INDEX__"
  }

  predicate KnownEntry(e: (string, string))
  {
    IsIndexEntry(e) || ParseTypeName(e.1).Some?
  }

  function EntryType(e: (string, string)): DType
  {
    ParseTypeName(e.1).GetOr(Int32)
  }

  function UnknownType(e: (string, string)): string
  {
    "Unknown type '" + e.1 + "' for key '" + e.0 + "'\n"
  }

  /** The first entry of `schema` that is not known, if any. */
  predicate FirstUnknown(schema: seq<(string, string)>, k: int)
  {
    0 <= k < |schema| && !KnownEntry(schema[k]) && forall j :: 0 <= j < k ==> KnownEntry(schema[j])
  }

  /** The format-2 branch of `get_data_types` over the schema object's
      `(key, type name)` entries: `__INDEX__` is skipped, each other entry
      gives its type in order, and the first unknown name aborts. */
  function SchemaTypes(schema: seq<(string, string)>): (r: Result<seq<DType>, string>)
    ensures r.Success? <==> forall e :: e in schema ==> KnownEntry(e)
    ensures r.Success? ==> r.value == MapSeq(Filter(schema, NotIndexEntry), EntryType)
    ensures r.Failure? ==> exists k :: FirstUnknown(schema, k) && r.error == UnknownType(schema[k])
  {
    if |schema| == 0 then Success([])
    else
      var init := schema[..|schema| - 1];
      var e := schema[|schema| - 1];
      assert forall x :: x in schema <==> x in init || x == e;
      var prev := SchemaTypes(init);
      assert schema == init + [e];
      FirstUnknownSnoc(init, e, if prev.Failure? then prev.error else "");
      if prev.Failure? then Failure(prev.error)
      else if IsIndexEntry(e) then Success(prev.value)
      else if ParseTypeName(e.1).None? then Failure(UnknownType(e))
      else Success(prev.value + [EntryType(e)])
  }

  lemma FirstUnknownSnoc(init: seq<(string, string)>, e: (string, string), err: string)
    ensures (exists k :: FirstUnknown(init, k) && err == UnknownType(init[k])) ==>
      exists k :: FirstUnknown(init + [e], k) && err == UnknownType((init + [e])[k])
    ensures (forall x :: x in init ==> KnownEntry(x)) && !KnownEntry(e) ==>
      FirstUnknown(init + [e], |init|) && (init + [e])[|init|] == e
  {
    var schema := init + [e];
    if exists k :: FirstUnknown(init, k) && err == UnknownType(init[k]) {
      var k :| FirstUnknown(init, k) && err == UnknownType(init[k]);
      assert forall j :: 0 <= j <= k ==> schema[j] == init[j];
      assert FirstUnknown(schema, k);
    }
    if (forall x :: x in init ==> KnownEntry(x)) && !KnownEntry(e) {
      assert forall j :: 0 <= j < |init| ==> schema[j] == init[j] && init[j] in init;
    }
  }

  /** `get_data_types`: no names aborts whatever the format; format 2 reads
      the schema; any other format infers a type per name (the engine's
      `get_data_type`, a parameter here). */
  function GetDataTypes(format: int, names: seq<string>, schema: seq<(string, string)>, infer: string -> DType): (r: Result<seq<DType>, string>)
    ensures |names| == 0 ==> r == Failure("Cannot determine data types without column names!\n")
    ensures |names| > 0 && format == 2 ==> r == SchemaTypes(schema)
    ensures |names| > 0 && format != 2 ==>
      r.Success? && |r.value| == |names| && forall i :: 0 <= i < |names| ==> r.value[i] == infer(names[i])
  {
    if |names| == 0 then Failure("Cannot determine data types without column names!\n")
    else if format == 2 then SchemaTypes(schema)
    else Success(MapSeq(names, infer))
  }

  function SchemaEntry(c: (string, DType)): (string, string)
  {
    (c.0, TypeName(c.1))
  }

  function TypeOf(c: (string, DType)): DType
  {
    c.1
  }

  /** A schema written from column types reads back as those types. */
  lemma {:induction false} SchemaTypesRoundTrip(cols: seq<(string, DType)>)
    requires forall c :: c in cols ==> c.0 != "__INDEX__"
    ensures SchemaTypes(MapSeq(cols, SchemaEntry)) == Success(MapSeq(cols, TypeOf))
  {
    if |cols| > 0 {
      var init := cols[..|cols| - 1];
      var c := cols[|cols| - 1];
      assert forall x :: x in init ==> x in cols;
      SchemaTypesRoundTrip(init);
      SchemaTypesSnoc(init, c);
    }
  }

  lemma SchemaTypesSnoc(init: seq<(string, DType)>, c: (string, DType))
    requires c.0 != "__INDEX__"
    requires SchemaTypes(MapSeq(init, SchemaEntry)) == Success(MapSeq(init, TypeOf))
    ensures SchemaTypes(MapSeq(init + [c], SchemaEntry)) == Success(MapSeq(init + [c], TypeOf))
  {
    var schema := MapSeq(init + [c], SchemaEntry);
    assert schema[..|schema| - 1] == MapSeq(init, SchemaEntry);
    assert schema[|schema| - 1] == SchemaEntry(c);
    ParseTypeNameOfTypeName(c.1);
    assert MapSeq(init + [c], TypeOf) == MapSeq(init, TypeOf) + [c.1];
  }

  // ---------------------------------------------------------------------------
  // Column discovery

  /** The test `find` fails in `get_column_names`: a key not yet listed. */
  function NotListed(names: seq<string>): string -> bool
  {
    k => k !in names
  }

  /** Appending each of `keys` not already in the list, in order. The keys
      of one row object are distinct, and then exactly the absent ones are
      appended, in the row's order. */
  function AppendAbsent(names: seq<string>, keys: seq<string>): (r: seq<string>)
    ensures names <= r
    ensures forall x :: x in r <==> x in names || x in keys
    ensures NoDuplicates(names) ==> NoDuplicates(r)
    ensures NoDuplicates(keys) ==> r == names + Filter(keys, NotListed(names))
  {
    if |keys| == 0 then names
    else
      var init := keys[..|keys| - 1];
      var prev := AppendAbsent(names, init);
      var k := keys[|keys| - 1];
      assert keys == init + [k];
      assert forall x :: x in keys <==> x in init || x == k;
      FilterSnoc(init, k, NotListed(names));
      DistinctInit(init, k);
      FilterProperties(init, NotListed(names));
      if k in prev then prev else prev + [k]
  }

  lemma DistinctInit(init: seq<string>, k: string)
    ensures NoDuplicates(init + [k]) ==> NoDuplicates(init) && k !in init
  {
    var keys := init + [k];
    if NoDuplicates(keys) {
      forall i, j | 0 <= i < j < |init| ensures init[i] != init[j] {
        assert init[i] == keys[i] && init[j] == keys[j];
      }
      forall i | 0 <= i < |init| ensures init[i] != k {
        assert init[i] == keys[i] && k == keys[|init|];
      }
    }
  }

  /** The names after checking `rows` in turn: a row whose key count differs
      from the number of names found so far contributes its new keys; a row
      with as many keys contributes nothing. */
  function Discover(first: seq<string>, rows: seq<seq<string>>): (r: seq<string>)
    ensures first <= r
    ensures forall x :: x in r ==> x in first || exists row :: row in rows && x in row
    ensures NoDuplicates(first) ==> NoDuplicates(r)
  {
    if |rows| == 0 then first
    else
      var prev := Discover(first, rows[..|rows| - 1]);
      var row := rows[|rows| - 1];
      assert forall x :: x in rows[..|rows| - 1] ==> x in rows;
      if |prev| != |row| then AppendAbsent(prev, row) else prev
  }

  lemma {:induction false} DiscoverMergesAt(first: seq<string>, rows: seq<seq<string>>, i: nat, x: string)
    requires i < |rows| && |Discover(first, rows[..i])| != |rows[i]| && x in rows[i]
    ensures x in Discover(first, rows)
    decreases |rows|
  {
    var init := rows[..|rows| - 1];
    if i < |init| {
      assert rows[..i] == init[..i] && rows[i] == init[i];
      DiscoverMergesAt(first, init, i, x);
    } else {
      assert rows[..i] == init;
    }
  }

  /** Conversely, a name not in the first row comes from a row whose key
      count differed from the names found before it. */
  lemma {:induction false} DiscoverOnlyMerges(first: seq<string>, rows: seq<seq<string>>, x: string) returns (i: nat)
    requires x in Discover(first, rows) && x !in first
    ensures i < |rows| && |Discover(first, rows[..i])| != |rows[i]| && x in rows[i]
    decreases |rows|
  {
    var init := rows[..|rows| - 1];
    if x in Discover(first, init) {
      i := DiscoverOnlyMerges(first, init, x);
      assert init[..i] == rows[..i] && init[i] == rows[i];
    } else {
      i := |rows| - 1;
      assert rows[..i] == init;
    }
  }

  /** The names found before any row stay, in place, at the front of the
      result: later rows only append. */
  lemma {:induction false} DiscoverPrefix(first: seq<string>, rows: seq<seq<string>>, i: nat)
    requires i <= |rows|
    ensures Discover(first, rows[..i]) <= Discover(first, rows)
    decreases |rows|
  {
    if i < |rows| {
      var init := rows[..|rows| - 1];
      assert rows[..i] == init[..i];
      DiscoverPrefix(first, init, i);
    } else {
      assert rows[..i] == rows;
    }
  }

  /** A row with distinct keys whose count differs from the names found
      before it appends exactly its unlisted keys, in the row's order; any
      other row appends nothing. */
  lemma DiscoverStep(first: seq<string>, rows: seq<seq<string>>, i: nat)
    requires i < |rows| && NoDuplicates(rows[i])
    ensures Discover(first, rows[..i + 1]) == Discover(first, rows[..i]) +
      (if |Discover(first, rows[..i])| != |rows[i]| then Filter(rows[i], NotListed(Discover(first, rows[..i]))) else [])
  {
    assert rows[..i + 1][..i] == rows[..i];
    assert rows[..i + 1][i] == rows[i];
  }

  /** The merge rule over all rows, in both directions, with the order in
      which a merged row's keys are appended. */
  lemma DiscoverMerges(first: seq<string>, rows: seq<seq<string>>)
    ensures forall i, x :: 0 <= i < |rows| && |Discover(first, rows[..i])| != |rows[i]| && x in rows[i] ==>
      x in Discover(first, rows)
    ensures forall x :: x in Discover(first, rows) ==>
      x in first || exists i :: 0 <= i < |rows| && |Discover(first, rows[..i])| != |rows[i]| && x in rows[i]
    ensures forall i :: 0 <= i < |rows| && NoDuplicates(rows[i]) && |Discover(first, rows[..i])| != |rows[i]| ==>
      Discover(first, rows[..i]) + Filter(rows[i], NotListed(Discover(first, rows[..i]))) <= Discover(first, rows)
  {
    forall i, x | 0 <= i < |rows| && |Discover(first, rows[..i])| != |rows[i]| && x in rows[i]
      ensures x in Discover(first, rows)
    {
      DiscoverMergesAt(first, rows, i, x);
    }
    forall x | x in Discover(first, rows) && x !in first
      ensures exists i :: 0 <= i < |rows| && |Discover(first, rows[..i])| != |rows[i]| && x in rows[i]
    {
      var i := DiscoverOnlyMerges(first, rows, x);
    }
    forall i | 0 <= i < |rows| && NoDuplicates(rows[i]) && |Discover(first, rows[..i])| != |rows[i]|
      ensures Discover(first, rows[..i]) + Filter(rows[i], NotListed(Discover(first, rows[..i]))) <= Discover(first, rows)
    {
      DiscoverStep(first, rows, i);
      DiscoverPrefix(first, rows, i + 1);
    }
  }

  /** `get_column_names`. Row format (0) starts from the first row's keys
      and checks the first `min(50, length)` rows; the bound is fixed
      before the loop, so doubling `max_check` inside it checks no more
      rows. An empty row array has no first row, and `Object.keys` of
      `undefined` throws. Column and schema formats (1, 2) take the
      object's own keys; any other format has no names. */
  function GetColumnNames(format: int, rows: seq<seq<string>>, objectKeys: seq<string>): (r: Result<seq<string>, string>)
    ensures format == 0 ==> (r.Failure? <==> |rows| == 0)
    ensures format == 0 && |rows| > 0 ==> rows[0] <= r.value
    ensures format == 0 && |rows| > 0 && NoDuplicates(rows[0]) ==> NoDuplicates(r.value)
    ensures format == 0 && |rows| > 0 ==>
      forall i, x :: 0 <= i < Min(50, |rows|) && |Discover(rows[0], rows[..i])| != |rows[i]| && x in rows[i] ==>
        x in r.value
    ensures format == 0 && |rows| > 0 ==>
      forall x :: x in r.value ==>
        x in rows[0] || exists i :: 0 <= i < Min(50, |rows|) && |Discover(rows[0], rows[..i])| != |rows[i]| && x in rows[i]
    ensures format == 0 && |rows| > 0 ==>
      forall i :: 0 <= i < Min(50, |rows|) && NoDuplicates(rows[i]) && |Discover(rows[0], rows[..i])| != |rows[i]| ==>
        Discover(rows[0], rows[..i]) + Filter(rows[i], NotListed(Discover(rows[0], rows[..i]))) <= r.value
    ensures format == 1 || format == 2 ==> r == Success(objectKeys)
    ensures format != 0 && format != 1 && format != 2 ==> r == Success([])
  {
    if format == 0 then
      if |rows| == 0 then Failure("TypeError: Cannot convert undefined or null to object")
      else
        var checked := rows[..Min(50, |rows|)];
        var names := Discover(rows[0], checked);
        DiscoverMerges(rows[0], checked);
        assert forall i :: 0 <= i < |checked| ==> checked[..i] == rows[..i] && checked[i] == rows[i];
        Success(names)
    else if format == 1 || format == 2 then Success(objectKeys)
    else Success([])
  }

  /** A later row with as many keys as the names found so far is not merged,
      even when its keys differ. */
  lemma SameWidthRowIgnored()
    ensures GetColumnNames(0, [["a", "b"], ["c", "d"]], []) == Success(["a", "b"])
  {
    var rows := [["a", "b"], ["c", "d"]];
    assert rows[..2] == rows;
    assert rows[..1] == [["a", "b"]];
    assert rows[..1][..0] == [];
    assert Discover(rows[0], rows[..1][..0]) == rows[0];
    assert Discover(rows[0], rows[..1]) == rows[0];
    assert Discover(rows[0], rows[..2]) == rows[0];
  }

  /** Rows past the fiftieth are never inspected. */
  lemma {:induction false} LateRowsIgnored(rows: seq<seq<string>>, extra: seq<seq<string>>)
    requires |rows| >= 50
    ensures GetColumnNames(0, rows + extra, []) == GetColumnNames(0, rows, [])
  {
    assert Min(50, |rows + extra|) == 50 && Min(50, |rows|) == 50;
    var checked := (rows + extra)[..Min(50, |rows + extra|)];
    assert checked == rows[..Min(50, |rows|)];
    assert (rows + extra)[0] == rows[0];
    assert Discover((rows + extra)[0], checked) == Discover(rows[0], rows[..Min(50, |rows|)]);
    assert GetColumnNames(0, rows + extra, []) == Success(Discover((rows + extra)[0], checked));
    assert GetColumnNames(0, rows, []) == Success(Discover(rows[0], rows[..Min(50, |rows|)]));
  }

  // ---------------------------------------------------------------------------
  // View configuration

  /** An aggregate entry: an array of names, or a single name. */
  datatype AggValue = AggList(names: seq<string>) | AggName(name: string)

  /** One expression descriptor `[alias, expression, parsed, id map]`. */
  datatype ExpressionIn = ExpressionIn(alias: string, expression: string, parsed: string, columnIds: seq<(string, string)>)

  /** One filter clause `[column, op, term?]`. */
  datatype FilterIn = FilterIn(column: string, op: string, term: Option<string>)

  /** The view config as the JavaScript side hands it over. */
  datatype ConfigIn = ConfigIn(
    groupBy: seq<string>, splitBy: seq<string>, columns: seq<string>, sort: seq<seq<string>>,
    filterOp: string, aggregates: seq<(string, AggValue)>, expressions: seq<ExpressionIn>,
    filters: seq<FilterIn>, groupByDepth: Option<int>, splitByDepth: Option<int>)

  /** The engine's `t_view_config`, with the expressions by alias. */
  datatype ViewConfig = ViewConfig(
    rowPivots: seq<string>, columnPivots: seq<string>, aggregates: seq<(string, seq<string>)>,
    columns: seq<string>, filters: seq<FilterIn>, sort: seq<seq<string>>, expressions: seq<string>,
    filterOp: string, columnOnly: bool, rowDepth: Option<int>, columnDepth: Option<int>,
    sortSpec: nat)

  /** Why `make_view_config` aborts: an alias naming a column the schema
      already has, or an expression the engine cannot compile. */
  datatype ConfigError = Overwrites(alias: string) | CompileFailed(alias: string)

  function ConfigErrorMessage(e: ConfigError): string
  {
    match e
    case Overwrites(alias) =>
      "View creation failed: cannot create expression column '" + alias + "' that overwrites a column that already exists.\n"
    case CompileFailed(alias) => "Cannot compile expression '" + alias + "'"
  }

  /** A lone aggregate name becomes a one-element list. */
  function AggregateList(a: (string, AggValue)): (r: (string, seq<string>))
    ensures r.0 == a.0
    ensures a.1.AggName? ==> r.1 == [a.1.name]
    ensures a.1.AggList? ==> r.1 == a.1.names
  {
    (a.0, match a.1 case AggList(names) => names case AggName(name) => [name])
  }

  function Alias(e: ExpressionIn): string
  {
    e.alias
  }

  /** The schema as the `i`-th expression sees it: the table's columns, then
      the aliases of the expressions before it. */
  function SchemaBefore(schema: seq<string>, exprs: seq<ExpressionIn>, i: nat): seq<string>
    requires i <= |exprs|
  {
    schema + MapSeq(exprs[..i], Alias)
  }

  /** Whether each expression's alias is new to the schema as extended by
      the expressions before it. */
  predicate FreshAliases(schema: seq<string>, exprs: seq<ExpressionIn>)
  {
    forall i :: 0 <= i < |exprs| ==> exprs[i].alias !in SchemaBefore(schema, exprs, i)
  }

  /** Whether each expression compiles against the schema as extended by the
      expressions before it. */
  predicate AllCompile(schema: seq<string>, exprs: seq<ExpressionIn>, compiles: (seq<string>, ExpressionIn) -> bool)
  {
    forall i :: 0 <= i < |exprs| ==> compiles(SchemaBefore(schema, exprs, i), exprs[i])
  }

  lemma SchemaBeforeSnoc(schema: seq<string>, init: seq<ExpressionIn>, e: ExpressionIn, i: nat)
    requires i <= |init|
    ensures SchemaBefore(schema, init + [e], i) == SchemaBefore(schema, init, i)
  {
    assert (init + [e])[..i] == init[..i];
  }

  lemma FreshAliasesSnoc(schema: seq<string>, init: seq<ExpressionIn>, e: ExpressionIn)
    ensures FreshAliases(schema, init + [e]) <==>
      FreshAliases(schema, init) && e.alias !in schema + MapSeq(init, Alias)
  {
    var exprs := init + [e];
    assert exprs[..|init|] == init;
    assert SchemaBefore(schema, exprs, |init|) == schema + MapSeq(init, Alias);
    assert exprs[|init|] == e;
    if FreshAliases(schema, exprs) {
      assert exprs[|init|].alias !in SchemaBefore(schema, exprs, |init|);
      forall i | 0 <= i < |init|
        ensures init[i].alias !in SchemaBefore(schema, init, i)
      {
        SchemaBeforeSnoc(schema, init, e, i);
        assert exprs[i] == init[i];
      }
    }
    if FreshAliases(schema, init) && e.alias !in schema + MapSeq(init, Alias) {
      forall i | 0 <= i < |exprs|
        ensures exprs[i].alias !in SchemaBefore(schema, exprs, i)
      {
        if i < |init| {
          SchemaBeforeSnoc(schema, init, e, i);
          assert exprs[i] == init[i];
        }
      }
    }
  }

  lemma AllCompileSnoc(schema: seq<string>, init: seq<ExpressionIn>, e: ExpressionIn,
                       compiles: (seq<string>, ExpressionIn) -> bool)
    ensures AllCompile(schema, init + [e], compiles) <==>
      AllCompile(schema, init, compiles) && compiles(schema + MapSeq(init, Alias), e)
  {
    var exprs := init + [e];
    assert exprs[..|init|] == init;
    assert SchemaBefore(schema, exprs, |init|) == schema + MapSeq(init, Alias);
    assert exprs[|init|] == e;
    if AllCompile(schema, exprs, compiles) {
      assert compiles(SchemaBefore(schema, exprs, |init|), exprs[|init|]);
      forall i | 0 <= i < |init|
        ensures compiles(SchemaBefore(schema, init, i), init[i])
      {
        SchemaBeforeSnoc(schema, init, e, i);
        assert exprs[i] == init[i];
      }
    }
    if AllCompile(schema, init, compiles) && compiles(schema + MapSeq(init, Alias), e) {
      forall i | 0 <= i < |exprs|
        ensures compiles(SchemaBefore(schema, exprs, i), exprs[i])
      {
        if i < |init| {
          SchemaBeforeSnoc(schema, init, e, i);
          assert exprs[i] == init[i];
        }
      }
    }
  }

  /** The expression loop: each alias is checked against the schema, then
      compiled against it (`compiles` stands for the engine's parser), then
      added to it. The first alias already present or expression that does
      not compile aborts. */
  function AddExpressions(schema: seq<string>, exprs: seq<ExpressionIn>, compiles: (seq<string>, ExpressionIn) -> bool): (r: Result<seq<string>, ConfigError>)
    ensures r.Success? <==> FreshAliases(schema, exprs) && AllCompile(schema, exprs, compiles)
    ensures r.Success? ==> r.value == schema + MapSeq(exprs, Alias)
  {
    if |exprs| == 0 then Success(schema)
    else
      var init := exprs[..|exprs| - 1];
      var e := exprs[|exprs| - 1];
      assert exprs == init + [e];
      FreshAliasesSnoc(schema, init, e);
      AllCompileSnoc(schema, init, e, compiles);
      MapSnoc(init, e, Alias);
      var prev :- AddExpressions(schema, init, compiles);
      if e.alias in prev then Failure(Overwrites(e.alias))
      else if !compiles(prev, e) then Failure(CompileFailed(e.alias))
      else Success(prev + [e.alias])
  }

  /** The filter test against a fixed schema. */
  function ValidAgainst(validFilter: (seq<string>, FilterIn) -> bool, schema: seq<string>): FilterIn -> bool
  {
    f => validFilter(schema, f)
  }

  /** `make_view_config`: without row pivots but with column pivots,
      `psp_okey` becomes the only row pivot and the view is column-only;
      aggregates become lists; expressions extend the schema; filters the
      engine finds invalid against the extended schema (`validFilter`) are
      dropped; `t_view_config::init`, which derives the sort specification
      from the sort list and the schema, is the parameter `initSortSpec`
      giving its length. Returns the config and the extended schema. */
  function MakeViewConfig(schema: seq<string>, c: ConfigIn, compiles: (seq<string>, ExpressionIn) -> bool,
                          validFilter: (seq<string>, FilterIn) -> bool,
                          initSortSpec: (seq<seq<string>>, seq<string>) -> nat): (r: Result<(ViewConfig, seq<string>), ConfigError>)
    ensures r.Success? <==> FreshAliases(schema, c.expressions) && AllCompile(schema, c.expressions, compiles)
    ensures r.Success? ==>
      var (cfg, schema') := r.value;
      && (cfg.columnOnly <==> |c.groupBy| == 0 && |c.splitBy| > 0)
      && cfg.rowPivots == (if cfg.columnOnly then ["psp_okey"] else c.groupBy)
      && cfg.columnPivots == c.splitBy
      && schema' == schema + MapSeq(c.expressions, Alias)
      && cfg.expressions == MapSeq(c.expressions, Alias)
      && cfg.filters == Filter(c.filters, ValidAgainst(validFilter, schema'))
      && (forall f :: f in cfg.filters <==> f in c.filters && validFilter(schema', f))
      && cfg.aggregates == MapSeq(c.aggregates, AggregateList)
      && cfg.columns == c.columns && cfg.sort == c.sort && cfg.filterOp == c.filterOp
      && cfg.rowDepth == c.groupByDepth && cfg.columnDepth == c.splitByDepth
      && cfg.sortSpec == initSortSpec(c.sort, schema')
  {
    var columnOnly := |c.groupBy| == 0 && |c.splitBy| > 0;
    var rowPivots := if columnOnly then ["psp_okey"] else c.groupBy;
    var schema' :- AddExpressions(schema, c.expressions, compiles);
    var valid := ValidAgainst(validFilter, schema');
    FilterProperties(c.filters, valid);
    Success((ViewConfig(rowPivots, c.splitBy, MapSeq(c.aggregates, AggregateList), c.columns,
      Filter(c.filters, valid), c.sort, MapSeq(c.expressions, Alias), c.filterOp, columnOnly,
      c.groupByDepth, c.splitByDepth, initSortSpec(c.sort, schema')), schema'))
  }

  /** The same alias twice in one config aborts on the second one, even
      when the schema does not have it. */
  lemma RepeatedAliasAborts(schema: seq<string>, c: ConfigIn, compiles: (seq<string>, ExpressionIn) -> bool,
                            validFilter: (seq<string>, FilterIn) -> bool,
                            initSortSpec: (seq<seq<string>>, seq<string>) -> nat, i: nat, j: nat)
    requires i < j < |c.expressions| && c.expressions[i].alias == c.expressions[j].alias
    ensures MakeViewConfig(schema, c, compiles, validFilter, initSortSpec).Failure?
  {
    var exprs := c.expressions;
    assert MapSeq(exprs[..j], Alias)[i] == exprs[i].alias;
    assert exprs[i].alias in SchemaBefore(schema, exprs, j);
  }

  // ---------------------------------------------------------------------------
  // Contexts

  datatype Totals = TotalsBefore | TotalsHidden

  /** The engine context a view opens, with the expansion depths it sets. */
  datatype Context = Ctx0 | Ctx1(depth: int) | Ctx2(rowDepth: int, columnDepth: int, totals: Totals)

  /** A requested depth `d > -1` expands `d - 1` levels; otherwise every
      pivot level is expanded. */
  function Depth(requested: Option<int>, pivots: nat): (d: int)
    ensures requested.Some? && requested.value >= 0 ==> d + 1 == requested.value
    ensures requested.None? || requested.value < 0 ==> d == pivots
  {
    if requested.Some? && requested.value > -1 then requested.value - 1 else pivots
  }

  /** `make_context` for a view of `sides` pivot sides. */
  function MakeContext(sides: nat, cfg: ViewConfig): (ctx: Context)
    ensures sides == 0 <==> ctx.Ctx0?
    ensures sides == 1 ==> ctx == Ctx1(Depth(cfg.rowDepth, |cfg.rowPivots|))
    ensures sides >= 2 ==>
      && ctx.Ctx2? && ctx.rowDepth == Depth(cfg.rowDepth, |cfg.rowPivots|)
      && ctx.columnDepth == Depth(cfg.columnDepth, |cfg.columnPivots|)
      && (ctx.totals == TotalsBefore <==> cfg.sortSpec > 0)
  {
    if sides == 0 then Ctx0
    else if sides == 1 then Ctx1(Depth(cfg.rowDepth, |cfg.rowPivots|))
    else Ctx2(Depth(cfg.rowDepth, |cfg.rowPivots|), Depth(cfg.columnDepth, |cfg.columnPivots|),
      if cfg.sortSpec > 0 then TotalsBefore else TotalsHidden)
  }

  /** The row depth of a two-sided context depends only on the row side of
      the configuration. */
  lemma RowDepthIndependent(cfg: ViewConfig, splitBy: seq<string>, splitDepth: Option<int>)
    ensures MakeContext(2, cfg).rowDepth == MakeContext(2, cfg.(columnPivots := splitBy, columnDepth := splitDepth)).rowDepth
  {
  }

  /** A column-only view with no requested depth expands its one synthetic
      `psp_okey` row level. */
  lemma ColumnOnlyDepth(schema: seq<string>, c: ConfigIn, compiles: (seq<string>, ExpressionIn) -> bool,
                         validFilter: (seq<string>, FilterIn) -> bool,
                         initSortSpec: (seq<seq<string>>, seq<string>) -> nat)
    requires |c.groupBy| == 0 && |c.splitBy| > 0 && c.groupByDepth.None?
    requires MakeViewConfig(schema, c, compiles, validFilter, initSortSpec).Success?
    ensures MakeContext(2, MakeViewConfig(schema, c, compiles, validFilter, initSortSpec).value.0).rowDepth == 1
  {
  }
}

=== FILE: dispatch.dfy ===
/** The update-callback registry of `perspective.js`: `view.on_update`,
    `view.remove_update` and `filterInPlace`, the dispatch loop
    `table._update_callback`, and the lifecycle calls `view.delete` and
    `table.delete` that touch the registry.

    Every view of a table shares the table's `update_callbacks` array, so the
    registry lives in the `Table` record. A registration remembers the view
    that made it, the user's callback (`orig_callback`, an opaque id here) and
    its mode. The engine's `get_row_delta_*` calls are the function parameter
    `rowDelta`; what they return is opaque. */
module Dispatch {
  import opened Wrappers
  import Scheduler

  type ViewId = nat
  type CallbackId = nat

  datatype Mode = NoneMode | RowMode

  datatype Registration = Registration(view: ViewId, orig: CallbackId, mode: Mode)

  /** The parts of a table the registry touches: its engine id, its live
      views (`table.views`), the shared callback list, and the views whose
      engine view has deltas enabled. */
  datatype Table = Table(id: Scheduler.TableId, views: seq<ViewId>, callbacks: seq<Registration>, deltas: set<ViewId>)

  /** What one user callback receives: `{port_id, delta}`. */
  datatype Notice<D> = Notice(callback: CallbackId, port: nat, delta: Option<D>)

  predicate IsRow(x: Registration)
  {
    x.mode == RowMode
  }

  predicate IsNotRow(x: Registration)
  {
    x.mode == NoneMode
  }

  // ---------------------------------------------------------------------------
  // Registration

  function ParseMode(name: string): (m: Option<Mode>)
    ensures m.Some? <==> name == "none" || name == "row"
    ensures m == Some(RowMode) <==> name == "row"
  {
    if name == "none" then Some(NoneMode)
    else if name == "row" then Some(RowMode)
    else None
  }

  /** `view.on_update`, after its flush: an unknown mode throws and changes
      nothing; `"row"` turns deltas on for the view; a valid call appends one
      registration and nothing else. */
  function OnUpdate(t: Table, v: ViewId, cb: CallbackId, mode: string): (r: Result<Table, string>)
    ensures r.Failure? <==> mode != "none" && mode != "row"
    ensures r.Failure? ==> r.error == "Invalid update mode \"" + mode + "\" - valid modes are \"none\" and \"row\"."
    ensures r.Success? ==>
      && r.value.callbacks == t.callbacks + [Registration(v, cb, if mode == "row" then RowMode else NoneMode)]
      && r.value.views == t.views && r.value.id == t.id
      && r.value.deltas == (if mode == "row" then t.deltas + {v} else t.deltas)
  {
    match ParseMode(mode)
    case None => Failure("Invalid update mode \"" + mode + "\" - valid modes are \"none\" and \"row\".")
    case Some(m) =>
      var deltas := if m == RowMode && v !in t.deltas then t.deltas + {v} else t.deltas;
      Success(t.(callbacks := t.callbacks + [Registration(v, cb, m)], deltas := deltas))
  }

  /** `view.on_update` with the flush it starts with: the flush happens even
      when the mode is then rejected. */
  function OnUpdateFlushing(s: Scheduler.State, t: Table, v: ViewId, cb: CallbackId, mode: string,
                            acts: seq<Scheduler.Action>): (r: (Scheduler.State, Result<Table, string>))
    ensures t.id !in r.0.pending
    ensures t.id !in s.pending ==> r.0 == s
    ensures t.id in s.pending ==> |r.0.log| > |s.log| && r.0.log[|s.log|] == Scheduler.Ran(t.id, s.pending[t.id])
    ensures r.0 == Scheduler.Read(s, t.id, acts)
    ensures r.1 == OnUpdate(t, v, cb, mode)
  {
    (Scheduler.Read(s, t.id, acts), OnUpdate(t, v, cb, mode))
  }

  // ---------------------------------------------------------------------------
  // Removal

  /** `filterInPlace`: a read index `i` and a write index `j` over the same
      array; the kept elements are compacted to the front and the array is
      truncated to `j`. */
  method FilterInPlace<T>(a: seq<T>, keep: T -> bool) returns (r: seq<T>)
    ensures r == Filter(a, keep)
  {
    var buf := a;
    var i, j := 0, 0;
    while i < |buf|
      invariant |buf| == |a|
      invariant 0 <= j <= i <= |a|
      invariant forall k :: i <= k < |a| ==> buf[k] == a[k]
      invariant buf[..j] == Filter(a[..i], keep)
    {
      var val := buf[i];
      assert a[..i + 1] == a[..i] + [val];
      FilterSnoc(a[..i], val, keep);
      if keep(val) {
        ghost var prev := buf;
        buf := buf[j := val];
        assert buf[..j + 1] == prev[..j] + [val];
        j := j + 1;
      }
      i := i + 1;
    }
    assert a[..|a|] == a;
    r := buf[..j];
  }

  predicate NotFrom(cb: CallbackId, x: Registration)
  {
    x.orig != cb
  }

  /** `view.remove_update`, after its flush: every registration of the
      callback goes, whichever view made it; `shrank` is the condition the
      source only passes to `console.assert`, so a callback that was never
      registered is not an error. */
  method RemoveUpdate(t: Table, cb: CallbackId) returns (t': Table, shrank: bool)
    ensures t'.callbacks == Filter(t.callbacks, x => NotFrom(cb, x))
    ensures forall x :: x in t'.callbacks <==> x in t.callbacks && x.orig != cb
    ensures shrank <==> exists x :: x in t.callbacks && x.orig == cb
    ensures t'.views == t.views && t'.deltas == t.deltas && t'.id == t.id
  {
    var total := |t.callbacks|;
    var keep := x => NotFrom(cb, x);
    var kept := FilterInPlace(t.callbacks, keep);
    FilterProperties(t.callbacks, keep);
    CountAll(t.callbacks, keep);
    t' := t.(callbacks := kept);
    shrank := total > |kept|;
  }

  /** `view.remove_update` with the flush it starts with. */
  method RemoveUpdateFlushing(s: Scheduler.State, t: Table, cb: CallbackId, acts: seq<Scheduler.Action>)
    returns (s': Scheduler.State, t': Table, shrank: bool)
    ensures t.id !in s'.pending
    ensures t.id in s.pending ==> |s'.log| > |s.log| && s'.log[|s.log|] == Scheduler.Ran(t.id, s.pending[t.id])
    ensures t.id !in s.pending ==> s' == s
    ensures forall x :: x in t'.callbacks <==> x in t.callbacks && x.orig != cb
    ensures t'.callbacks == Filter(t.callbacks, x => NotFrom(cb, x))
    ensures shrank <==> exists x :: x in t.callbacks && x.orig == cb
    ensures t'.views == t.views && t'.deltas == t.deltas && t'.id == t.id
  {
    s' := Scheduler.Read(s, t.id, acts);
    t', shrank := RemoveUpdate(t, cb);
  }

  /** `indexOf` of a view that is present. */
  function FirstIndexOf(vs: seq<ViewId>, v: ViewId): (k: nat)
    requires v in vs
    ensures k < |vs| && vs[k] == v && v !in vs[..k]
  {
    if vs[0] == v then 0
    else
      var k := FirstIndexOf(vs[1..], v);
      assert vs[..k + 1] == [vs[0]] + vs[1..][..k];
      k + 1
  }

  /** The first occurrence of `v` taken out, as `splice(indexOf(v), 1)` does
      for a view that is present. */
  function RemoveFirst(vs: seq<ViewId>, v: ViewId): (r: seq<ViewId>)
    requires v in vs
    ensures |r| == |vs| - 1
    ensures exists k :: 0 <= k < |vs| && vs[k] == v && v !in vs[..k] && r == vs[..k] + vs[k + 1..]
  {
    var k := FirstIndexOf(vs, v);
    vs[..k] + vs[k + 1..]
  }

  predicate NotOf(v: ViewId, x: Registration)
  {
    x.view != v
  }

  datatype DeleteError = AlreadyDeleted | ViewsRemain(count: nat)

  /** `view.delete`: cancels the table's pending recompute, takes the view
      out of `table.views`, and drops every registration the view made while
      keeping the others in order. A view deleted before has no table left,
      and the call fails. */
  method ViewDelete(s: Scheduler.State, t: Table, v: ViewId) returns (r: Result<(Scheduler.State, Table), DeleteError>)
    ensures r.Failure? <==> v !in t.views
    ensures r.Success? ==>
      && r.value.0 == Scheduler.RemoveProcess(s, t.id)
      && r.value.1.views == RemoveFirst(t.views, v)
      && r.value.1.callbacks == Filter(t.callbacks, x => NotOf(v, x))
      && (forall x :: x in r.value.1.callbacks <==> x in t.callbacks && x.view != v)
      && r.value.1.id == t.id
      && r.value.1.deltas == t.deltas
  {
    if v !in t.views {
      return Failure(AlreadyDeleted);
    }
    var s' := Scheduler.RemoveProcess(s, t.id);
    var keep := x => NotOf(v, x);
    var kept := FilterInPlace(t.callbacks, keep);
    FilterProperties(t.callbacks, keep);
    r := Success((s', t.(views := RemoveFirst(t.views, v), callbacks := kept)));
  }

  /** `table.delete`: refused while any view is registered, and then nothing
      changes; otherwise the pending recompute is cancelled. */
  function TableDelete(s: Scheduler.State, t: Table): (r: Result<Scheduler.State, DeleteError>)
    ensures r.Failure? <==> |t.views| > 0
    ensures r.Failure? ==> r.error == ViewsRemain(|t.views|)
    ensures r.Success? ==> t.id !in r.value.pending && Scheduler.Runs(r.value.log, t.id) == Scheduler.Runs(s.log, t.id)
    ensures r.Success? ==> forall u :: u != t.id ==> (u in r.value.pending <==> u in s.pending)
    ensures r.Success? ==> forall u :: u != t.id && u in s.pending ==> r.value.pending[u] == s.pending[u]
  {
    if |t.views| > 0 then Failure(ViewsRemain(|t.views|))
    else
      Scheduler.CancelRunsNothing(s, t.id);
      Success(Scheduler.RemoveProcess(s, t.id))
  }

  // ---------------------------------------------------------------------------
  // Dispatch

  /** The notice a registration should deliver: its view's row delta in row
      mode, no delta otherwise. */
  function Expect<D>(port: nat, rowDelta: ViewId -> D, x: Registration): Notice<D>
  {
    Notice(x.orig, port, if x.mode == RowMode then Some(rowDelta(x.view)) else None)
  }

  /** `Expect` for every registration of one dispatch. */
  function Expecting<D>(port: nat, rowDelta: ViewId -> D): Registration -> Notice<D>
  {
    x => Expect(port, rowDelta, x)
  }

  predicate Undelivered<D>(n: Notice<D>)
  {
    n.delta.None?
  }

  predicate Delivered<D>(n: Notice<D>)
  {
    n.delta.Some?
  }

  /** The synchronous part of `_update_callback` as written: the shared
      cache entry for the port, the notices already delivered, the row-mode
      callbacks suspended at their `await`, and the delta fetches so far. */
  datatype Pass<D> = Pass(cache: Option<D>, now: seq<Notice<D>>, suspended: seq<(CallbackId, D)>, fetches: seq<ViewId>)

  /** The loop over the registrations. A row-mode callback tests the cache,
      finds it empty, fetches its view's delta and suspends; the cache is only
      written after the `await`, so no later callback of the same loop sees
      it. A callback without a mode runs to completion at once. */
  function SyncPass<D>(regs: seq<Registration>, port: nat, rowDelta: ViewId -> D): Pass<D>
  {
    if |regs| == 0 then Pass(None, [], [], [])
    else
      var p := SyncPass(regs[..|regs| - 1], port, rowDelta);
      var x := regs[|regs| - 1];
      if x.mode == RowMode then
        if p.cache.None? then
          p.(suspended := p.suspended + [(x.orig, rowDelta(x.view))], fetches := p.fetches + [x.view])
        else
          p.(now := p.now + [Notice(x.orig, port, Some(p.cache.value))])
      else
        p.(now := p.now + [Notice(x.orig, port, None)])
  }

  /** The suspended callbacks resume in order; each stores its own fetch in
      the cache, reads it back and calls the user's callback with it. */
  function Resume<D>(suspended: seq<(CallbackId, D)>, port: nat): seq<Notice<D>>
  {
    MapSeq(suspended, (e: (CallbackId, D)) => Notice(e.0, port, Some(e.1)))
  }

  /** `table._update_callback` as written: the notices in delivery order, and
      the views whose delta was fetched, once per fetch. The callbacks without
      a mode are notified first, then the row-mode ones, each group in
      registration order; the delta is fetched once for every row-mode
      registration, even when several belong to the same view. */
  function DispatchAsWritten<D>(regs: seq<Registration>, port: nat, rowDelta: ViewId -> D): (r: (seq<Notice<D>>, seq<ViewId>))
    ensures r.0 == MapSeq(Filter(regs, IsNotRow), Expecting(port, rowDelta)) + MapSeq(Filter(regs, IsRow), Expecting(port, rowDelta))
    ensures r.1 == MapSeq(Filter(regs, IsRow), RowView)
    ensures |r.1| == Count(regs, IsRow)
  {
    SyncPassShape(regs, port, rowDelta);
    FilterProperties(regs, IsRow);
    var p := SyncPass(regs, port, rowDelta);
    (p.now + Resume(p.suspended, port), p.fetches)
  }

  function RowView(x: Registration): ViewId
  {
    x.view
  }

  /** The loop as written never hits the cache: the immediate notices are the
      callbacks without a mode, the suspended ones the row-mode callbacks
      with their own view's delta, and every row-mode registration fetches. */
  lemma {:induction false} SyncPassShape<D>(regs: seq<Registration>, port: nat, rowDelta: ViewId -> D)
    ensures SyncShape(regs, port, rowDelta)
  {
    if |regs| > 0 {
      var init := regs[..|regs| - 1];
      SyncPassShape(init, port, rowDelta);
      SyncShapeSnoc(init, regs[|regs| - 1], port, rowDelta);
      assert init + [regs[|regs| - 1]] == regs;
    }
  }

  ghost predicate SyncShape<D>(regs: seq<Registration>, port: nat, rowDelta: ViewId -> D)
  {
    var p := SyncPass(regs, port, rowDelta);
    && p.cache.None?
    && p.now == MapSeq(Filter(regs, IsNotRow), Expecting(port, rowDelta))
    && Resume(p.suspended, port) == MapSeq(Filter(regs, IsRow), Expecting(port, rowDelta))
    && p.fetches == MapSeq(Filter(regs, IsRow), RowView)
  }

  lemma SyncShapeSnoc<D>(init: seq<Registration>, x: Registration, port: nat, rowDelta: ViewId -> D)
    requires SyncShape(init, port, rowDelta)
    ensures SyncShape(init + [x], port, rowDelta)
  {
    assert (init + [x])[..|init|] == init;
    FilterSnoc(init, x, IsRow);
    FilterSnoc(init, x, IsNotRow);
    if x.mode == RowMode {
      SyncShapeSnocRow(init, x, port, rowDelta);
    } else {
      MapSnoc(Filter(init, IsNotRow), x, Expecting(port, rowDelta));
    }
  }

  lemma SyncShapeSnocRow<D>(init: seq<Registration>, x: Registration, port: nat, rowDelta: ViewId -> D)
    requires SyncShape(init, port, rowDelta) && x.mode == RowMode
    requires SyncPass(init + [x], port, rowDelta) == SyncPass(init, port, rowDelta).(
      suspended := SyncPass(init, port, rowDelta).suspended + [(x.orig, rowDelta(x.view))],
      fetches := SyncPass(init, port, rowDelta).fetches + [x.view])
    requires Filter(init + [x], IsRow) == Filter(init, IsRow) + [x]
    requires Filter(init + [x], IsNotRow) == Filter(init, IsNotRow)
    ensures SyncShape(init + [x], port, rowDelta)
  {
    var p := SyncPass(init, port, rowDelta);
    ResumeSnoc(p.suspended, (x.orig, rowDelta(x.view)), port);
    MapSnoc(Filter(init, IsRow), x, Expecting(port, rowDelta));
    MapSnoc(Filter(init, IsRow), x, RowView);
  }

  lemma ResumeSnoc<D>(suspended: seq<(CallbackId, D)>, e: (CallbackId, D), port: nat)
    ensures Resume(suspended + [e], port) == Resume(suspended, port) + [Notice(e.0, port, Some(e.1))]
  {
    assert (suspended + [e])[..|suspended|] == suspended;
  }

  /** Two row-mode callbacks of one view: the delta is fetched twice. */
  lemma AsWrittenFetchesTwice(rowDelta: ViewId -> int)
    ensures DispatchAsWritten([Registration(0, 1, RowMode), Registration(0, 2, RowMode)], 0, rowDelta).1 == [0, 0]
  {
    var regs := [Registration(0, 1, RowMode), Registration(0, 2, RowMode)];
    assert regs[..1] == [Registration(0, 1, RowMode)];
    assert regs[..1][..0] == [];
    var r1 := regs[..1];
    assert SyncPass(r1[..0], 0, rowDelta) == Pass(None, [], [], []);
    var p1 := SyncPass(r1, 0, rowDelta);
    assert p1.cache.None? && p1.fetches == [0];
    assert SyncPass(regs, 0, rowDelta).fetches == p1.fetches + [0];
  }

  /** The dispatch with the cache the source intends, keyed by view because
      each view computes its own delta: a view's delta is fetched the first
      time one of its row-mode callbacks runs and reused after that. Notices
      go out in registration order. */
  function DispatchCached<D>(regs: seq<Registration>, port: nat, rowDelta: ViewId -> D): (r: (seq<Notice<D>>, seq<ViewId>, map<ViewId, D>))
    ensures forall v :: v in r.2 ==> r.2[v] == rowDelta(v)
    ensures forall v :: v in r.2 <==> v in r.1
  {
    if |regs| == 0 then ([], [], map[])
    else
      var (now, fetches, cache) := DispatchCached(regs[..|regs| - 1], port, rowDelta);
      var x := regs[|regs| - 1];
      if x.mode == RowMode then
        if x.view in cache then
          (now + [Notice(x.orig, port, Some(cache[x.view]))], fetches, cache)
        else
          var d := rowDelta(x.view);
          (now + [Notice(x.orig, port, Some(d))], fetches + [x.view], cache[x.view := d])
      else
        (now + [Notice(x.orig, port, None)], fetches, cache)
  }

  /** The corrected dispatch delivers to every registration, in order, what
      a fresh fetch would give it, and fetches each view's delta exactly once
      when the view has a row-mode callback and never otherwise. */
  lemma {:induction false} DispatchCachedSpec<D>(regs: seq<Registration>, port: nat, rowDelta: ViewId -> D)
    ensures var (notices, fetches, _) := DispatchCached(regs, port, rowDelta);
      && notices == MapSeq(regs, Expecting(port, rowDelta))
      && (forall i, j :: 0 <= i < j < |fetches| ==> fetches[i] != fetches[j])
      && (forall v :: v in fetches <==> exists x :: x in regs && x.mode == RowMode && x.view == v)
  {
    if |regs| > 0 {
      var init := regs[..|regs| - 1];
      DispatchCachedSpec(init, port, rowDelta);
      assert regs == init + [regs[|regs| - 1]];
      assert forall x :: x in regs <==> x in init || x == regs[|regs| - 1];
    }
  }

  /** As written, the same notices go out as with the cache, but the
      callbacks without a mode are all served before any row-mode callback. */
  lemma AsWrittenReorders<D>(regs: seq<Registration>, port: nat, rowDelta: ViewId -> D)
    ensures var expected := DispatchCached(regs, port, rowDelta).0;
      DispatchAsWritten(regs, port, rowDelta).0 == Filter(expected, Undelivered) + Filter(expected, Delivered)
  {
    SyncPassShape(regs, port, rowDelta);
    DispatchCachedSpec(regs, port, rowDelta);
    var f := Expecting(port, rowDelta);
    FilterMap(regs, f, IsNotRow, Undelivered);
    FilterMap(regs, f, IsRow, Delivered);
  }

  /** With the cache, two row-mode callbacks of one view share one fetch. */
  lemma CachedFetchesOnce(rowDelta: ViewId -> int)
    ensures DispatchCached([Registration(0, 1, RowMode), Registration(0, 2, RowMode)], 0, rowDelta).1 == [0]
  {
    var regs := [Registration(0, 1, RowMode), Registration(0, 2, RowMode)];
    assert regs[..1] == [Registration(0, 1, RowMode)];
    assert regs[..1][..0] == [];
  }
}

=== FILE: expressions.dfy ===
/** The expression canonicalizer, `parse_expression_strings` in
    `perspective.js`: a list of user expression strings becomes a list of
    descriptors `[alias, original, canonical, column_id_map]`.

    The source performs a sequence of global regular-expression replacements.
    Each is modelled as the left-to-right scan the JavaScript regex engine
    performs: a match attempt at every position, the lazy or greedy choice the
    pattern makes, and a restart right after each match. The two quote passes
    share one lexer, `Lex`, parameterised by the quote character. */
module Expressions {
  import opened Wrappers

  // ---------------------------------------------------------------------------
  // Character classes of the JavaScript regular expressions and of `trim`

  /** The characters `.` does not match. */
  predicate IsLineTerminator(c: char)
  {
    c == '\n' || c == '\r' || c == '\U{2028}' || c == '\U{2029}'
  }

  /** The characters `String.prototype.trim` removes: the line terminators
      and the white space of the ECMAScript grammar (tab, vertical tab, form
      feed, space, no-break space, the byte order mark and the `Zs` spaces
      U+1680, U+2000 to U+200A, U+202F, U+205F and U+3000). */
  predicate IsJsSpace(c: char)
  {
    || ('\t' <= c <= '\r')
    || c == ' ' || c == '\U{00A0}' || c == '\U{1680}'
    || ('\U{2000}' <= c <= '\U{200A}')
    || c == '\U{2028}' || c == '\U{2029}' || c == '\U{202F}' || c == '\U{205F}'
    || c == '\U{3000}' || c == '\U{FEFF}'
  }

  /** `[a-zA-Z_]` */
  predicate IsWordStart(c: char)
  {
    ('a' <= c <= 'z') || ('A' <= c <= 'Z') || c == '_'
  }

  /** `[a-zA-Z0-9_]` */
  predicate IsWordChar(c: char)
  {
    IsWordStart(c) || ('0' <= c <= '9')
  }

  /** The end of the run of white space starting at `i`. */
  function SpaceRunFrom(s: string, i: nat): (n: nat)
    requires i <= |s|
    ensures i <= n <= |s|
    ensures forall j :: i <= j < n ==> IsJsSpace(s[j])
    ensures n < |s| ==> !IsJsSpace(s[n])
    decreases |s| - i
  {
    if i < |s| && IsJsSpace(s[i]) then SpaceRunFrom(s, i + 1) else i
  }

  /** The start of the run of white space ending at `j`. */
  function SpaceRunTo(s: string, j: nat): (n: nat)
    requires j <= |s|
    ensures n <= j
    ensures forall i :: n <= i < j ==> IsJsSpace(s[i])
    ensures n > 0 ==> !IsJsSpace(s[n - 1])
  {
    if j > 0 && IsJsSpace(s[j - 1]) then SpaceRunTo(s, j - 1) else j
  }

  function TrimStart(s: string): (r: string)
    ensures |r| <= |s| && r == s[|s| - |r|..]
    ensures |r| > 0 ==> !IsJsSpace(r[0])
    ensures forall i :: 0 <= i < |s| - |r| ==> IsJsSpace(s[i])
  {
    s[SpaceRunFrom(s, 0)..]
  }

  function TrimEnd(s: string): (r: string)
    ensures |r| <= |s| && r == s[..|r|]
    ensures |r| > 0 ==> !IsJsSpace(r[|r| - 1])
    ensures forall i :: |r| <= i < |s| ==> IsJsSpace(s[i])
  {
    s[..SpaceRunTo(s, |s|)]
  }

  /** `String.prototype.trim`: the longest infix of `s` that neither starts
      nor ends with white space; everything cut off is white space. */
  function Trim(s: string): (r: string)
    ensures |r| <= |s|
    ensures |r| > 0 ==> !IsJsSpace(r[0]) && !IsJsSpace(r[|r| - 1])
  {
    TrimEnd(TrimStart(s))
  }

  /** Trimming cuts `s` into white space, the result, and white space. */
  lemma TrimSlices(s: string)
    ensures var k := |s| - |TrimStart(s)|; var r := Trim(s);
      && k + |r| <= |s| && r == s[k..k + |r|]
      && (forall i :: 0 <= i < k ==> IsJsSpace(s[i]))
      && (forall j :: k + |r| <= j < |s| ==> IsJsSpace(s[j]))
  {
    var a := TrimStart(s);
    var k := |s| - |a|;
    TrimInfix(s, a, TrimEnd(a));
    TrimTail(s, a, TrimEnd(a));
    assert Trim(s) == TrimEnd(a);
  }

  lemma TrimInfix(s: string, a: string, r: string)
    requires |a| <= |s| && a == s[|s| - |a|..]
    requires |r| <= |a| && r == a[..|r|]
    ensures r == s[|s| - |a|..|s| - |a| + |r|]
  {
    InfixOfSuffix(s, |s| - |a|, |r|);
  }

  lemma TrimTail(s: string, a: string, r: string)
    requires |a| <= |s| && a == s[|s| - |a|..] && |r| <= |a|
    requires forall i :: |r| <= i < |a| ==> IsJsSpace(a[i])
    ensures forall j :: |s| - |a| + |r| <= j < |s| ==> IsJsSpace(s[j])
  {
    var k := |s| - |a|;
    forall j | k + |r| <= j < |s|
      ensures IsJsSpace(s[j])
    {
      assert a[j - k] == s[j];
    }
  }

  // ---------------------------------------------------------------------------
  // Step 1: expressions that reference an empty column name are skipped

  predicate HasEmptyReference(s: string)
  {
    exists i :: 0 <= i < |s| - 1 && s[i] == '"' && s[i + 1] == '"'
  }

  // ---------------------------------------------------------------------------
  // Step 2: the alias, `/^\/\/(?<alias>.+?)\n/`

  /** The first index at or after `i` holding a line terminator, or `|s|`. */
  function LineEnd(s: string, i: nat): (k: nat)
    requires i <= |s|
    ensures i <= k <= |s|
    ensures k < |s| ==> IsLineTerminator(s[k])
    ensures forall j :: i <= j < k ==> !IsLineTerminator(s[j])
    decreases |s| - i
  {
    if i == |s| || IsLineTerminator(s[i]) then i else LineEnd(s, i + 1)
  }

  /** The capture group of the alias regex, if it matches. */
  function AliasGroup(s: string): Option<string>
  {
    if |s| >= 2 && s[0] == '/' && s[1] == '/' then
      var k := LineEnd(s, 2);
      if 2 < k < |s| && s[k] == '\n' then Some(s[2..k]) else None
    else None
  }

  /** What the alias regex requires: the text starts with `//`, then a
      non-empty run `g` free of line terminators, then a line feed. */
  predicate AliasLine(s: string, g: string)
  {
    && |g| > 0
    && (forall i :: 0 <= i < |g| ==> !IsLineTerminator(g[i]))
    && |s| >= |g| + 3
    && s[..2] == "//" && s[2..2 + |g|] == g && s[2 + |g|] == '\n'
  }

  /** The regex matches exactly when the text has an alias line, and the group
      is that line's text. */
  lemma AliasGroupMeansAliasLine(s: string, g: string)
    ensures AliasGroup(s) == Some(g) <==> AliasLine(s, g)
  {
    if AliasLine(s, g) {
      assert s[0] == '/' && s[1] == '/';
      assert forall j :: 2 <= j < 2 + |g| ==> s[j] == g[j - 2];
      var k := LineEnd(s, 2);
      assert k == 2 + |g|;
    }
  }

  /** A text has at most one alias line: the regex's group. */
  lemma AliasLineUnique(s: string, g: string)
    requires AliasGroup(s) == Some(g)
    ensures AliasLine(s, g)
    ensures forall h :: AliasLine(s, h) ==> h == g
  {
    AliasGroupMeansAliasLine(s, g);
    forall h | AliasLine(s, h)
      ensures h == g
    {
      AliasGroupMeansAliasLine(s, h);
    }
  }

  /** Without a match, no alias line exists. */
  lemma NoAliasLine(s: string)
    requires AliasGroup(s).None?
    ensures forall g :: !AliasLine(s, g)
  {
    forall g | AliasLine(s, g)
      ensures false
    {
      AliasGroupMeansAliasLine(s, g);
    }
  }

  /** The alias of an expression: the trimmed text of its `//` first line,
      or the whole expression when there is no such line or it is blank. */
  function Alias(s: string): (a: string)
    ensures a != s ==> exists g :: AliasLine(s, g) && a == Trim(g) && |a| > 0
    ensures forall g :: AliasLine(s, g) && |Trim(g)| > 0 ==> a == Trim(g)
    ensures forall g :: AliasLine(s, g) && |Trim(g)| == 0 ==> a == s
    ensures (forall g :: !AliasLine(s, g)) ==> a == s
  {
    match AliasGroup(s)
    case Some(g) =>
      AliasLineUnique(s, g);
      var t := Trim(g);
      if |t| == 0 then s else t
    case None =>
      NoAliasLine(s);
      s
  }

  // ---------------------------------------------------------------------------
  // Step 3: `true` / `false`, `/([a-zA-Z_]+[a-zA-Z0-9_]*)/g`

  /** Length of the maximal run of word characters at the head of `s`. */
  function WordLength(s: string): (n: nat)
    ensures n <= |s|
    ensures forall i :: 0 <= i < n ==> IsWordChar(s[i])
    ensures n < |s| ==> !IsWordChar(s[n])
  {
    if |s| > 0 && IsWordChar(s[0]) then 1 + WordLength(s[1..]) else 0
  }

  function ReservedWord(w: string): string
  {
    if w == "true" then "True" else if w == "false" then "False" else w
  }

  /** The global word replacement: a match can only start at a letter or
      `_`, and greedily takes every word character after it; a digit where no
      match can start is copied and the scan moves on by one. */
  function RewriteBooleans(s: string): (r: string)
    ensures |r| == |s|
    decreases |s|
  {
    if |s| == 0 then []
    else if IsWordStart(s[0]) then
      var n := WordLength(s);
      ReservedWord(s[..n]) + RewriteBooleans(s[n..])
    else [s[0]] + RewriteBooleans(s[1..])
  }

  /** `c` is `a` itself, or the upper-case form of a lower-case `t` or `f`. */
  predicate Capitalises(a: char, c: char)
  {
    c == a || (a == 't' && c == 'T') || (a == 'f' && c == 'F')
  }

  predicate CapitalisesAll(s: string, r: string)
  {
    |r| == |s| && forall i :: 0 <= i < |s| ==> Capitalises(s[i], r[i])
  }

  lemma CapitalisesConcat(s1: string, r1: string, s2: string, r2: string)
    requires CapitalisesAll(s1, r1) && CapitalisesAll(s2, r2)
    ensures CapitalisesAll(s1 + s2, r1 + r2)
  {
    forall i | 0 <= i < |s1 + s2|
      ensures Capitalises((s1 + s2)[i], (r1 + r2)[i])
    {
      if i >= |s1| {
        assert (s1 + s2)[i] == s2[i - |s1|] && (r1 + r2)[i] == r2[i - |s1|];
      }
    }
  }

  /** The rewrite only ever turns a lower-case `t` or `f` into its upper-case
      form; every other character is kept in place. */
  lemma {:induction false} RewriteBooleansOnlyCapitalises(s: string)
    ensures CapitalisesAll(s, RewriteBooleans(s))
    decreases |s|
  {
    if |s| > 0 {
      if IsWordStart(s[0]) {
        var n := WordLength(s);
        RewriteBooleansOnlyCapitalises(s[n..]);
        var w := s[..n];
        assert CapitalisesAll(w, ReservedWord(w)) by {
          if w == "true" || w == "false" {
            assert w[1..] == ReservedWord(w)[1..];
          }
        }
        CapitalisesConcat(w, ReservedWord(w), s[n..], RewriteBooleans(s[n..]));
        assert w + s[n..] == s;
      } else {
        RewriteBooleansOnlyCapitalises(s[1..]);
        CapitalisesConcat([s[0]], [s[0]], s[1..], RewriteBooleans(s[1..]));
        assert [s[0]] + s[1..] == s;
      }
    }
  }

  /** A match that ends inside `x` is not extended by whatever follows `x`. */
  lemma {:induction false} WordLengthAppend(x: string, y: string)
    requires WordLength(x) < |x|
    ensures WordLength(x + y) == WordLength(x)
    decreases |x|
  {
    if IsWordChar(x[0]) {
      assert (x + y)[1..] == x[1..] + y;
      WordLengthAppend(x[1..], y);
    }
  }

  /** A run of word characters is matched whole. */
  lemma {:induction false} WordLengthAll(w: string)
    requires forall i :: 0 <= i < |w| ==> IsWordChar(w[i])
    ensures WordLength(w) == |w|
    decreases |w|
  {
    if |w| > 0 {
      WordLengthAll(w[1..]);
    }
  }

  /** One step of the rewrite at a word start. */
  lemma RewriteWordStep(s: string)
    requires |s| > 0 && IsWordStart(s[0])
    ensures RewriteBooleans(s) == ReservedWord(s[..WordLength(s)]) + RewriteBooleans(s[WordLength(s)..])
  {
  }

  /** One step of the rewrite at any other character. */
  lemma RewriteOtherStep(s: string)
    requires |s| > 0 && !IsWordStart(s[0])
    ensures RewriteBooleans(s) == [s[0]] + RewriteBooleans(s[1..])
  {
  }

  /** A character that is not a word character ends every match, so the
      rewrite of a text cut after such a character is the rewrite of the two
      parts. */
  lemma {:induction false} RewriteBooleansSplits(x: string, y: string)
    requires |x| > 0 ==> !IsWordChar(x[|x| - 1])
    ensures RewriteBooleans(x + y) == RewriteBooleans(x) + RewriteBooleans(y)
    decreases |x|
  {
    if |x| == 0 {
      assert x + y == y;
    } else if IsWordStart(x[0]) {
      var n := WordLength(x);
      assert n < |x|;
      RewriteBooleansSplits(x[n..], y);
      SplitsAtWord(x, y);
    } else {
      RewriteBooleansSplits(x[1..], y);
      SplitsAtOther(x, y);
    }
  }

  /** The step of `RewriteBooleansSplits` at a word start. */
  lemma SplitsAtWord(x: string, y: string)
    requires |x| > 0 && IsWordStart(x[0]) && WordLength(x) < |x|
    requires RewriteBooleans(x[WordLength(x)..] + y)
      == RewriteBooleans(x[WordLength(x)..]) + RewriteBooleans(y)
    ensures RewriteBooleans(x + y) == RewriteBooleans(x) + RewriteBooleans(y)
  {
    var n := WordLength(x);
    var a, b, c := ReservedWord(x[..n]), RewriteBooleans(x[n..]), RewriteBooleans(y);
    assert RewriteBooleans(x + y) == a + RewriteBooleans(x[n..] + y) by {
      WordLengthAppend(x, y);
      SliceAppend(x, y, n);
      RewriteWordStep(x + y);
    }
    assert RewriteBooleans(x) == a + b by {
      RewriteWordStep(x);
    }
    AppendAssoc(a, b, c);
  }

  /** The step of `RewriteBooleansSplits` at any other character. */
  lemma SplitsAtOther(x: string, y: string)
    requires |x| > 0 && !IsWordStart(x[0])
    requires RewriteBooleans(x[1..] + y) == RewriteBooleans(x[1..]) + RewriteBooleans(y)
    ensures RewriteBooleans(x + y) == RewriteBooleans(x) + RewriteBooleans(y)
  {
    var b, c := RewriteBooleans(x[1..]), RewriteBooleans(y);
    assert RewriteBooleans(x + y) == [x[0]] + RewriteBooleans(x[1..] + y) by {
      SliceAppend(x, y, 1);
      assert (x + y)[0] == x[0];
      RewriteOtherStep(x + y);
    }
    assert RewriteBooleans(x) == [x[0]] + b by {
      RewriteOtherStep(x);
    }
    AppendAssoc([x[0]], b, c);
  }

  /** `true` and `false` standing as whole words become `True` and `False`;
      any other word is left as it is. */
  lemma ReservedWordsRewritten(w: string)
    requires |w| > 0 && IsWordStart(w[0])
    requires forall i :: 0 <= i < |w| ==> IsWordChar(w[i])
    ensures RewriteBooleans(w) == ReservedWord(w)
  {
    WordLengthAll(w);
    assert w[..|w|] == w;
    assert w[|w|..] == [];
  }

  // ---------------------------------------------------------------------------
  // Steps 4 and 5: the quote lexer behind `/"(.*?[^\\])"/g` and `/'(.*?[^\\])'/g`

  /** The quoted run may close at `k`: `s[k]` is not a backslash and the
      quote follows it. */
  predicate CloseAt(s: string, k: nat, q: char)
  {
    k + 1 < |s| && s[k] != '\\' && s[k + 1] == q
  }

  predicate NoLineBreak(s: string, j: nat, k: nat)
    requires j <= k <= |s|
  {
    forall i :: j <= i < k ==> !IsLineTerminator(s[i])
  }

  /** Where a quoted run that started before `j` can close: the least `k >= j`
      whose character is not a backslash and is followed by the quote, with no
      line terminator in `s[j..k]` (those may only stand in the `[^\\]` slot). */
  function Close(s: string, j: nat, q: char): (r: Option<nat>)
    requires j <= |s|
    ensures r.Some? ==> j <= r.value && CloseAt(s, r.value, q) && NoLineBreak(s, j, r.value)
    decreases |s| - j
  {
    if j + 1 >= |s| then None
    else if s[j] != '\\' && s[j + 1] == q then Some(j)
    else if IsLineTerminator(s[j]) then None
    else Close(s, j + 1, q)
  }

  /** `Close` finds the first place the run can close, and finds none only
      when no place before the next line terminator qualifies. */
  lemma {:induction false} CloseIsFirst(s: string, j: nat, q: char)
    requires j <= |s|
    ensures Close(s, j, q).Some? ==> forall k :: j <= k < Close(s, j, q).value ==> !CloseAt(s, k, q)
    ensures Close(s, j, q).None? ==> forall k :: j <= k < |s| && NoLineBreak(s, j, k) ==> !CloseAt(s, k, q)
    decreases |s| - j
  {
    if j + 1 < |s| && !(s[j] != '\\' && s[j + 1] == q) && !IsLineTerminator(s[j]) {
      CloseIsFirst(s, j + 1, q);
      forall k | j + 1 <= k < |s| && NoLineBreak(s, j, k)
        ensures NoLineBreak(s, j + 1, k)
      {
      }
    }
  }

  datatype Segment = Plain(c: char) | Quoted(body: string)

  /** The lexer: at a quote with a possible close, the shortest quoted run;
      anywhere else, one plain character. */
  function Lex(s: string, q: char): (segs: seq<Segment>)
    decreases |s|
  {
    if |s| == 0 then []
    else if s[0] == q && Close(s, 1, q).Some? then
      var k := Close(s, 1, q).value;
      [Quoted(s[1..k + 1])] + Lex(s[k + 2..], q)
    else [Plain(s[0])] + Lex(s[1..], q)
  }

  function Raw(seg: Segment, q: char): string
  {
    match seg
    case Plain(c) => [c]
    case Quoted(b) => [q] + b + [q]
  }

  function Flatten(segs: seq<Segment>, q: char): string
    decreases |segs|
  {
    if |segs| == 0 then [] else Raw(segs[0], q) + Flatten(segs[1..], q)
  }

  lemma FlattenCons(seg: Segment, rest: seq<Segment>, q: char)
    ensures Flatten([seg] + rest, q) == Raw(seg, q) + Flatten(rest, q)
  {
    assert ([seg] + rest)[1..] == rest;
  }

  /** One step of the lexer at a quote that closes at `k`. */
  lemma LexQuotedStep(s: string, q: char)
    requires |s| > 0 && s[0] == q && Close(s, 1, q).Some?
    ensures var k := Close(s, 1, q).value;
      k + 2 <= |s| && s[k + 1] == q && Lex(s, q) == [Quoted(s[1..k + 1])] + Lex(s[k + 2..], q)
  {
  }

  /** One step of the lexer anywhere else. */
  lemma LexPlainStep(s: string, q: char)
    requires |s| > 0 && !(s[0] == q && Close(s, 1, q).Some?)
    ensures Lex(s, q) == [Plain(s[0])] + Lex(s[1..], q)
  {
  }

  /** The lexer loses nothing: its segments spell the input again. */
  lemma {:induction false} LexRoundTrip(s: string, q: char)
    ensures Flatten(Lex(s, q), q) == s
    decreases |s|
  {
    if |s| > 0 {
      if s[0] == q && Close(s, 1, q).Some? {
        var k := Close(s, 1, q).value;
        LexQuotedStep(s, q);
        LexRoundTrip(s[k + 2..], q);
        RoundTripQuoted(s, q, k);
      } else {
        LexPlainStep(s, q);
        LexRoundTrip(s[1..], q);
        RoundTripPlain(s, q);
      }
    }
  }

  lemma RoundTripQuoted(s: string, q: char, k: nat)
    requires k + 2 <= |s| && s[0] == q && s[k + 1] == q
    requires Lex(s, q) == [Quoted(s[1..k + 1])] + Lex(s[k + 2..], q)
    requires Flatten(Lex(s[k + 2..], q), q) == s[k + 2..]
    ensures Flatten(Lex(s, q), q) == s
  {
    FlattenCons(Quoted(s[1..k + 1]), Lex(s[k + 2..], q), q);
    SplitAround(s, k);
  }

  lemma RoundTripPlain(s: string, q: char)
    requires |s| > 0
    requires Lex(s, q) == [Plain(s[0])] + Lex(s[1..], q)
    requires Flatten(Lex(s[1..], q), q) == s[1..]
    ensures Flatten(Lex(s, q), q) == s
  {
    FlattenCons(Plain(s[0]), Lex(s[1..], q), q);
    assert s == [s[0]] + s[1..];
  }

  /** Every quoted body is one the regex accepts: not empty, not ending in a
      backslash, and free of line terminators except possibly its last
      character. */
  lemma {:induction false} LexBodiesWellFormed(s: string, q: char)
    ensures forall i :: 0 <= i < |Lex(s, q)| && Lex(s, q)[i].Quoted? ==>
      var b := Lex(s, q)[i].body;
      |b| > 0 && b[|b| - 1] != '\\' && forall j :: 0 <= j < |b| - 1 ==> !IsLineTerminator(b[j])
    decreases |s|
  {
    if |s| > 0 {
      var segs := Lex(s, q);
      if s[0] == q && Close(s, 1, q).Some? {
        var k := Close(s, 1, q).value;
        LexBodiesWellFormed(s[k + 2..], q);
        assert segs[1..] == Lex(s[k + 2..], q);
        assert forall i :: 1 <= i < |segs| ==> segs[i] == Lex(s[k + 2..], q)[i - 1];
      } else {
        LexBodiesWellFormed(s[1..], q);
        assert forall i :: 1 <= i < |segs| ==> segs[i] == Lex(s[1..], q)[i - 1];
      }
    }
  }

  /** A text without the quote character lexes to plain characters only. */
  lemma {:induction false} LexWithoutQuote(s: string, q: char)
    requires q !in s
    ensures forall i :: 0 <= i < |Lex(s, q)| ==> Lex(s, q)[i].Plain?
    decreases |s|
  {
    if |s| > 0 {
      assert s[0] != q;
      assert q !in s[1..];
      LexWithoutQuote(s[1..], q);
      assert forall i :: 1 <= i < |Lex(s, q)| ==> Lex(s, q)[i] == Lex(s[1..], q)[i - 1];
    }
  }

  // ---------------------------------------------------------------------------
  // Step 4: column references become `COLUMN<k>`

  /** `cname.replace(/\\"/g, '"')`: each backslash-quote pair becomes a
      quote; a text without such a pair is left as it is. */
  function Unescape(s: string): (r: string)
    ensures |r| <= |s|
    ensures (forall i :: 0 <= i < |s| - 1 ==> !(s[i] == '\\' && s[i + 1] == '"')) ==> r == s
    decreases |s|
  {
    if |s| >= 2 && s[0] == '\\' && s[1] == '"' then "\"" + Unescape(s[2..])
    else if |s| == 0 then []
    else [s[0]] + Unescape(s[1..])
  }

  /** The escaping the replacement undoes: a backslash before every quote. */
  function Escape(n: string): (r: string)
    ensures |r| >= |n|
    decreases |n|
  {
    if |n| == 0 then [] else (if n[0] == '"' then "\\\"" else [n[0]]) + Escape(n[1..])
  }

  /** Unescaping inverts escaping for a name without backslashes: every
      escaped quote becomes one quote and nothing else changes. */
  lemma {:induction false} UnescapeEscape(n: string)
    requires '\\' !in n
    ensures Unescape(Escape(n)) == n
    decreases |n|
  {
    if |n| > 0 {
      assert '\\' !in n[1..];
      UnescapeEscape(n[1..]);
      var rest := Escape(n[1..]);
      if n[0] == '"' {
        assert ("\\\"" + rest)[2..] == rest;
      } else {
        assert ([n[0]] + rest)[1..] == rest;
      }
      assert n == [n[0]] + n[1..];
    }
  }

  function DigitChar(d: nat): char
    requires d < 10
  {
    "0123456789"[d]
  }

  /** Decimal rendering of a natural number, as a template literal prints it. */
  function Decimal(n: nat): (r: string)
    ensures |r| > 0
    ensures forall i :: 0 <= i < |r| ==> '0' <= r[i] <= '9'
  {
    if n < 10 then [DigitChar(n)] else Decimal(n / 10) + [DigitChar(n % 10)]
  }

  lemma {:induction false} DecimalInjective(a: nat, b: nat)
    requires Decimal(a) == Decimal(b)
    ensures a == b
    decreases a
  {
    var da, db := Decimal(a), Decimal(b);
    assert da[|da| - 1] == db[|db| - 1];
    if a >= 10 && b >= 10 {
      assert Decimal(a / 10) == da[..|da| - 1] == db[..|db| - 1] == Decimal(b / 10);
      DecimalInjective(a / 10, b / 10);
    }
  }

  function ColumnId(k: nat): string
  {
    "COLUMN" + Decimal(k)
  }

  lemma ColumnIdInjective(a: nat, b: nat)
    ensures ColumnId(a) == ColumnId(b) <==> a == b
  {
    if ColumnId(a) == ColumnId(b) {
      assert Decimal(a) == ColumnId(a)[6..] == ColumnId(b)[6..] == Decimal(b);
      DecimalInjective(a, b);
    }
  }

  /** The per-expression bookkeeping: `column_name_map` as `ids`, the
      insertion order of `column_id_map` as `order`, and `running_cidx`. */
  datatype RefState = RefState(ids: map<string, nat>, order: seq<string>, counter: nat)

  const NoRefs := RefState(map[], [], 0)

  /** One column reference: a new name gets the current counter as its id; the
      counter moves on for every reference, new or repeated. */
  function Assign(st: RefState, name: string): (r: (nat, RefState))
  {
    if name in st.ids then (st.ids[name], st.(counter := st.counter + 1))
    else (st.counter, RefState(st.ids[name := st.counter], st.order + [name], st.counter + 1))
  }

  /** Renders the segments of the double-quote lexer: each quoted run becomes
      the id of its unescaped name. */
  function RenderRefs(segs: seq<Segment>, st: RefState): (string, RefState)
    decreases |segs|
  {
    if |segs| == 0 then ([], st)
    else match segs[0]
      case Plain(c) =>
        var (rest, st') := RenderRefs(segs[1..], st);
        ([c] + rest, st')
      case Quoted(b) =>
        var (k, st1) := Assign(st, Unescape(b));
        var (rest, st') := RenderRefs(segs[1..], st1);
        (ColumnId(k) + rest, st')
  }

  /** The referenced column names, in order of appearance, repeats included. */
  function RefNames(segs: seq<Segment>): seq<string>
    decreases |segs|
  {
    if |segs| == 0 then []
    else match segs[0]
      case Plain(_) => RefNames(segs[1..])
      case Quoted(b) => [Unescape(b)] + RefNames(segs[1..])
  }

  function FirstIndex(ns: seq<string>, n: string): (i: nat)
    requires n in ns
    ensures i < |ns| && ns[i] == n && n !in ns[..i]
  {
    if ns[0] == n then 0 else 1 + FirstIndex(ns[1..], n)
  }

  /** The names of `ns` without repeats, in order of first appearance. */
  function Distinct(ns: seq<string>): (d: seq<string>)
    ensures forall n :: n in d <==> n in ns
    ensures forall i, j :: 0 <= i < j < |d| ==> d[i] != d[j]
  {
    if |ns| == 0 then []
    else
      var d := Distinct(ns[..|ns| - 1]);
      assert forall n :: n in ns <==> n in ns[..|ns| - 1] || n == ns[|ns| - 1] by {
        assert ns == ns[..|ns| - 1] + [ns[|ns| - 1]];
      }
      if ns[|ns| - 1] in ns[..|ns| - 1] then d else d + [ns[|ns| - 1]]
  }

  /** The state the reference pass is in after the names `ns`: each name's id
      is the number of references before its first one. */
  function Summary(ns: seq<string>): RefState
  {
    RefState(FirstIndices(ns), Distinct(ns), |ns|)
  }

  /** Each name of `ns` mapped to the index of its first occurrence. */
  function FirstIndices(ns: seq<string>): map<string, nat>
  {
    map n | n in ns :: FirstIndex(ns, n)
  }

  lemma FirstIndexSnoc(ns: seq<string>, x: string, n: string)
    requires n in ns
    ensures FirstIndex(ns + [x], n) == FirstIndex(ns, n)
  {
    var i := FirstIndex(ns, n);
    assert (ns + [x])[i] == n;
    assert (ns + [x])[..i] == ns[..i];
  }

  lemma FirstIndexLast(ns: seq<string>, n: string)
    requires n !in ns
    ensures FirstIndex(ns + [n], n) == |ns|
  {
    assert (ns + [n])[|ns|] == n;
    assert (ns + [n])[..|ns|] == ns;
  }

  lemma FirstIndicesSnoc(ns: seq<string>, n: string)
    ensures n in ns ==> FirstIndices(ns + [n]) == FirstIndices(ns)
    ensures n !in ns ==> FirstIndices(ns + [n]) == FirstIndices(ns)[n := |ns|]
  {
    var ns' := ns + [n];
    var m1 := FirstIndices(ns');
    var m0 := if n in ns then FirstIndices(ns) else FirstIndices(ns)[n := |ns|];
    assert m1.Keys == m0.Keys by {
      forall m
        ensures m in ns' <==> m in ns || m == n
      {
        assert m in ns' <==> m in ns || m in [n];
      }
    }
    forall m | m in m1
      ensures m1[m] == m0[m]
    {
      if m in ns {
        FirstIndexSnoc(ns, n, m);
      } else {
        FirstIndexLast(ns, n);
      }
    }
  }

  lemma DistinctSnoc(ns: seq<string>, n: string)
    ensures Distinct(ns + [n]) == if n in ns then Distinct(ns) else Distinct(ns) + [n]
  {
    var ns' := ns + [n];
    assert ns'[..|ns'| - 1] == ns;
    assert ns'[|ns'| - 1] == n;
  }

  /** `Distinct` lists the names in the order of their first occurrences. */
  lemma {:induction false} DistinctFirstOrder(ns: seq<string>)
    ensures forall i, j :: 0 <= i < j < |Distinct(ns)| ==>
      FirstIndex(ns, Distinct(ns)[i]) < FirstIndex(ns, Distinct(ns)[j])
    decreases |ns|
  {
    if |ns| > 0 {
      var p := ns[..|ns| - 1];
      var x := ns[|ns| - 1];
      assert ns == p + [x];
      DistinctFirstOrder(p);
      DistinctSnoc(p, x);
      var d0, d := Distinct(p), Distinct(ns);
      forall i, j | 0 <= i < j < |d|
        ensures FirstIndex(ns, d[i]) < FirstIndex(ns, d[j])
      {
        assert d[i] == d0[i] && d0[i] in p;
        FirstIndexAppend(p, [x], d[i]);
        if j < |d0| {
          assert d[j] == d0[j] && d0[j] in p;
          FirstIndexAppend(p, [x], d[j]);
        } else {
          assert d[j] == x && x !in p;
          FirstIndexLast(p, x);
        }
      }
    }
  }

  /** The reference pass's state after the names `ns`, one `Assign` each. */
  function Replay(ns: seq<string>): RefState
  {
    if |ns| == 0 then NoRefs else Assign(Replay(ns[..|ns| - 1]), ns[|ns| - 1]).1
  }

  lemma ReplaySnoc(ns: seq<string>, n: string)
    ensures Replay(ns + [n]) == Assign(Replay(ns), n).1
  {
    assert (ns + [n])[..|ns|] == ns;
  }

  lemma AssignSummary(ns: seq<string>, n: string)
    ensures Assign(Summary(ns), n).1 == Summary(ns + [n])
    ensures Assign(Summary(ns), n).0 == FirstIndex(ns + [n], n)
  {
    FirstIndicesSnoc(ns, n);
    DistinctSnoc(ns, n);
    if n in ns {
      FirstIndexSnoc(ns, n, n);
    } else {
      FirstIndexLast(ns, n);
    }
  }

  /** Replaying the names yields the summary: ids are first-occurrence
      indices, the order has no repeats, and the counter counts every name. */
  lemma {:induction false} ReplayIsSummary(ns: seq<string>)
    ensures Replay(ns) == Summary(ns)
    decreases |ns|
  {
    if |ns| > 0 {
      var p := ns[..|ns| - 1];
      var n := ns[|ns| - 1];
      assert p + [n] == ns;
      ReplayIsSummary(p);
      AssignSummary(p, n);
    }
  }

  /** One step of the reference pass, on the state alone. */
  lemma RenderRefsStep(segs: seq<Segment>, st: RefState)
    requires |segs| > 0
    ensures segs[0].Plain? ==> RenderRefs(segs, st).1 == RenderRefs(segs[1..], st).1
    ensures segs[0].Plain? ==> RefNames(segs) == RefNames(segs[1..])
    ensures segs[0].Quoted? ==> var n := Unescape(segs[0].body);
      && RenderRefs(segs, st).1 == RenderRefs(segs[1..], Assign(st, n).1).1
      && RefNames(segs) == [n] + RefNames(segs[1..])
  {
  }

  /** The reference pass from the state after `ns0` ends in the state after
      `ns0` followed by the segments' names. */
  lemma {:induction false} RenderRefsReplay(segs: seq<Segment>, ns0: seq<string>)
    ensures RenderRefs(segs, Replay(ns0)).1 == Replay(ns0 + RefNames(segs))
    decreases |segs|
  {
    if |segs| == 0 {
      assert ns0 + RefNames(segs) == ns0;
    } else {
      var st := Replay(ns0);
      RenderRefsStep(segs, st);
      if segs[0].Plain? {
        RenderRefsReplay(segs[1..], ns0);
      } else {
        var n := Unescape(segs[0].body);
        ReplaySnoc(ns0, n);
        RenderRefsReplay(segs[1..], ns0 + [n]);
        assert ns0 + [n] + RefNames(segs[1..]) == ns0 + RefNames(segs);
      }
    }
  }

  lemma RenderRefsSummary(segs: seq<Segment>)
    ensures RenderRefs(segs, NoRefs).1 == Summary(RefNames(segs))
  {
    RenderRefsReplay(segs, []);
    assert [] + RefNames(segs) == RefNames(segs);
    ReplayIsSummary(RefNames(segs));
  }

  /** `column_id_map` in insertion order: id text to column name. */
  function IdMap(st: RefState): seq<(string, string)>
    requires forall n :: n in st.order ==> n in st.ids
  {
    seq(|st.order|, i requires 0 <= i < |st.order| => (ColumnId(st.ids[st.order[i]]), st.order[i]))
  }

  /** The result of the reference pass on text `s`: rewritten text and
      `column_id_map`. Each quoted column reference is replaced by the id of
      its name, the first reference's position; everything outside the
      quotes is kept. */
  function ReplaceColumns(s: string): (r: (string, seq<(string, string)>))
    ensures var segs := Lex(s, '"'); r.0 == SubstituteRefs(segs, RefNames(segs))
  {
    var segs := Lex(s, '"');
    var (text, st) := RenderRefs(segs, NoRefs);
    RenderRefsSummary(segs);
    RenderRefsText(segs, []);
    assert [] + RefNames(segs) == RefNames(segs);
    (text, IdMap(st))
  }

  /** The id map names every referenced column exactly once, in order of first
      reference; a name's id is `COLUMN<k>` with `k` the number of references
      before its first one; ids are pairwise distinct, so the map read
      backwards is the name-to-id map. */
  lemma ReplaceColumnsIds(s: string)
    ensures var ns := RefNames(Lex(s, '"'));
      var m := ReplaceColumns(s).1;
      && |m| == |Distinct(ns)|
      && (forall i :: 0 <= i < |m| ==>
            m[i].1 == Distinct(ns)[i] && m[i].0 == ColumnId(FirstIndex(ns, m[i].1)))
      && (forall i, j :: 0 <= i < j < |m| ==> m[i].0 != m[j].0 && m[i].1 != m[j].1)
      && (forall n :: n in ns <==> exists i :: 0 <= i < |m| && m[i].1 == n)
  {
    var segs := Lex(s, '"');
    var ns := RefNames(segs);
    RenderRefsSummary(segs);
    var m := ReplaceColumns(s).1;
    forall i, j | 0 <= i < j < |m|
      ensures m[i].0 != m[j].0
    {
      var a, b := m[i].1, m[j].1;
      ColumnIdInjective(FirstIndex(ns, a), FirstIndex(ns, b));
    }
    forall n | n in ns
      ensures exists i :: 0 <= i < |m| && m[i].1 == n
    {
      var d := Distinct(ns);
      var i :| 0 <= i < |d| && d[i] == n;
      assert m[i].1 == n;
    }
  }

  /** The rewritten text, stated without the pass's state: every quoted run
      becomes `COLUMN<k>`, where `k` is the position of the first reference to
      its unescaped name among all references `ns`; other characters stay. */
  function SubstituteRefs(segs: seq<Segment>, ns: seq<string>): string
    requires forall n :: n in RefNames(segs) ==> n in ns
    decreases |segs|
  {
    if |segs| == 0 then []
    else match segs[0]
      case Plain(c) => [c] + SubstituteRefs(segs[1..], ns)
      case Quoted(b) => ColumnId(FirstIndex(ns, Unescape(b))) + SubstituteRefs(segs[1..], ns)
  }

  lemma FirstIndexAppend(ns: seq<string>, ext: seq<string>, n: string)
    requires n in ns
    ensures FirstIndex(ns + ext, n) == FirstIndex(ns, n)
  {
    var i := FirstIndex(ns, n);
    assert (ns + ext)[i] == n;
    assert (ns + ext)[..i] == ns[..i];
  }

  /** The pass from the state after `ns0` renders each reference by its first
      position in `ns0` followed by the segments' names. */
  lemma {:induction false} RenderRefsText(segs: seq<Segment>, ns0: seq<string>)
    ensures forall n :: n in RefNames(segs) ==> n in ns0 + RefNames(segs)
    ensures RenderRefs(segs, Replay(ns0)).0 == SubstituteRefs(segs, ns0 + RefNames(segs))
    decreases |segs|
  {
    if |segs| > 0 {
      var st := Replay(ns0);
      RenderRefsStep(segs, st);
      if segs[0].Plain? {
        RenderRefsText(segs[1..], ns0);
      } else {
        var n := Unescape(segs[0].body);
        var all := ns0 + RefNames(segs);
        assert all == (ns0 + [n]) + RefNames(segs[1..]);
        ReplayIsSummary(ns0);
        AssignSummary(ns0, n);
        ReplayIsSummary(ns0 + [n]);
        RenderRefsText(segs[1..], ns0 + [n]);
        FirstIndexAppend(ns0 + [n], RefNames(segs[1..]), n);
      }
    }
  }

  /** Text without a double quote has no references: it is kept as it is and
      its id map is empty. */
  lemma ReplaceColumnsWithoutQuotes(s: string)
    requires '"' !in s
    ensures ReplaceColumns(s) == (s, [])
  {
    var segs := Lex(s, '"');
    LexWithoutQuote(s, '"');
    LexRoundTrip(s, '"');
    PlainRender(segs, NoRefs);
    assert IdMap(NoRefs) == [];
  }

  lemma {:induction false} PlainRender(segs: seq<Segment>, st: RefState)
    requires forall i :: 0 <= i < |segs| ==> segs[i].Plain?
    ensures RenderRefs(segs, st) == (Flatten(segs, '"'), st)
    decreases |segs|
  {
    if |segs| > 0 {
      PlainRender(segs[1..], st);
    }
  }

  // ---------------------------------------------------------------------------
  // Step 5: single-quoted literals are wrapped in `intern(...)`

  function RenderInterned(segs: seq<Segment>): string
    decreases |segs|
  {
    if |segs| == 0 then []
    else match segs[0]
      case Plain(c) => [c] + RenderInterned(segs[1..])
      case Quoted(b) => "intern(" + Raw(segs[0], '\'') + ")" + RenderInterned(segs[1..])
  }

  function QuotedCount(segs: seq<Segment>): nat
    decreases |segs|
  {
    if |segs| == 0 then 0 else (if segs[0].Quoted? then 1 else 0) + QuotedCount(segs[1..])
  }

  function WrapLiterals(s: string): string
  {
    RenderInterned(Lex(s, '\''))
  }

  /** Removing the wrapper again: the inverse of `RenderInterned`. */
  function UnwrapInterned(segs: seq<Segment>, t: string): Option<string>
    decreases |segs|
  {
    if |segs| == 0 then (if t == [] then Some([]) else None)
    else
      var w := match segs[0]
        case Plain(c) => [c]
        case Quoted(b) => "intern(" + Raw(segs[0], '\'') + ")";
      if |w| <= |t| && t[..|w|] == w then
        match UnwrapInterned(segs[1..], t[|w|..])
        case Some(rest) => Some(Raw(segs[0], '\'') + rest)
        case None => None
      else None
  }

  /** Wrapping adds exactly the eight characters of `intern(` and `)` around
      each literal, and nothing else: peeling the wrappers off the literal
      segments gives the input back. */
  lemma {:induction false} WrapLiteralsRoundTrip(s: string)
    ensures UnwrapInterned(Lex(s, '\''), WrapLiterals(s)) == Some(s)
    ensures |WrapLiterals(s)| == |s| + 8 * QuotedCount(Lex(s, '\''))
  {
    var segs := Lex(s, '\'');
    UnwrapRender(segs);
    LexRoundTrip(s, '\'');
  }

  lemma {:induction false} UnwrapRender(segs: seq<Segment>)
    ensures UnwrapInterned(segs, RenderInterned(segs)) == Some(Flatten(segs, '\''))
    ensures |RenderInterned(segs)| == |Flatten(segs, '\'')| + 8 * QuotedCount(segs)
    decreases |segs|
  {
    if |segs| > 0 {
      UnwrapRender(segs[1..]);
      var t := RenderInterned(segs);
      match segs[0]
      case Plain(c) =>
        assert t == [c] + RenderInterned(segs[1..]);
        assert t[1..] == RenderInterned(segs[1..]);
      case Quoted(b) =>
        var w := "intern(" + Raw(segs[0], '\'') + ")";
        assert t == w + RenderInterned(segs[1..]);
        assert t[..|w|] == w;
        assert t[|w|..] == RenderInterned(segs[1..]);
    }
  }

  lemma WrapPlainHead(c: char, rest: string)
    requires c != '\''
    ensures WrapLiterals([c] + rest) == [c] + WrapLiterals(rest)
  {
    var s := [c] + rest;
    assert s[1..] == rest;
    assert Lex(s, '\'') == [Plain(c)] + Lex(rest, '\'');
    assert ([Plain(c)] + Lex(rest, '\''))[1..] == Lex(rest, '\'');
  }

  lemma WrapLiteralHead(c: char, rest: string)
    requires c != '\\'
    ensures WrapLiterals(['\'', c, '\''] + rest) == "intern('" + [c] + "')" + WrapLiterals(rest)
  {
    var s := ['\'', c, '\''] + rest;
    assert Close(s, 1, '\'') == Some(1);
    assert s[1..2] == [c] && s[3..] == rest;
    assert Lex(s, '\'') == [Quoted([c])] + Lex(rest, '\'');
    assert ([Quoted([c])] + Lex(rest, '\''))[1..] == Lex(rest, '\'');
  }

  /** The wrapper the pass puts around a single-quoted literal. */
  function Intern(literal: string): string
  {
    "intern(" + literal + ")"
  }

  /** Wrapping is not idempotent: the literal of a text already wrapped is
      wrapped a second time. */
  lemma WrapLiteralsTwice(c: char)
    requires c != '\\'
    ensures WrapLiterals(['\'', c, '\'']) == Intern(['\'', c, '\''])
    ensures WrapLiterals(Intern(['\'', c, '\''])) == Intern(Intern(['\'', c, '\'']))
  {
    var x := ['\'', c, '\''];
    WrapLiteralHead(c, []);
    assert x + [] == x;
    assert "intern('" + [c] + "')" == Intern(x);
    WrapClosed(c);
    var p := "intern(";
    WrapSuffix(p, 0, x + ")");
    assert p[0..] == p;
    AppendAssoc(p, x, ")");
    AppendAssoc(p, Intern(x), ")");
  }

  /** The literal followed by the closing parenthesis of a call. */
  lemma WrapClosed(c: char)
    requires c != '\\'
    ensures WrapLiterals(['\'', c, '\''] + ")") == Intern(['\'', c, '\'']) + ")"
  {
    WrapLiteralHead(c, ")");
    WrapPlainHead(')', []);
    assert [')'] + [] == ")";
    assert "intern('" + [c] + "')" == Intern(['\'', c, '\'']);
  }

  /** A run of characters other than the quote is copied by the wrapping. */
  lemma {:induction false} WrapSuffix(p: string, k: nat, rest: string)
    requires k <= |p| && '\'' !in p
    ensures WrapLiterals(p[k..] + rest) == p[k..] + WrapLiterals(rest)
    decreases |p| - k
  {
    if k < |p| {
      WrapSuffix(p, k + 1, rest);
      assert p[k..] + rest == [p[k]] + (p[k + 1..] + rest);
      WrapPlainHead(p[k], p[k + 1..] + rest);
      assert p[k..] == [p[k]] + p[k + 1..];
    } else {
      assert p[k..] == [];
      assert p[k..] + rest == rest;
    }
  }

  // ---------------------------------------------------------------------------
  // One expression, and the batch

  /** `[alias, original, canonical, column_id_map]` */
  datatype Descriptor = Descriptor(
    alias: string,
    original: string,
    canonical: string,
    columnIds: seq<(string, string)>)

  /** The canonical text before the intern-stripping passes, with its id map. */
  function Rewrite(s: string): (string, seq<(string, string)>)
  {
    var (text, ids) := ReplaceColumns(RewriteBooleans(s));
    (WrapLiterals(text), ids)
  }

  /** The descriptor of one kept expression. The two regex passes that strip
      `intern(...)` back out of the literal arguments of `bucket`, `match`,
      `match_all`, `search`, `indexof`, `replace` and `replace_all` are the
      parameter `strip`. */
  function Canonicalize(s: string, strip: string -> string): (d: Descriptor)
    ensures d.original == s
    ensures d.alias == Alias(s)
  {
    var (text, ids) := Rewrite(s);
    Descriptor(Alias(s), s, strip(text), ids)
  }

  /** Step 6, with `expression_idx_map` as `index`: a descriptor whose alias
      was seen before overwrites the earlier one in place. */
  function Place(out: seq<Descriptor>, index: map<string, nat>, d: Descriptor): (seq<Descriptor>, map<string, nat>)
  {
    if d.alias in index && index[d.alias] < |out| then (out[index[d.alias] := d], index)
    else (out + [d], index[d.alias := |out|])
  }

  function DedupFrom(ds: seq<Descriptor>): (seq<Descriptor>, map<string, nat>)
  {
    if |ds| == 0 then ([], map[])
    else
      var (out, index) := DedupFrom(ds[..|ds| - 1]);
      Place(out, index, ds[|ds| - 1])
  }

  function Dedup(ds: seq<Descriptor>): seq<Descriptor>
  {
    DedupFrom(ds).0
  }

  /** `parse_expression_strings`: the expressions that reference `""` are
      dropped; the rest are canonicalized and deduplicated by alias. */
  function ParseExpressionStrings(exprs: seq<string>, strip: string -> string): seq<Descriptor>
  {
    Dedup(CanonicalizeKept(exprs, strip))
  }

  /** The expressions `parse_expression_strings` keeps: those without `""`. */
  predicate Kept(e: string)
  {
    !HasEmptyReference(e)
  }

  function CanonicalizeWith(strip: string -> string): string -> Descriptor
  {
    e => Canonicalize(e, strip)
  }

  /** The kept expressions, canonicalized. */
  function CanonicalizeKept(exprs: seq<string>, strip: string -> string): (ds: seq<Descriptor>)
    ensures |ds| <= |exprs|
    ensures forall i :: 0 <= i < |ds| ==>
      !HasEmptyReference(ds[i].original) && ds[i] == Canonicalize(ds[i].original, strip) && ds[i].original in exprs
    ensures forall e :: e in exprs && !HasEmptyReference(e) ==> Canonicalize(e, strip) in ds
  {
    if |exprs| == 0 then []
    else
      var init := exprs[..|exprs| - 1];
      var rest := CanonicalizeKept(init, strip);
      var e := exprs[|exprs| - 1];
      assert exprs == init + [e];
      if HasEmptyReference(e) then rest else rest + [Canonicalize(e, strip)]
  }

  /** The kept expressions are canonicalized one for one, in input order. */
  lemma {:induction false} CanonicalizeKeptInOrder(exprs: seq<string>, strip: string -> string)
    ensures CanonicalizeKept(exprs, strip) == MapSeq(Filter(exprs, Kept), CanonicalizeWith(strip))
    decreases |exprs|
  {
    if |exprs| > 0 {
      var init := exprs[..|exprs| - 1];
      var e := exprs[|exprs| - 1];
      assert exprs == init + [e];
      CanonicalizeKeptInOrder(init, strip);
      KeptSnoc(init, e, strip, CanonicalizeKept(init, strip));
    }
  }

  lemma KeptSnoc(init: seq<string>, e: string, strip: string -> string, rest: seq<Descriptor>)
    requires rest == MapSeq(Filter(init, Kept), CanonicalizeWith(strip))
    ensures (if HasEmptyReference(e) then rest else rest + [Canonicalize(e, strip)])
      == MapSeq(Filter(init + [e], Kept), CanonicalizeWith(strip))
  {
    FilterSnoc(init, e, Kept);
    MapSnoc(Filter(init, Kept), e, CanonicalizeWith(strip));
  }

  // ---------------------------------------------------------------------------
  // The deduplication against an independent definition

  function Aliases(ds: seq<Descriptor>): seq<string>
  {
    seq(|ds|, i requires 0 <= i < |ds| => ds[i].alias)
  }

  /** The last descriptor carrying alias `a`. */
  function LastWith(ds: seq<Descriptor>, a: string): (d: Descriptor)
    requires a in Aliases(ds)
    ensures d in ds && d.alias == a
  {
    var last := ds[|ds| - 1];
    if last.alias == a then last
    else
      assert Aliases(ds) == Aliases(ds[..|ds| - 1]) + [last.alias];
      LastWith(ds[..|ds| - 1], a)
  }

  /** One descriptor per distinct alias, at the alias's first position,
      carrying the alias's last content. */
  function Expected(ds: seq<Descriptor>): seq<Descriptor>
  {
    var al := Distinct(Aliases(ds));
    seq(|al|, i requires 0 <= i < |al| => LastWith(ds, al[i]))
  }

  predicate IndexAgrees(out: seq<Descriptor>, index: map<string, nat>)
  {
    && (forall a :: a in index ==> index[a] < |out| && out[index[a]].alias == a)
    && (forall i :: 0 <= i < |out| ==> out[i].alias in index)
  }

  lemma {:induction false} DedupMatchesExpected(ds: seq<Descriptor>)
    ensures DedupFrom(ds).0 == Expected(ds)
    ensures IndexAgrees(DedupFrom(ds).0, DedupFrom(ds).1)
    decreases |ds|
  {
    if |ds| > 0 {
      var init := ds[..|ds| - 1];
      var d := ds[|ds| - 1];
      DedupMatchesExpected(init);
      assert init + [d] == ds;
      DedupStep(init, d);
    }
  }

  lemma AliasesSnoc(init: seq<Descriptor>, d: Descriptor)
    ensures Aliases(init + [d]) == Aliases(init) + [d.alias]
    ensures LastWith(init + [d], d.alias) == d
    ensures forall a :: a in Aliases(init) && a != d.alias ==> LastWith(init + [d], a) == LastWith(init, a)
  {
    assert (init + [d])[..|init|] == init;
  }

  lemma DedupStep(init: seq<Descriptor>, d: Descriptor)
    requires DedupFrom(init).0 == Expected(init)
    requires IndexAgrees(DedupFrom(init).0, DedupFrom(init).1)
    ensures DedupFrom(init + [d]).0 == Expected(init + [d])
    ensures IndexAgrees(DedupFrom(init + [d]).0, DedupFrom(init + [d]).1)
  {
    var ds := init + [d];
    assert ds[..|ds| - 1] == init;
    var (out, index) := DedupFrom(init);
    assert DedupFrom(ds) == Place(out, index, d);
    AliasesSnoc(init, d);
    DistinctSnoc(Aliases(init), d.alias);
    if d.alias in index {
      DedupSeen(init, d, out, index);
    } else {
      DedupNew(init, d, out, index);
    }
  }

  lemma IndexOverwrite(out: seq<Descriptor>, index: map<string, nat>, d: Descriptor)
    requires IndexAgrees(out, index) && d.alias in index
    ensures IndexAgrees(out[index[d.alias] := d], index)
  {
  }

  lemma IndexAppend(out: seq<Descriptor>, index: map<string, nat>, d: Descriptor)
    requires IndexAgrees(out, index) && d.alias !in index
    ensures IndexAgrees(out + [d], index[d.alias := |out|])
  {
  }

  /** An alias the index lacks never occurred before. */
  lemma UnindexedIsNew(init: seq<Descriptor>, out: seq<Descriptor>, index: map<string, nat>, a: string)
    requires out == Expected(init) && IndexAgrees(out, index) && a !in index
    ensures a !in Aliases(init)
  {
    var al0 := Distinct(Aliases(init));
    forall i | 0 <= i < |al0|
      ensures al0[i] != a
    {
      assert out[i].alias == al0[i];
    }
  }

  /** An entry whose alias is not the new descriptor's keeps its descriptor. */
  lemma KeptEntry(init: seq<Descriptor>, d: Descriptor, i: nat)
    requires i < |Distinct(Aliases(init))| && i < |Distinct(Aliases(init + [d]))|
    requires Distinct(Aliases(init + [d]))[i] == Distinct(Aliases(init))[i]
    requires Distinct(Aliases(init))[i] in Aliases(init) && Distinct(Aliases(init))[i] in Aliases(init + [d])
    requires LastWith(init + [d], Distinct(Aliases(init))[i]) == LastWith(init, Distinct(Aliases(init))[i])
    ensures Expected(init + [d])[i] == Expected(init)[i]
  {
  }

  /** With no new alias, the expected list changes only at the repeated
      alias's position. */
  lemma OverwriteMatches(init: seq<Descriptor>, d: Descriptor, k: nat)
    requires Distinct(Aliases(init + [d])) == Distinct(Aliases(init))
    requires k < |Distinct(Aliases(init))| && Distinct(Aliases(init))[k] == d.alias
    requires LastWith(init + [d], d.alias) == d
    requires forall a :: a in Aliases(init) && a != d.alias ==> LastWith(init + [d], a) == LastWith(init, a)
    ensures Expected(init)[k := d] == Expected(init + [d])
  {
    var al0 := Distinct(Aliases(init));
    var out' := Expected(init)[k := d];
    var exp := Expected(init + [d]);
    forall i | 0 <= i < |out'|
      ensures exp[i] == out'[i]
    {
      if i != k {
        assert al0[i] != al0[k];
        assert al0[i] in Aliases(init);
        KeptEntry(init, d, i);
      }
    }
  }

  /** A new alias extends the expected list by the new descriptor. */
  lemma AppendMatches(init: seq<Descriptor>, d: Descriptor)
    requires Distinct(Aliases(init + [d])) == Distinct(Aliases(init)) + [d.alias]
    requires d.alias !in Aliases(init)
    requires LastWith(init + [d], d.alias) == d
    requires forall a :: a in Aliases(init) && a != d.alias ==> LastWith(init + [d], a) == LastWith(init, a)
    ensures Expected(init) + [d] == Expected(init + [d])
  {
    var al0 := Distinct(Aliases(init));
    var out' := Expected(init) + [d];
    var exp := Expected(init + [d]);
    forall i | 0 <= i < |al0|
      ensures exp[i] == out'[i]
    {
      assert al0[i] in Aliases(init);
      KeptEntry(init, d, i);
    }
  }

  /** A repeated alias: its descriptor is overwritten in place. */
  lemma DedupSeen(init: seq<Descriptor>, d: Descriptor, out: seq<Descriptor>, index: map<string, nat>)
    requires out == Expected(init) && IndexAgrees(out, index) && d.alias in index
    requires Distinct(Aliases(init + [d])) ==
      if d.alias in Aliases(init) then Distinct(Aliases(init)) else Distinct(Aliases(init)) + [d.alias]
    requires LastWith(init + [d], d.alias) == d
    requires forall a :: a in Aliases(init) && a != d.alias ==> LastWith(init + [d], a) == LastWith(init, a)
    ensures Place(out, index, d).0 == Expected(init + [d])
    ensures IndexAgrees(Place(out, index, d).0, Place(out, index, d).1)
  {
    IndexOverwrite(out, index, d);
    var al0 := Distinct(Aliases(init));
    var k := index[d.alias];
    assert out[k].alias == al0[k] == d.alias;
    assert al0[k] in Aliases(init);
    OverwriteMatches(init, d, k);
  }

  /** A new alias: its descriptor is appended and indexed. */
  lemma DedupNew(init: seq<Descriptor>, d: Descriptor, out: seq<Descriptor>, index: map<string, nat>)
    requires out == Expected(init) && IndexAgrees(out, index) && d.alias !in index
    requires Distinct(Aliases(init + [d])) ==
      if d.alias in Aliases(init) then Distinct(Aliases(init)) else Distinct(Aliases(init)) + [d.alias]
    requires LastWith(init + [d], d.alias) == d
    requires forall a :: a in Aliases(init) && a != d.alias ==> LastWith(init + [d], a) == LastWith(init, a)
    ensures Place(out, index, d).0 == Expected(init + [d])
    ensures IndexAgrees(Place(out, index, d).0, Place(out, index, d).1)
  {
    IndexAppend(out, index, d);
    UnindexedIsNew(init, out, index, d.alias);
    AppendMatches(init, d);
  }

  /** The deduplication keeps exactly one descriptor per distinct alias, at
      the position where the alias first occurred, with the content of its
      last occurrence. */
  lemma DedupByAlias(ds: seq<Descriptor>)
    ensures var out := Dedup(ds);
      && |out| == |Distinct(Aliases(ds))|
      && (forall i :: 0 <= i < |out| ==> out[i].alias == Distinct(Aliases(ds))[i] && out[i] == LastWith(ds, out[i].alias))
      && (forall i, j :: 0 <= i < j < |out| ==> out[i].alias != out[j].alias)
      && (forall a :: a in Aliases(ds) <==> exists i :: 0 <= i < |out| && out[i].alias == a)
  {
    DedupMatchesExpected(ds);
    var al := Distinct(Aliases(ds));
    forall a | a in Aliases(ds)
      ensures exists i :: 0 <= i < |Dedup(ds)| && Dedup(ds)[i].alias == a
    {
      var i :| 0 <= i < |al| && al[i] == a;
      assert Dedup(ds)[i].alias == a;
    }
  }

  /** The whole pass: every descriptor is the canonical form of a kept input
      expression, no two descriptors share an alias, and every kept
      expression's alias is represented. */
  lemma ParseExpressionStringsSpec(exprs: seq<string>, strip: string -> string)
    ensures var out := ParseExpressionStrings(exprs, strip);
      && (forall i :: 0 <= i < |out| ==>
            out[i].original in exprs && !HasEmptyReference(out[i].original)
            && out[i] == Canonicalize(out[i].original, strip))
      && (forall i, j :: 0 <= i < j < |out| ==> out[i].alias != out[j].alias)
      && (forall e :: e in exprs && !HasEmptyReference(e) ==>
            exists i :: 0 <= i < |out| && out[i].alias == Alias(e))
  {
    var ds := CanonicalizeKept(exprs, strip);
    DedupByAlias(ds);
    DedupFromKept(exprs, strip, ds, Dedup(ds));
    KeptAliasesCovered(exprs, strip, ds);
  }

  /** The aliases of the kept expressions, in input order, repeats included. */
  function KeptAliases(exprs: seq<string>): (al: seq<string>)
    ensures |al| == |Filter(exprs, Kept)|
  {
    MapSeq(Filter(exprs, Kept), Alias)
  }

  /** Over the input list: one descriptor per alias of a kept expression, in
      order of the alias's first occurrence. */
  lemma ParseExpressionStringsOrder(exprs: seq<string>, strip: string -> string)
    ensures |ParseExpressionStrings(exprs, strip)| == |Distinct(KeptAliases(exprs))|
    ensures forall i :: 0 <= i < |ParseExpressionStrings(exprs, strip)| ==>
      ParseExpressionStrings(exprs, strip)[i].alias == Distinct(KeptAliases(exprs))[i]
    ensures forall i, j :: 0 <= i < j < |Distinct(KeptAliases(exprs))| ==>
      FirstIndex(KeptAliases(exprs), Distinct(KeptAliases(exprs))[i])
        < FirstIndex(KeptAliases(exprs), Distinct(KeptAliases(exprs))[j])
  {
    var ds := CanonicalizeKept(exprs, strip);
    CanonicalizeKeptInOrder(exprs, strip);
    DedupByAlias(ds);
    AliasesOfCanonical(Filter(exprs, Kept), strip);
    DistinctFirstOrder(KeptAliases(exprs));
  }

  /** The position of the last expression of `kept` whose alias is `a`. */
  function LastAliasIndex(kept: seq<string>, a: string): (k: nat)
    requires a in MapSeq(kept, Alias)
    ensures k < |kept| && Alias(kept[k]) == a
    ensures forall k' :: k < k' < |kept| ==> Alias(kept[k']) != a
    decreases |kept|
  {
    var n := |kept| - 1;
    if Alias(kept[n]) == a then n
    else
      MapSnoc(kept[..n], kept[n], Alias);
      assert kept[..n] + [kept[n]] == kept;
      LastAliasIndex(kept[..n], a)
  }

  /** Over the input list: each descriptor is the canonical form of the last
      kept expression carrying its alias. */
  lemma ParseExpressionStringsLastWins(exprs: seq<string>, strip: string -> string)
    ensures var out := ParseExpressionStrings(exprs, strip);
      forall i :: 0 <= i < |out| ==>
        && out[i].alias in KeptAliases(exprs)
        && out[i] == Canonicalize(Filter(exprs, Kept)[LastAliasIndex(Filter(exprs, Kept), out[i].alias)], strip)
  {
    var ds := CanonicalizeKept(exprs, strip);
    CanonicalizeKeptInOrder(exprs, strip);
    DedupPicksLast(ds);
    AliasesOfCanonical(Filter(exprs, Kept), strip);
    KeptLastContent(Filter(exprs, Kept), strip, ds, Dedup(ds));
  }

  lemma DedupPicksLast(ds: seq<Descriptor>)
    ensures forall i :: 0 <= i < |Dedup(ds)| ==>
      Dedup(ds)[i].alias in Aliases(ds) && Dedup(ds)[i] == LastWith(ds, Dedup(ds)[i].alias)
  {
    DedupByAlias(ds);
  }

  /** Canonicalizing keeps each expression's alias. */
  lemma AliasesOfCanonical(kept: seq<string>, strip: string -> string)
    ensures Aliases(MapSeq(kept, CanonicalizeWith(strip))) == MapSeq(kept, Alias)
  {
  }

  /** `LastWith` picks the last descriptor carrying the alias. */
  lemma {:induction false} LastWithIsLast(ds: seq<Descriptor>, a: string)
    requires a in Aliases(ds)
    ensures exists k ::
      && 0 <= k < |ds|
      && ds[k] == LastWith(ds, a)
      && (forall k' :: k < k' < |ds| ==> ds[k'].alias != a)
    decreases |ds|
  {
    var n := |ds| - 1;
    if ds[n].alias != a {
      var init := ds[..n];
      assert init + [ds[n]] == ds;
      AliasesSnoc(init, ds[n]);
      assert a in Aliases(init);
      LastWithIsLast(init, a);
      var k :| 0 <= k < |init| && init[k] == LastWith(init, a)
        && (forall k' :: k < k' < |init| ==> init[k'].alias != a);
      assert ds[k] == init[k];
      assert forall k' :: k < k' < n ==> ds[k'] == init[k'];
    }
  }

  lemma KeptLastContent(kept: seq<string>, strip: string -> string, ds: seq<Descriptor>, out: seq<Descriptor>)
    requires ds == MapSeq(kept, CanonicalizeWith(strip))
    requires Aliases(ds) == MapSeq(kept, Alias)
    requires forall i :: 0 <= i < |out| ==> out[i].alias in Aliases(ds) && out[i] == LastWith(ds, out[i].alias)
    ensures forall i :: 0 <= i < |out| ==>
      out[i].alias in MapSeq(kept, Alias) && out[i] == Canonicalize(kept[LastAliasIndex(kept, out[i].alias)], strip)
  {
    forall i | 0 <= i < |out|
      ensures out[i] == Canonicalize(kept[LastAliasIndex(kept, out[i].alias)], strip)
    {
      var a := out[i].alias;
      LastWithIsLast(ds, a);
      var k :| 0 <= k < |ds| && ds[k] == LastWith(ds, a)
        && (forall k' :: k < k' < |ds| ==> ds[k'].alias != a);
      forall k' | k < k' < |kept|
        ensures Alias(kept[k']) != a
      {
        assert ds[k'] == Canonicalize(kept[k'], strip);
      }
      assert k == LastAliasIndex(kept, a);
    }
  }


  lemma DedupFromKept(exprs: seq<string>, strip: string -> string, ds: seq<Descriptor>, out: seq<Descriptor>)
    requires forall i :: 0 <= i < |ds| ==>
      !HasEmptyReference(ds[i].original) && ds[i] == Canonicalize(ds[i].original, strip) && ds[i].original in exprs
    requires forall i :: 0 <= i < |out| ==> out[i].alias in Aliases(ds) && out[i] == LastWith(ds, out[i].alias)
    ensures forall i :: 0 <= i < |out| ==>
      out[i].original in exprs && !HasEmptyReference(out[i].original) && out[i] == Canonicalize(out[i].original, strip)
  {
    forall i | 0 <= i < |out|
      ensures out[i] in ds
    {
    }
  }

  lemma AliasesContain(ds: seq<Descriptor>, d: Descriptor)
    requires d in ds
    ensures d.alias in Aliases(ds)
  {
    var k :| 0 <= k < |ds| && ds[k] == d;
    assert Aliases(ds)[k] == d.alias;
  }

  lemma KeptAliasesCovered(exprs: seq<string>, strip: string -> string, ds: seq<Descriptor>)
    requires forall e :: e in exprs && !HasEmptyReference(e) ==> Canonicalize(e, strip) in ds
    ensures forall e :: e in exprs && !HasEmptyReference(e) ==> Alias(e) in Aliases(ds)
  {
    forall e | e in exprs && !HasEmptyReference(e)
      ensures Alias(e) in Aliases(ds)
    {
      AliasesContain(ds, Canonicalize(e, strip));
    }
  }
}

=== FILE: materialize.dfy ===
/** The index arithmetic with which a view of `perspective.js` turns its
    engine slice into rows: hidden sort columns, the window that
    `_parse_format_options` derives from user options and the viewport, the
    row and column traversal of `to_format`, `column_to_format`,
    `num_columns`, and the configuration checks of `table.view` that fix the
    view's number of sides.

    The engine's grid is not modelled: a traversal produces the sequence of
    items it would write, a data cell by its column index. */
module Materialize {
  import opened Wrappers
  import Expressions
  import Arith

  // ---------------------------------------------------------------------------
  // Hidden columns

  predicate Hidden(columns: seq<string>, sortColumn: string)
  {
    sortColumn !in columns
  }

  /** `_num_hidden`: sort entries on a column the view does not show. */
  function NumHidden(sortColumns: seq<string>, columns: seq<string>): (n: nat)
    ensures n == |Filter(sortColumns, c => Hidden(columns, c))| <= |sortColumns|
  {
    FilterProperties(sortColumns, c => Hidden(columns, c));
    Count(sortColumns, c => Hidden(columns, c))
  }

  /** At most one hidden column per sort entry, and none exactly when every
      sort column is shown. */
  lemma NumHiddenBounds(sortColumns: seq<string>, columns: seq<string>)
    ensures NumHidden(sortColumns, columns) <= |sortColumns|
    ensures NumHidden(sortColumns, columns) == 0 <==> forall c :: c in sortColumns ==> c in columns
  {
    var p := c => Hidden(columns, c);
    FilterProperties(sortColumns, p);
    if NumHidden(sortColumns, columns) > 0 {
      var x := Filter(sortColumns, p)[0];
      assert x in Filter(sortColumns, p);
    } else {
      assert Filter(sortColumns, p) == [];
    }
  }

  // ---------------------------------------------------------------------------
  // The window

  /** An optional numeric option; `None` is `undefined`. */
  type Num = Option<int>

  /** JavaScript truthiness of a number: `undefined` and `0` are false. */
  predicate Truthy(n: Num)
  {
    n.Some? && n.value != 0
  }

  /** `a || b` for a number. */
  function Or(a: Num, b: int): (r: int)
    ensures Truthy(a) ==> r == a.value
    ensures !Truthy(a) ==> r == b
  {
    if Truthy(a) then a.value else b
  }

  datatype Viewport = Viewport(top: Num, left: Num, width: Num, height: Num)

  datatype FormatOptions = FormatOptions(startRow: Num, endRow: Num, startCol: Num, endCol: Num)

  datatype Window = Window(startRow: int, endRow: int, startCol: int, endCol: int)

  /** What the view knows about its own shape. `columns` is the length of
      `config.columns`, `groupBy` the length of `config.group_by`. */
  datatype Shape = Shape(sides: nat, columnOnly: bool, columns: nat, hidden: nat, groupBy: nat)

  /** The extra column that holds the row path, or the column-only offset. */
  function PspOffset(v: Shape): nat
  {
    if v.sides > 0 || v.columnOnly then 1 else 0
  }

  function MaxCols(v: Shape, numColumns: nat): nat
  {
    numColumns + (if v.sides == 0 then 0 else 1)
  }

  /** `_parse_format_options`. Options and viewport are integers here, so
      `Math.floor` and `Math.ceil` leave them as they are. */
  function ParseFormatOptions(o: FormatOptions, vp: Option<Viewport>, v: Shape, numColumns: nat, numRows: nat): (w: Window)
    ensures w.endRow <= numRows
    ensures w.endCol <= MaxCols(v, numColumns)
    ensures w.startRow == Or(o.startRow, if vp.Some? then Or(vp.value.top, 0) else 0)
    ensures w.startCol == Or(o.startCol, if vp.Some? then Or(vp.value.left, 0) else 0)
    ensures o.endRow.Some? ==> w.endRow == Min(numRows, o.endRow.value)
    ensures o.endCol.Some? ==> w.endCol == Min(MaxCols(v, numColumns), (o.endCol.value + PspOffset(v)) * (v.hidden + 1))
    ensures o.endRow.None? && vp.Some? && Truthy(vp.value.height) ==>
      w.endRow == Min(numRows, w.startRow + vp.value.height.value)
    ensures o.endCol.None? && vp.Some? && Truthy(vp.value.width) ==>
      w.endCol == Min(MaxCols(v, numColumns), (w.startCol + vp.value.width.value) * (v.hidden + 1))
    ensures o.endRow.None? && (vp.None? || !Truthy(vp.value.height)) ==> w.endRow == numRows
    ensures o.endCol.None? && (vp.None? || !Truthy(vp.value.width)) ==> w.endCol == MaxCols(v, numColumns)
  {
    var port := vp.GetOr(Viewport(None, None, None, None));
    var maxCols := MaxCols(v, numColumns);
    var startRow := Or(o.startRow, Or(port.top, 0));
    var endRow := Min(numRows,
      if o.endRow.Some? then o.endRow.value
      else if Truthy(port.height) then startRow + port.height.value
      else numRows);
    var startCol := Or(o.startCol, Or(port.left, 0));
    var endCol := Min(maxCols,
      (if o.endCol.Some? then o.endCol.value + PspOffset(v)
       else if Truthy(port.width) then startCol + port.width.value
       else maxCols) * (v.hidden + 1));
    assert maxCols <= maxCols * (v.hidden + 1);
    Window(startRow, endRow, startCol, endCol)
  }

  // ---------------------------------------------------------------------------
  // The traversal of `to_format`

  /** JavaScript's `%` on integers: the remainder takes the sign of the
      dividend. */
  function JsRem(a: int, m: int): (r: int)
    requires m > 0
    ensures -m < r < m
    ensures a >= 0 ==> r >= 0
    ensures a <= 0 ==> r <= 0
    ensures a >= 0 ==> r == a % m
  {
    if a >= 0 then a % m else -((-a) % m)
  }

  /** The offset the hidden-column test subtracts: the row-path column. */
  function Off(v: Shape): nat
  {
    if v.sides > 0 then 1 else 0
  }

  /** A slot holding a hidden sort column, which the output skips. With no
      columns and no hidden columns the divisor is 0, the remainder is NaN,
      and nothing is skipped. */
  predicate HiddenSlot(v: Shape, cidx: int)
  {
    var m := v.columns + v.hidden;
    m > 0 && JsRem(cidx - Off(v), m) >= v.columns
  }

  datatype Item =
    | IdHeader        // `__ID__` opened at the start of the row
    | RowPath         // `__ROW_PATH__` written in the first column slot
    | Cell(cidx: int) // a value read from the slice
    | IndexKeys       // `__INDEX__` filled from the primary keys
    | IdKeys          // `__ID__` filled from the primary keys

  /** What column slot `cidx` contributes. */
  function ColumnItem(v: Shape, startCol: int, cidx: int): seq<Item>
  {
    if cidx == startCol && v.sides != 0 then
      if v.columnOnly then [] else [RowPath]
    else if HiddenSlot(v, cidx) then []
    else [Cell(cidx)]
  }

  /** The inner loop over `start_col <= cidx < k`. */
  function Columns(v: Shape, startCol: int, k: int): seq<Item>
    decreases k - startCol
  {
    if k <= startCol then [] else Columns(v, startCol, k - 1) + ColumnItem(v, startCol, k - 1)
  }

  predicate CellsIncreasing(items: seq<Item>)
  {
    forall i, j :: 0 <= i < j < |items| && items[i].Cell? && items[j].Cell? ==> items[i].cidx < items[j].cidx
  }

  /** The columns written: a cell for every slot of the window except the
      first slot of a pivoted view and the hidden slots, in increasing order;
      the row path exactly when the view has one, and then in front. */
  lemma {:induction false} ColumnsSpec(v: Shape, startCol: int, endCol: int)
    ensures var items := Columns(v, startCol, endCol);
      && (forall c :: Cell(c) in items <==>
            startCol <= c < endCol && !(c == startCol && v.sides != 0) && !HiddenSlot(v, c))
      && (RowPath in items <==> startCol < endCol && v.sides != 0 && !v.columnOnly)
      && (forall i :: 0 <= i < |items| && items[i] == RowPath ==> i == 0)
      && (forall i :: 0 <= i < |items| ==> items[i].Cell? || items[i] == RowPath)
      && (forall i :: 0 <= i < |items| && items[i].Cell? ==> startCol <= items[i].cidx < endCol)
      && CellsIncreasing(items)
    decreases endCol - startCol
  {
    if endCol > startCol {
      ColumnsSpec(v, startCol, endCol - 1);
      var init := Columns(v, startCol, endCol - 1);
      var extra := ColumnItem(v, startCol, endCol - 1);
      var items := init + extra;
      assert forall x :: x in items <==> x in init || x in extra;
      if endCol - 1 == startCol {
        assert init == [];
      }
    }
  }

  /** With no hidden sort column, no slot is skipped. */
  lemma NoHiddenSlots(v: Shape, cidx: int)
    requires v.hidden == 0
    ensures !HiddenSlot(v, cidx)
  {
  }

  /** Past the row-path offset, the hidden slots repeat with period
      `columns + hidden`, and within each period they are the last `hidden`
      slots. */
  lemma HiddenSlotsPeriodic(v: Shape, cidx: int)
    requires cidx >= Off(v) && v.columns + v.hidden > 0
    ensures HiddenSlot(v, cidx) <==> (cidx - Off(v)) % (v.columns + v.hidden) >= v.columns
    ensures HiddenSlot(v, cidx) <==> HiddenSlot(v, cidx + v.columns + v.hidden)
  {
    Arith.ModShift(cidx - Off(v), v.columns + v.hidden);
  }

  datatype Flags = Flags(ids: bool, index: bool, leavesOnly: bool)

  predicate HasRowPath(v: Shape)
  {
    v.sides != 0 && !v.columnOnly
  }

  /** Whether row `ridx` is written: with `leaves_only`, a pivoted row whose
      path is shorter than `group_by` is skipped. `depth` is the length of
      the slice's row path for a row. */
  predicate RowKept(v: Shape, f: Flags, depth: int -> nat, ridx: int)
  {
    !(HasRowPath(v) && f.leavesOnly && depth(ridx) < v.groupBy)
  }

  /** The items of one written row. */
  function RowItems(v: Shape, f: Flags, w: Window): seq<Item>
  {
    (if f.ids then [IdHeader] else [])
    + Columns(v, w.startCol, w.endCol)
    + (if f.index then [IndexKeys] else [])
    + (if f.ids && v.sides == 0 then [IdKeys] else [])
  }

  /** The outer loop over `start_row <= ridx < k`. */
  function Rows(v: Shape, f: Flags, w: Window, depth: int -> nat, k: int): seq<(int, seq<Item>)>
    decreases k - w.startRow
  {
    if k <= w.startRow then []
    else
      var init := Rows(v, f, w, depth, k - 1);
      if RowKept(v, f, depth, k - 1) then init + [(k - 1, RowItems(v, f, w))] else init
  }

  /** `to_format` on the window it parsed: exactly the kept rows of the
      window, in increasing order, each with the same layout. */
  function ToFormat(v: Shape, f: Flags, w: Window, depth: int -> nat): (r: seq<(int, seq<Item>)>)
    ensures forall i, j :: 0 <= i < j < |r| ==> r[i].0 < r[j].0
    ensures forall row :: row in r ==>
      w.startRow <= row.0 < w.endRow && RowKept(v, f, depth, row.0) && row.1 == RowItems(v, f, w)
    ensures forall ridx :: w.startRow <= ridx < w.endRow && RowKept(v, f, depth, ridx) ==>
      (ridx, RowItems(v, f, w)) in r
  {
    RowsSpec(v, f, w, depth, w.endRow);
    RowsAllWritten(v, f, w, depth, w.endRow);
    Rows(v, f, w, depth, w.endRow)
  }

  /** The rows written are exactly the kept rows of the window, in
      increasing order, each with the same layout. */
  lemma {:induction false} RowsSpec(v: Shape, f: Flags, w: Window, depth: int -> nat, k: int)
    ensures forall i, j :: 0 <= i < j < |Rows(v, f, w, depth, k)| ==>
      Rows(v, f, w, depth, k)[i].0 < Rows(v, f, w, depth, k)[j].0
    ensures forall row :: row in Rows(v, f, w, depth, k) ==>
      w.startRow <= row.0 < k && RowKept(v, f, depth, row.0) && row.1 == RowItems(v, f, w)
    decreases k - w.startRow
  {
    if k > w.startRow {
      RowsSpec(v, f, w, depth, k - 1);
      var init := Rows(v, f, w, depth, k - 1);
      if RowKept(v, f, depth, k - 1) {
        var rows := init + [(k - 1, RowItems(v, f, w))];
        assert Rows(v, f, w, depth, k) == rows;
        forall i, j | 0 <= i < j < |rows|
          ensures rows[i].0 < rows[j].0
        {
          assert rows[i] == init[i];
          assert rows[i] in init;
          if j < |init| {
            assert rows[j] == init[j];
          }
        }
        assert forall row :: row in rows <==> row in init || row == (k - 1, RowItems(v, f, w));
      }
    }
  }

  /** Every kept row of the window is written. */
  lemma {:induction false} RowsComplete(v: Shape, f: Flags, w: Window, depth: int -> nat, k: int, r: int)
    requires w.startRow <= r < k && RowKept(v, f, depth, r)
    ensures exists i :: 0 <= i < |Rows(v, f, w, depth, k)| && Rows(v, f, w, depth, k)[i].0 == r
    decreases k - w.startRow
  {
    var init := Rows(v, f, w, depth, k - 1);
    var rows := Rows(v, f, w, depth, k);
    assert RowKept(v, f, depth, k - 1) ==> rows == init + [(k - 1, RowItems(v, f, w))];
    if r < k - 1 {
      RowsComplete(v, f, w, depth, k - 1, r);
      var i :| 0 <= i < |init| && init[i].0 == r;
      assert rows[i].0 == r;
    } else {
      assert rows[|init|].0 == r;
    }
  }

  lemma RowsAllWritten(v: Shape, f: Flags, w: Window, depth: int -> nat, k: int)
    ensures forall r :: w.startRow <= r < k && RowKept(v, f, depth, r) ==>
      (r, RowItems(v, f, w)) in Rows(v, f, w, depth, k)
  {
    var rows := Rows(v, f, w, depth, k);
    RowsSpec(v, f, w, depth, k);
    forall r | w.startRow <= r < k && RowKept(v, f, depth, r)
      ensures (r, RowItems(v, f, w)) in rows
    {
      RowsComplete(v, f, w, depth, k, r);
      var i :| 0 <= i < |rows| && rows[i].0 == r;
      assert rows[i] in rows;
    }
  }

  // ---------------------------------------------------------------------------
  // `column_to_format`

  /** `indexOf`: the first position of `x`, or -1. */
  function IndexOf(names: seq<string>, x: string): (i: int)
    ensures -1 <= i < |names|
    ensures i == -1 <==> x !in names
    ensures i >= 0 ==> names[i] == x && x !in names[..i]
  {
    if |names| == 0 then -1
    else if names[0] == x then 0
    else
      var j := IndexOf(names[1..], x);
      if j == -1 then -1
      else
        assert names[..j + 1] == [names[0]] + names[1..][..j];
        j + 1
  }

  datatype ColumnRequest = ColumnRequest(idx: int, startRow: int, endRow: int)

  /** `column_to_format`: an unknown column gives `undefined`; a known one is
      read at its first position among the view's column names, one further
      right in a pivoted view, over rows `start_row || 0` to
      `end_row || num_rows`. */
  function ColumnToFormat(names: seq<string>, name: string, sides: nat, numRows: nat, o: FormatOptions): (r: Option<ColumnRequest>)
    ensures r.None? <==> name !in names
    ensures r.Some? ==>
      var base := r.value.idx - (if sides > 0 then 1 else 0);
      && 0 <= base < |names| && names[base] == name && name !in names[..base]
      && r.value.startRow == Or(o.startRow, 0)
      && r.value.endRow == Or(o.endRow, numRows)
  {
    var idx := IndexOf(names, name);
    if idx == -1 then None
    else Some(ColumnRequest(if sides > 0 then idx + 1 else idx, Or(o.startRow, 0), Or(o.endRow, numRows)))
  }

  // ---------------------------------------------------------------------------
  // `num_columns`

  /** `ncols - (ncols / (columns + hidden)) * hidden` in floating point; a
      zero divisor yields NaN or an infinity times zero, that is NaN, here
      `None`. Rounding is not modelled. */
  function NumColumns(ncols: nat, columns: nat, hidden: nat): (r: Option<real>)
    ensures r.None? <==> columns + hidden == 0
    ensures r.Some? ==> r.value * (columns + hidden) as real == (ncols * columns) as real
  {
    if columns + hidden == 0 then None
    else
      var m := (columns + hidden) as real;
      var x := ncols as real - (ncols as real / m) * hidden as real;
      assert x * m == ncols as real * m - ncols as real * hidden as real;
      Some(x)
  }

  /** When the engine lays out `k` blocks of `columns + hidden` columns, the
      count is exactly the `k * columns` visible ones. */
  lemma NumColumnsOfBlocks(k: nat, columns: nat, hidden: nat)
    requires columns + hidden > 0
    ensures NumColumns(k * (columns + hidden), columns, hidden) == Some((k * columns) as real)
  {
    var m := (columns + hidden) as real;
    var r := NumColumns(k * (columns + hidden), columns, hidden).value;
    assert r * m == (k * columns) as real * m;
  }

  // ---------------------------------------------------------------------------
  // `table.view`: configuration keys

  type Pos = n: nat | n > 0 witness 1

  /** A value of the user's configuration object, as far as these checks
      look at it: an array of names, a non-empty array of `undefined`s, an
      object of name/name pairs, the deprecated `aggregate` array of
      `{column, op}` objects, or any other value (a number, a boolean, an
      object the checks do not look into) with its truthiness. */
  datatype Value =
    | Undefined
    | Names(names: seq<string>)
    | Holes(count: Pos)
    | Pairs(pairs: seq<(string, string)>)
    | AggregateList(aggs: seq<(string, string)>)
    | Other(truthy: bool)

  predicate IsTruthy(x: Value)
  {
    match x
    case Undefined => false
    case Other(t) => t
    case _ => true
  }

  /** `.length` as the checks use it: an array's length, otherwise
      `undefined`, which compares as neither `> 0` nor `=== 0`. */
  function Length(x: Value): Option<nat>
  {
    match x
    case Names(ns) => Some(|ns|)
    case Holes(n) => Some(n)
    case AggregateList(a) => Some(|a|)
    case _ => None
  }

  type Config = map<string, Value>

  /** The deprecated key names and their replacements (`CONFIG_ALIASES`) and
      the accepted keys (`CONFIG_VALID_KEYS`), defined in a constants file
      that is not part of this model. */
  datatype Keys = Keys(aliases: map<string, string>, valid: seq<string>)

  function ColumnsOf(aggs: seq<(string, string)>): seq<string>
  {
    MapSeq(aggs, (a: (string, string)) => a.0)
  }

  /** Whether a key is handled by the key loop at all. */
  predicate Recognized(keys: Keys, key: string)
  {
    key in keys.aliases || key == "aggregate" || key in keys.valid
  }

  /** The configuration keys one user key writes. */
  function Writes(keys: Keys, key: string): set<string>
  {
    if key in keys.aliases then {keys.aliases[key]}
    else if key == "aggregate" then {"aggregates", "columns"}
    else {key}
  }

  /** The keys that the user's keys write, all together. */
  function WrittenKeys(entries: seq<(string, Value)>, keys: Keys): set<string>
  {
    if |entries| == 0 then {} else WrittenKeys(entries[..|entries| - 1], keys) + Writes(keys, entries[|entries| - 1].0)
  }

  /** Whether the deprecated `aggregate` loop `for (const agg of value)`
      runs through: it iterates any array, and reading `agg["column"]` only
      throws on an `undefined` element. */
  predicate AggregateIterable(value: Value)
  {
    value.Names? || value.AggregateList?
  }

  /** One key of the user's configuration, in `Object.keys` order. A
      deprecated key is moved to its replacement unless that is already
      truthy; `aggregate` is split into `aggregates` and `columns`, one
      column per element (an element that is a name has no `column` field,
      so each contributes `undefined`); an accepted key is copied; any
      other key throws. */
  function NormalizeKey(c: Config, keys: Keys, key: string, value: Value): (r: Result<Config, string>)
    ensures r.Success? <==> (
      && Recognized(keys, key)
      && (key in keys.aliases ==> !(keys.aliases[key] in c && IsTruthy(c[keys.aliases[key]])))
      && (key !in keys.aliases && key == "aggregate" ==> AggregateIterable(value)))
    ensures !Recognized(keys, key) ==> r == Failure("Unrecognized config parameter \"" + key + "\"")
    ensures r.Success? ==> r.value.Keys == c.Keys + Writes(keys, key)
    ensures r.Success? ==> forall k :: k in c && k !in Writes(keys, key) ==> r.value[k] == c[k]
    ensures r.Success? && key in keys.aliases ==>
      keys.aliases[key] in r.value && r.value[keys.aliases[key]] == value
    ensures r.Success? && key !in keys.aliases && key != "aggregate" ==> key in r.value && r.value[key] == value
    ensures r.Success? && key !in keys.aliases && key == "aggregate" ==>
      && "columns" in r.value && "aggregates" in r.value
      && Length(r.value["columns"]) == Length(value) && IsTruthy(r.value["aggregates"])
  {
    if key in keys.aliases then
      var target := keys.aliases[key];
      if target in c && IsTruthy(c[target]) then Failure("Duplicate configuration parameter \"" + key + "\"")
      else Success(c[target := value])
    else if key == "aggregate" then
      match value
      case AggregateList(aggs) => Success(c["aggregates" := Pairs(aggs)]["columns" := Names(ColumnsOf(aggs))])
      case Names(ns) =>
        if |ns| == 0 then Success(c["aggregates" := Pairs([])]["columns" := Names([])])
        else Success(c["aggregates" := Other(true)]["columns" := Holes(|ns|)])
      case Holes(_) => Failure("Cannot read properties of undefined (reading 'column')")
      case _ => Failure("aggregate is not iterable")
    else if key in keys.valid then Success(c[key := value])
    else Failure("Unrecognized config parameter \"" + key + "\"")
  }

  /** An empty array under `aggregate` gives the same configuration however
      it is written. */
  lemma EmptyAggregateArrays(c: Config, keys: Keys)
    requires "aggregate" !in keys.aliases
    ensures NormalizeKey(c, keys, "aggregate", Names([])) == NormalizeKey(c, keys, "aggregate", AggregateList([]))
    ensures NormalizeKey(c, keys, "aggregate", Names([])).Success?
  {
    assert ColumnsOf([]) == [];
  }

  /** The key loop of `table.view`: the first failing key throws, so a
      configuration comes back only when every key is recognized, and it
      holds exactly the keys the user's keys write. */
  function Normalize(entries: seq<(string, Value)>, keys: Keys): (r: Result<Config, string>)
    ensures r.Success? ==> forall i :: 0 <= i < |entries| ==> Recognized(keys, entries[i].0)
    ensures r.Success? ==> r.value.Keys == WrittenKeys(entries, keys)
  {
    if |entries| == 0 then Success(map[])
    else
      var init := entries[..|entries| - 1];
      var e := entries[|entries| - 1];
      assert forall i :: 0 <= i < |init| ==> init[i] == entries[i];
      var c :- Normalize(init, keys);
      NormalizeKey(c, keys, e.0, e.1)
  }

  /** A key that is neither deprecated, nor `aggregate`, nor accepted always
      makes the call throw, wherever it stands. */
  lemma {:induction false} UnrecognizedKeyFails(entries: seq<(string, Value)>, keys: Keys, i: nat)
    requires i < |entries|
    requires var k := entries[i].0; k !in keys.aliases && k != "aggregate" && k !in keys.valid
    ensures Normalize(entries, keys).Failure?
  {
    var init := entries[..|entries| - 1];
    if i < |entries| - 1 {
      assert init[i] == entries[i];
      UnrecognizedKeyFails(init, keys, i);
    }
  }

  predicate PlainKey(keys: Keys, k: string)
  {
    k !in keys.aliases && k != "aggregate" && k in keys.valid
  }

  /** One more accepted key is written into the configuration built so far. */
  lemma PlainKeyStep(init: seq<(string, Value)>, e: (string, Value), keys: Keys)
    requires PlainKey(keys, e.0) && Normalize(init, keys).Success?
    ensures Normalize(init + [e], keys) == Success(Normalize(init, keys).value[e.0 := e.1])
  {
    assert (init + [e])[..|init|] == init;
  }

  /** With accepted keys only, the configuration is copied as it is. */
  lemma {:induction false} PlainKeysCopied(entries: seq<(string, Value)>, keys: Keys)
    requires forall i :: 0 <= i < |entries| ==> PlainKey(keys, entries[i].0)
    requires forall i, j :: 0 <= i < j < |entries| ==> entries[i].0 != entries[j].0
    ensures Normalize(entries, keys).Success?
    ensures var c := Normalize(entries, keys).value;
      && (forall k :: k in c <==> exists i :: 0 <= i < |entries| && entries[i].0 == k)
      && (forall i :: 0 <= i < |entries| ==> c[entries[i].0] == entries[i].1)
  {
    if |entries| > 0 {
      var init := entries[..|entries| - 1];
      var e := entries[|entries| - 1];
      assert entries == init + [e];
      assert forall i :: 0 <= i < |init| ==> init[i] == entries[i];
      PlainKeysCopied(init, keys);
      PlainKeyStep(init, e, keys);
      var c0 := Normalize(init, keys).value;
      var c := c0[e.0 := e.1];
      forall k | k in c
        ensures exists i :: 0 <= i < |entries| && entries[i].0 == k
      {
        if k != e.0 {
          var i :| 0 <= i < |init| && init[i].0 == k;
          assert entries[i].0 == k;
        } else {
          assert entries[|entries| - 1].0 == k;
        }
      }
      forall i | 0 <= i < |entries|
        ensures entries[i].0 in c && c[entries[i].0] == entries[i].1
      {
        if i < |init| {
          assert init[i].0 in c0 && c0[init[i].0] == init[i].1;
          assert init[i].0 != e.0;
        }
      }
    }
  }

  /** A deprecated key whose replacement was already given a truthy value is
      a duplicate: the call throws. */
  lemma AliasAfterTargetFails(entries: seq<(string, Value)>, keys: Keys, key: string, value: Value)
    requires key in keys.aliases
    requires Normalize(entries, keys).Success?
    requires var c := Normalize(entries, keys).value;
      keys.aliases[key] in c && IsTruthy(c[keys.aliases[key]])
    ensures Normalize(entries + [(key, value)], keys).Failure?
  {
    assert (entries + [(key, value)])[..|entries|] == entries;
  }

  // ---------------------------------------------------------------------------
  // `table.view`: defaults, columns and sides

  /** `x || []` for a list-valued key. */
  function OrEmpty(c: Config, key: string): Value
  {
    if key in c && IsTruthy(c[key]) then c[key] else Names([])
  }

  function Positive(n: Option<nat>): bool
  {
    n.Some? && n.value > 0
  }

  /** The number of sides: 2 with a split, 1 with only a grouping, else 0. */
  function Sides(groupBy: Value, splitBy: Value): (s: nat)
    ensures s <= 2
    ensures s == 2 <==> Positive(Length(splitBy))
    ensures s == 0 <==> !Positive(Length(groupBy)) && !Positive(Length(splitBy))
  {
    if Positive(Length(groupBy)) || Positive(Length(splitBy)) then
      if Positive(Length(splitBy)) then 2 else 1
    else 0
  }

  datatype ViewSetup = ViewSetup(config: Config, expressions: seq<Expressions.Descriptor>, columns: Value, sides: nat)

  /** `table.columns()`: the schema's names without the internal `psp_okey`. */
  function TableColumns(schema: seq<string>): (r: seq<string>)
    ensures forall n :: n in r <==> n in schema && n != "psp_okey"
  {
    FilterProperties(schema, n => n != "psp_okey");
    Filter(schema, n => n != "psp_okey")
  }

  /** `table.view` up to the construction of the engine view. Expressions
      are canonicalized only when there are some; with no `columns` key the
      view shows every table column and then every expression. */
  function TableView(entries: seq<(string, Value)>, keys: Keys, schema: seq<string>,
                     strip: string -> string): (r: Result<ViewSetup, string>)
    ensures Normalize(entries, keys).Failure? <==> r.Failure?
    ensures r.Success? ==>
      var c := Normalize(entries, keys).value;
      && (OrEmpty(c, "expressions").Names? ==>
            r.value.expressions == Expressions.ParseExpressionStrings(OrEmpty(c, "expressions").names, strip))
      && (!OrEmpty(c, "expressions").Names? ==> r.value.expressions == [])
      && r.value.sides == Sides(OrEmpty(c, "group_by"), OrEmpty(c, "split_by"))
      && ("columns" in c && c["columns"] != Undefined ==> r.value.columns == c["columns"])
      && ("columns" !in c || c["columns"] == Undefined ==>
            r.value.columns == Names(TableColumns(schema) + Expressions.Aliases(r.value.expressions)))
  {
    var c :- Normalize(entries, keys);
    var groupBy := OrEmpty(c, "group_by");
    var splitBy := OrEmpty(c, "split_by");
    var exprs := OrEmpty(c, "expressions");
    var descriptors :=
      match exprs
      case Names(es) => if |es| > 0 then Expressions.ParseExpressionStrings(es, strip) else []
      case _ => [];
    var columns :=
      if "columns" in c && c["columns"] != Undefined then c["columns"]
      else Names(TableColumns(schema) + Expressions.Aliases(descriptors));
    var config := c["group_by" := groupBy]["split_by" := splitBy]
      ["aggregates" := if "aggregates" in c && IsTruthy(c["aggregates"]) then c["aggregates"] else Pairs([])]
      ["filter" := OrEmpty(c, "filter")]["sort" := OrEmpty(c, "sort")]["expressions" := exprs];
    Success(ViewSetup(config, descriptors, columns, Sides(groupBy, splitBy)))
  }

  // ---------------------------------------------------------------------------
  // The view constructor's choice of engine view

  datatype ContextKind = UnitContext | ZeroSided | OneSided | TwoSided

  /** The lengths of the engine-side view configuration. */
  datatype ConfigSizes = ConfigSizes(groupBy: nat, splitBy: nat, filter: nat, sort: nat, expressions: nat)

  const NoConfig := ConfigSizes(0, 0, 0, 0, 0)

  /** The index `perspective.table` stores on the JavaScript table:
      `options.index || null`, so an absent or empty index is stored as
      null. */
  function StoredIndex(option: Option<string>): (r: Option<string>)
    ensures r.Some? ==> r == option && r.value != ""
    ensures option.Some? && option.value != "" ==> r == option
  {
    match option
    case Some(i) => if i != "" then option else None
    case None => None
  }

  /** The view constructor as written: the unit context when the stored index
      is the empty string and the configuration is empty; otherwise the number
      of sides picks the view. */
  function ChooseContext(tableIndex: Option<string>, sides: nat, z: ConfigSizes): (k: Option<ContextKind>)
    ensures k == Some(UnitContext) <==> tableIndex == Some("") && sides == 0 && z == NoConfig
    ensures k == Some(ZeroSided) <==> sides == 0 && !(tableIndex == Some("") && z == NoConfig)
    ensures k.None? <==> sides > 2
    ensures k == Some(OneSided) <==> sides == 1
    ensures k == Some(TwoSided) <==> sides == 2
  {
    if tableIndex == Some("") && sides == 0 && z.groupBy == 0 && z.splitBy == 0 && z.filter == 0
       && z.sort == 0 && z.expressions == 0 then Some(UnitContext)
    else if sides == 0 then Some(ZeroSided)
    else if sides == 1 then Some(OneSided)
    else if sides == 2 then Some(TwoSided)
    else None
  }

  /** No table built by `perspective.table` stores the empty index, so the
      constructor as written never picks the unit context: an unindexed table
      viewed with an empty configuration gets the zero-sided view. */
  lemma UnitContextUnreachable(option: Option<string>, sides: nat, z: ConfigSizes)
    ensures StoredIndex(option) != Some("")
    ensures ChooseContext(StoredIndex(option), sides, z) != Some(UnitContext)
    ensures ChooseContext(StoredIndex(None), 0, NoConfig) == Some(ZeroSided)
  {
  }

  /** The evident intent, `!this.table.index`: the unit context for a table
      without an index. */
  function ChooseContextIntended(tableIndex: Option<string>, sides: nat, z: ConfigSizes): (k: Option<ContextKind>)
    ensures k.None? <==> sides > 2
    ensures k == Some(OneSided) <==> sides == 1
    ensures k == Some(TwoSided) <==> sides == 2
  {
    if (tableIndex.None? || tableIndex == Some("")) && sides == 0 && z == NoConfig then Some(UnitContext)
    else if sides == 0 then Some(ZeroSided)
    else if sides == 1 then Some(OneSided)
    else if sides == 2 then Some(TwoSided)
    else None
  }

  /** With the intended test, a table created without an index (or with an
      empty one) and viewed with an empty configuration gets the unit
      context, and an indexed table never does. */
  lemma IntendedUnitContext(option: Option<string>, sides: nat, z: ConfigSizes)
    ensures ChooseContextIntended(StoredIndex(option), sides, z) == Some(UnitContext) <==>
      (option.None? || option == Some("")) && sides == 0 && z == NoConfig
  {
  }
}

=== FILE: scheduler.dfy ===
/** The per-table recompute debounce of `perspective.js` (`_set_process`,
    `_call_process`, `_remove_process` and their callers).

    The process-wide `_POOL_DEBOUNCES` object becomes an explicit map from
    table id to the one pending engine pool handle. What the engine does with a
    handle is not visible here, so its effects are recorded as events in a log:
    `Deferred` for the `setTimeout` that arranges a later flush, `Ran` for a
    call of `pool._process()`, and `Released` for `pool.delete()`. The deferred
    flush itself is the separate operation `CallProcess`.

    `pool._process()` runs the table's update callbacks, and so user code,
    synchronously. That code may update a table (`Schedule`), delete a view
    (`view.delete` starts with `_remove_process`: `Cancel`) or read a table
    (every read starts with `_call_process`: `Flush`). These are the
    `Action`s a flush is given. */
module Scheduler {
  import opened Wrappers

  type TableId = nat
  type Handle = nat

  datatype Event =
    | Deferred(table: TableId)
    | Ran(table: TableId, handle: Handle)
    | Released(handle: Handle)

  datatype State = State(pending: map<TableId, Handle>, log: seq<Event>)

  const Initial := State(map[], [])

  /** A scheduler call made by user code while a flush runs. */
  datatype Action =
    | Schedule(table: TableId, handle: Handle)
    | Cancel(table: TableId)
    | Flush(table: TableId)

  /** `_set_process`: the first handle for a table is kept and a flush is
      deferred; a handle arriving while one is pending is deleted at once. */
  function SetProcess(s: State, h: Handle, t: TableId): (s': State)
    ensures t in s'.pending
    ensures s'.pending[t] == if t in s.pending then s.pending[t] else h
    ensures forall u :: u != t ==> (u in s'.pending <==> u in s.pending)
    ensures forall u :: u != t && u in s.pending ==> s'.pending[u] == s.pending[u]
    ensures |s'.log| == |s.log| + 1 && s'.log[..|s.log|] == s.log
    ensures s'.log[|s.log|] == if t in s.pending then Released(h) else Deferred(t)
  {
    if t !in s.pending then
      State(s.pending[t := h], s.log + [Deferred(t)])
    else
      State(s.pending, s.log + [Released(h)])
  }

  /** `_remove_process`: deletes and forgets the pending handle of `t`, if any. */
  function RemoveProcess(s: State, t: TableId): (s': State)
    ensures t !in s'.pending
    ensures forall u :: u != t ==> (u in s'.pending <==> u in s.pending)
    ensures forall u :: u != t && u in s.pending ==> s'.pending[u] == s.pending[u]
    ensures t !in s.pending ==> s' == s
    ensures t in s.pending ==> s'.log == s.log + [Released(s.pending[t])]
  {
    if t in s.pending then
      State(s.pending - {t}, s.log + [Released(s.pending[t])])
    else
      s
  }

  /** `_call_process` for code that schedules nothing while it runs: the
      pending handle of `t`, if any, runs and is then removed. */
  function RunPending(s: State, t: TableId): (s': State)
    ensures t !in s'.pending
    ensures t !in s.pending ==> s' == s
    ensures t in s.pending ==> s'.log == s.log + [Ran(t, s.pending[t]), Released(s.pending[t])]
    ensures forall u :: u != t ==> (u in s'.pending <==> u in s.pending)
    ensures forall u :: u != t && u in s.pending ==> s'.pending[u] == s.pending[u]
  {
    if t in s.pending then RemoveProcess(State(s.pending, s.log + [Ran(t, s.pending[t])]), t)
    else s
  }

  /** One scheduler call made from inside a flush. A read inside the flush is
      taken to trigger no further calls of its own. */
  function Perform(s: State, a: Action): State
  {
    match a
    case Schedule(u, h) => SetProcess(s, h, u)
    case Cancel(u) => RemoveProcess(s, u)
    case Flush(u) => RunPending(s, u)
  }

  /** Performs `acts` in order. */
  function PerformAll(s: State, acts: seq<Action>): (s': State)
    ensures |s'.log| >= |s.log| && s'.log[..|s.log|] == s.log
    decreases |acts|
  {
    if |acts| == 0 then s
    else
      var s1 := Perform(s, acts[0]);
      assert s1.log[..|s.log|] == s.log;
      var s' := PerformAll(s1, acts[1..]);
      assert s'.log[..|s.log|] == s'.log[..|s1.log|][..|s.log|];
      s'
  }

  /** `_call_process`: runs the pending handle of `t`, then removes whatever
      is in the slot then. The handle is still in its slot while it runs, so
      a re-schedule of `t` by `acts` finds the slot occupied and is
      discarded, unless `acts` emptied the slot first. */
  function CallProcess(s: State, t: TableId, acts: seq<Action>): (s': State)
    ensures t !in s'.pending
    ensures t !in s.pending ==> s' == s
    ensures t in s.pending ==>
      |s'.log| > |s.log| && s'.log[..|s.log| + 1] == s.log + [Ran(t, s.pending[t])]
  {
    if t in s.pending then
      var h := s.pending[t];
      var s1 := State(s.pending, s.log + [Ran(t, h)]);
      var s2 := PerformAll(s1, acts);
      var s' := RemoveProcess(s2, t);
      assert s'.log[..|s1.log|] == s2.log[..|s1.log|];
      s'
    else
      s
  }

  /** The scheduling choice at the end of `make_table`: updates and removes
      are debounced, while the first load of a table is processed and released
      immediately. */
  function Commit(s: State, t: TableId, h: Handle, isUpdate: bool, isDelete: bool): (s': State)
    ensures !(isUpdate || isDelete) ==> s'.pending == s.pending && s'.log == s.log + [Ran(t, h), Released(h)]
    ensures (isUpdate || isDelete) && t !in s.pending ==> s'.pending == s.pending[t := h]
    ensures (isUpdate || isDelete) && t in s.pending ==> s'.pending == s.pending
  {
    if isUpdate || isDelete then SetProcess(s, h, t)
    else State(s.pending, s.log + [Ran(t, h), Released(h)])
  }

  /** `table.update`: `None` stands for an update that schedules nothing
      (empty data is ignored and an engine failure is caught and logged). */
  function Update(s: State, t: TableId, h: Option<Handle>): (s': State)
    ensures h.None? ==> s' == s
    ensures h.Some? && t !in s.pending ==> s'.pending == s.pending[t := h.value] && s'.log == s.log + [Deferred(t)]
    ensures h.Some? && t in s.pending ==> s'.pending == s.pending && s'.log == s.log + [Released(h.value)]
  {
    match h
    case Some(x) => Commit(s, t, x, true, false)
    case None => s
  }

  /** `table.clear`: the pending recompute is discarded, not run. */
  function Clear(s: State, t: TableId): (s': State)
    ensures t !in s'.pending
    ensures forall u :: u != t ==> (u in s'.pending <==> u in s.pending)
    ensures Runs(s'.log, t) == Runs(s.log, t)
  {
    CancelRunsNothing(s, t);
    RemoveProcess(s, t)
  }

  /** `table.replace`: cancel, update, then flush synchronously. */
  function Replace(s: State, t: TableId, h: Option<Handle>, acts: seq<Action>): (s': State)
    ensures t !in s'.pending
    ensures h.None? ==> s' == RemoveProcess(s, t)
    ensures h.Some? ==>
      var s0 := RemoveProcess(s, t);
      |s'.log| >= |s0.log| + 2 && s'.log[..|s0.log| + 2] == s0.log + [Deferred(t), Ran(t, h.value)]
  {
    CallProcess(Update(RemoveProcess(s, t), t, h), t, acts)
  }

  /** Every read (`size`, `num_rows`, `to_format`, `on_update`, ...) flushes
      first, so it observes all mutations issued before it. */
  function Read(s: State, t: TableId, acts: seq<Action>): (s': State)
    ensures t !in s'.pending
    ensures t !in s.pending ==> s' == s
    ensures t in s.pending ==> |s'.log| > |s.log| && s'.log[|s.log|] == Ran(t, s.pending[t])
  {
    CallProcess(s, t, acts)
  }

  // ---------------------------------------------------------------------------
  // Properties

  predicate IsRunOf(t: TableId, e: Event)
  {
    e.Ran? && e.table == t
  }

  /** Number of recomputes of table `t` recorded in `log`. */
  function Runs(log: seq<Event>, t: TableId): nat
  {
    if |log| == 0 then 0
    else Runs(log[..|log| - 1], t) + (if IsRunOf(t, log[|log| - 1]) then 1 else 0)
  }

  /** A handle is live while no event has run or released it. */
  predicate Live(log: seq<Event>, h: Handle)
  {
    forall i :: 0 <= i < |log| ==> !(log[i].Ran? && log[i].handle == h) && log[i] != Released(h)
  }

  /** Nothing in the log or in the pending map mentions `h`: the engine hands
      out a new pool wrapper per mutation. */
  predicate Fresh(s: State, h: Handle)
  {
    Live(s.log, h) && (forall u :: u in s.pending ==> s.pending[u] != h)
  }

  /** The scheduler invariant: every pending handle is live, and no two
      tables share one. */
  predicate Valid(s: State)
  {
    ValidExcept(s, {})
  }

  /** `Valid`, except that the handles of the tables in `running` may have
      run already: the state in the middle of a flush. */
  predicate ValidExcept(s: State, running: set<TableId>)
  {
    && (forall t :: t in s.pending && t !in running ==> Live(s.log, s.pending[t]))
    && (forall t, u :: t in s.pending && u in s.pending && t != u ==> s.pending[t] != s.pending[u])
  }

  lemma RunsSingleton(e: Event, t: TableId)
    ensures Runs([e], t) == if IsRunOf(t, e) then 1 else 0
  {
    assert [e][..0] == [];
  }

  lemma CountAppend(a: seq<Event>, b: seq<Event>, t: TableId)
    ensures Runs(a + b, t) == Runs(a, t) + Runs(b, t)
    decreases |b|
  {
    if |b| == 0 {
      assert a + b == a;
    } else {
      assert (a + b)[..|a + b| - 1] == a + b[..|b| - 1];
      CountAppend(a, b[..|b| - 1], t);
    }
  }

  lemma {:induction false} SetProcessPreservesValid(s: State, h: Handle, t: TableId, running: set<TableId>)
    requires ValidExcept(s, running) && Fresh(s, h)
    ensures ValidExcept(SetProcess(s, h, t), running)
  {
    var s' := SetProcess(s, h, t);
    forall u | u in s'.pending && u !in running
      ensures Live(s'.log, s'.pending[u])
    {
      var g := s'.pending[u];
      if u == t && t !in s.pending {
        assert g == h;
      } else {
        assert Live(s.log, g);
        assert g != h;
      }
    }
  }

  lemma {:induction false} RemoveProcessPreservesValid(s: State, t: TableId)
    requires ValidExcept(s, {t})
    ensures Valid(RemoveProcess(s, t))
  {
    var s' := RemoveProcess(s, t);
    if t in s.pending {
      forall u | u in s'.pending
        ensures Live(s'.log, s'.pending[u])
      {
        assert s'.pending[u] == s.pending[u] != s.pending[t];
      }
    }
  }

  /** Cancelling any table keeps the invariant. */
  lemma {:induction false} RemoveKeepsValidExcept(s: State, u: TableId, running: set<TableId>)
    requires ValidExcept(s, running)
    ensures ValidExcept(RemoveProcess(s, u), running)
  {
    var s' := RemoveProcess(s, u);
    if u in s.pending {
      forall w | w in s'.pending && w !in running
        ensures Live(s'.log, s'.pending[w])
      {
        assert s'.pending[w] == s.pending[w] != s.pending[u];
      }
    }
  }

  /** Flushing any table keeps the invariant. */
  lemma {:induction false} RunPendingKeepsValidExcept(s: State, u: TableId, running: set<TableId>)
    requires ValidExcept(s, running)
    ensures ValidExcept(RunPending(s, u), running)
  {
    if u in s.pending {
      var h := s.pending[u];
      var s1 := State(s.pending, s.log + [Ran(u, h)]);
      forall w | w in s1.pending && w !in running + {u}
        ensures Live(s1.log, s1.pending[w])
      {
        assert s.pending[w] != h;
      }
      RemoveKeepsValidExcept(s1, u, running + {u});
    }
  }

  /** The handles that `acts` schedules are fresh and pairwise distinct. */
  predicate FreshActions(s: State, acts: seq<Action>)
  {
    && (forall i :: 0 <= i < |acts| && acts[i].Schedule? ==> Fresh(s, acts[i].handle))
    && (forall i, j :: 0 <= i < j < |acts| && acts[i].Schedule? && acts[j].Schedule? ==>
          acts[i].handle != acts[j].handle)
  }

  lemma {:induction false} PerformPreservesValid(s: State, a: Action, running: set<TableId>)
    requires ValidExcept(s, running) && (a.Schedule? ==> Fresh(s, a.handle))
    ensures ValidExcept(Perform(s, a), running)
  {
    match a
    case Schedule(u, h) => SetProcessPreservesValid(s, h, u, running);
    case Cancel(u) => RemoveKeepsValidExcept(s, u, running);
    case Flush(u) => RunPendingKeepsValidExcept(s, u, running);
  }

  /** A handle that an action does not schedule stays fresh across it. */
  lemma {:induction false} PerformKeepsFresh(s: State, a: Action, g: Handle)
    requires Fresh(s, g) && (a.Schedule? ==> a.handle != g)
    ensures Fresh(Perform(s, a), g)
  {
    var s' := Perform(s, a);
    match a
    case Schedule(u, h) =>
      assert s'.log == s.log + [s'.log[|s.log|]];
    case Cancel(u) =>
    case Flush(u) =>
      if u in s.pending {
        assert s'.log == s.log + [Ran(u, s.pending[u]), Released(s.pending[u])];
      }
  }

  lemma {:induction false} PerformAllPreservesValid(s: State, acts: seq<Action>, running: set<TableId>)
    requires ValidExcept(s, running) && FreshActions(s, acts)
    ensures ValidExcept(PerformAll(s, acts), running)
    decreases |acts|
  {
    if |acts| > 0 {
      var s1 := Perform(s, acts[0]);
      PerformPreservesValid(s, acts[0], running);
      forall i | 0 <= i < |acts[1..]| && acts[1..][i].Schedule?
        ensures Fresh(s1, acts[1..][i].handle)
      {
        assert acts[1..][i] == acts[i + 1];
        PerformKeepsFresh(s, acts[0], acts[i + 1].handle);
      }
      assert forall i, j :: 0 <= i < j < |acts[1..]| ==> acts[1..][i] == acts[i + 1] && acts[1..][j] == acts[j + 1];
      PerformAllPreservesValid(s1, acts[1..], running);
    }
  }

  /** Flushing keeps the invariant, whatever fresh handles, cancellations
      and reads the code run by `_process` issues. */
  lemma {:induction false} CallProcessPreservesValid(s: State, t: TableId, acts: seq<Action>)
    requires Valid(s) && FreshActions(s, acts)
    ensures Valid(CallProcess(s, t, acts))
  {
    if t in s.pending {
      var h := s.pending[t];
      var s1 := State(s.pending, s.log + [Ran(t, h)]);
      forall u | u in s1.pending && u != t
        ensures Live(s1.log, s1.pending[u])
      {
        assert s.pending[u] != h;
      }
      forall i | 0 <= i < |acts| && acts[i].Schedule?
        ensures Fresh(s1, acts[i].handle)
      {
        assert Fresh(s, acts[i].handle);
      }
      PerformAllPreservesValid(s1, acts, {t});
      RemoveProcessPreservesValid(PerformAll(s1, acts), t);
    }
  }

  /** `acts` neither cancels nor flushes `t`. */
  predicate Leaves(t: TableId, acts: seq<Action>)
  {
    forall i :: 0 <= i < |acts| ==> acts[i] != Cancel(t) && acts[i] != Flush(t)
  }

  /** `acts` does not flush `t`. */
  predicate NoFlushOf(t: TableId, acts: seq<Action>)
  {
    forall i :: 0 <= i < |acts| ==> acts[i] != Flush(t)
  }

  /** Only a flush of `t` runs it. */
  lemma {:induction false} PerformRunsNothing(s: State, t: TableId, a: Action)
    requires a != Flush(t)
    ensures Runs(Perform(s, a).log, t) == Runs(s.log, t)
  {
    var s1 := Perform(s, a);
    match a
    case Schedule(u, h) =>
      assert s1.log == s.log + [s1.log[|s.log|]];
      CountAppend(s.log, [s1.log[|s.log|]], t);
      RunsSingleton(s1.log[|s.log|], t);
    case Cancel(u) =>
      CancelRunsNothing(s, u);
    case Flush(u) =>
      if u in s.pending {
        var g := s.pending[u];
        assert s1.log == s.log + [Ran(u, g)] + [Released(g)];
        CountAppend(s.log, [Ran(u, g)], t);
        RunsSingleton(Ran(u, g), t);
        CountAppend(s.log + [Ran(u, g)], [Released(g)], t);
        RunsSingleton(Released(g), t);
      }
  }

  lemma {:induction false} PerformAllRunsNothing(s: State, t: TableId, acts: seq<Action>)
    requires NoFlushOf(t, acts)
    ensures Runs(PerformAll(s, acts).log, t) == Runs(s.log, t)
    decreases |acts|
  {
    if |acts| > 0 {
      PerformRunsNothing(s, t, acts[0]);
      assert forall i :: 0 <= i < |acts[1..]| ==> acts[1..][i] == acts[i + 1];
      PerformAllRunsNothing(Perform(s, acts[0]), t, acts[1..]);
    }
  }

  /** While `t` is pending and nothing cancels or flushes it, the calls keep
      its slot: a re-schedule of `t` only releases its own handle. */
  lemma {:induction false} PerformAllKeepsSlot(s: State, t: TableId, acts: seq<Action>)
    requires t in s.pending && Leaves(t, acts)
    ensures var s' := PerformAll(s, acts);
      t in s'.pending && s'.pending[t] == s.pending[t]
    decreases |acts|
  {
    if |acts| > 0 {
      assert forall i :: 0 <= i < |acts[1..]| ==> acts[1..][i] == acts[i + 1];
      PerformAllKeepsSlot(Perform(s, acts[0]), t, acts[1..]);
    }
  }

  /** Deleting a view of `t` from inside the flush empties the slot, so a
      re-schedule after it is stored and a timer deferred, and the flush's
      own `_remove_process` then releases that handle without running it;
      the deferred flush finds nothing to run. */
  lemma CancelThenScheduleIsReleased(s: State, t: TableId, h2: Handle)
    requires t in s.pending
    ensures var s' := CallProcess(s, t, [Cancel(t), Schedule(t, h2)]);
      && s'.log == s.log + [Ran(t, s.pending[t]), Released(s.pending[t]), Deferred(t), Released(h2)]
      && t !in s'.pending
      && CallProcess(s', t, []) == s'
  {
    var h := s.pending[t];
    var s1 := State(s.pending, s.log + [Ran(t, h)]);
    var s2 := RemoveProcess(s1, t);
    var s3 := SetProcess(s2, h2, t);
    assert PerformAll(s1, [Cancel(t), Schedule(t, h2)]) == PerformAll(s2, [Schedule(t, h2)]);
    assert PerformAll(s2, [Schedule(t, h2)]) == PerformAll(s3, []);
  }

  /** A read of `t` from inside its own flush runs the same handle again,
      before the outer flush has removed it. */
  lemma FlushInsideFlushRunsTwice(s: State, t: TableId)
    requires t in s.pending
    ensures var s' := CallProcess(s, t, [Flush(t)]);
      s'.log == s.log + [Ran(t, s.pending[t]), Ran(t, s.pending[t]), Released(s.pending[t])]
  {
    var h := s.pending[t];
    var s1 := State(s.pending, s.log + [Ran(t, h)]);
    assert PerformAll(s1, [Flush(t)]) == RunPending(s1, t);
  }

  /** Schedules `hs` on `t` one after another (a loop of synchronous updates). */
  function ScheduleAll(s: State, t: TableId, hs: seq<Handle>): State
    decreases |hs|
  {
    if |hs| == 0 then s else ScheduleAll(SetProcess(s, hs[0], t), t, hs[1..])
  }

  /** The `Released` events of the handles `hs`, in order. */
  function Releases(hs: seq<Handle>): (r: seq<Event>)
    ensures |r| == |hs|
  {
    seq(|hs|, i requires 0 <= i < |hs| => Released(hs[i]))
  }

  lemma {:induction false} ScheduleAllKeepsFirst(s: State, t: TableId, hs: seq<Handle>)
    requires t in s.pending
    ensures var s' := ScheduleAll(s, t, hs);
      && s'.pending == s.pending
      && s'.log == s.log + Releases(hs)
    decreases |hs|
  {
    if |hs| > 0 {
      var s1 := SetProcess(s, hs[0], t);
      ScheduleAllKeepsFirst(s1, t, hs[1..]);
      assert [Released(hs[0])] + Releases(hs[1..]) == Releases(hs);
    }
  }

  /** A burst of updates on a table with nothing pending leaves its first
      handle pending, defers one flush and releases the rest, running
      nothing. */
  lemma BurstLog(s: State, t: TableId, hs: seq<Handle>)
    requires t !in s.pending && |hs| > 0
    ensures var s' := ScheduleAll(s, t, hs);
      && t in s'.pending && s'.pending[t] == hs[0]
      && s'.log == s.log + [Deferred(t)] + Releases(hs[1..])
      && Runs(s'.log, t) == Runs(s.log, t)
  {
    var s1 := SetProcess(s, hs[0], t);
    ScheduleAllKeepsFirst(s1, t, hs[1..]);
    assert ScheduleAll(s, t, hs) == ScheduleAll(s1, t, hs[1..]);
    RunsSingleton(Deferred(t), t);
    ReleasesRunNothing(Releases(hs[1..]), t);
    CountAppend(s.log, [Deferred(t)], t);
    CountAppend(s.log + [Deferred(t)], Releases(hs[1..]), t);
  }

  /** Flushing a pending table runs its handle once, right away, and leaves
      nothing pending for it, unless the code it runs reads the same table. */
  lemma FlushLog(s: State, t: TableId, acts: seq<Action>)
    requires t in s.pending && NoFlushOf(t, acts)
    ensures var s' := CallProcess(s, t, acts);
      && t !in s'.pending
      && Runs(s'.log, t) == Runs(s.log, t) + 1
      && |s'.log| > |s.log| && s'.log[..|s.log| + 1] == s.log + [Ran(t, s.pending[t])]
  {
    var h := s.pending[t];
    var s3 := State(s.pending, s.log + [Ran(t, h)]);
    PerformAllRunsNothing(s3, t, acts);
    var s4 := PerformAll(s3, acts);
    CancelRunsNothing(s4, t);
    RunsSingleton(Ran(t, h), t);
    CountAppend(s.log, [Ran(t, h)], t);
  }

  /** The batching property: any burst of one or more updates on a table with
      no pending recompute, followed by a flush, runs the recompute exactly
      once, with the first handle; every later handle is released without
      running, and the table is left with nothing pending. */
  lemma BatchRunsOnce(s: State, t: TableId, hs: seq<Handle>, acts: seq<Action>)
    requires t !in s.pending && |hs| > 0 && NoFlushOf(t, acts)
    ensures var s' := CallProcess(ScheduleAll(s, t, hs), t, acts);
      && t !in s'.pending
      && Runs(s'.log, t) == Runs(s.log, t) + 1
      && Ran(t, hs[0]) in s'.log
      && forall i :: 1 <= i < |hs| ==> Released(hs[i]) in s'.log
  {
    var s2 := ScheduleAll(s, t, hs);
    BurstLog(s, t, hs);
    FlushLog(s2, t, acts);
    var s' := CallProcess(s2, t, acts);
    var pre := s'.log[..|s2.log| + 1];
    assert s'.log[|s2.log|] == pre[|s2.log|] == Ran(t, hs[0]);
    forall i | 1 <= i < |hs|
      ensures Released(hs[i]) in s'.log
    {
      assert s'.log[|s.log| + i] == pre[|s.log| + i] == s2.log[|s.log| + i];
      assert s2.log[|s.log| + i] == Releases(hs[1..])[i - 1];
    }
  }

  lemma {:induction false} ReleasesRunNothing(rel: seq<Event>, t: TableId)
    requires forall i :: 0 <= i < |rel| ==> rel[i].Released?
    ensures Runs(rel, t) == 0
    decreases |rel|
  {
    if |rel| > 0 {
      ReleasesRunNothing(rel[..|rel| - 1], t);
    }
  }

  /** A flush of a table with nothing pending changes nothing, so flushing
      twice is the same as flushing once. */
  lemma FlushIdempotent(s: State, t: TableId, r1: seq<Action>, r2: seq<Action>)
    ensures CallProcess(CallProcess(s, t, r1), t, r2) == CallProcess(s, t, r1)
  {
  }

  /** Cancelling a pending recompute never runs it. */
  lemma {:induction false} CancelRunsNothing(s: State, t: TableId)
    ensures Runs(RemoveProcess(s, t).log, t) == Runs(s.log, t)
  {
    if t in s.pending {
      CountAppend(s.log, [Released(s.pending[t])], t);
      RunsSingleton(Released(s.pending[t]), t);
    }
  }

  /** After `replace`, nothing is pending for the table, and the handle of the
      replacing update, if any, has run exactly once. */
  lemma {:induction false} ReplaceRunsUpdateOnce(s: State, t: TableId, h: Handle, acts: seq<Action>)
    requires NoFlushOf(t, acts)
    ensures var s' := Replace(s, t, Some(h), acts);
      && t !in s'.pending
      && Runs(s'.log, t) == Runs(s.log, t) + 1
      && Ran(t, h) in s'.log
  {
    var s0 := RemoveProcess(s, t);
    CancelRunsNothing(s, t);
    assert Update(s0, t, Some(h)) == ScheduleAll(s0, t, [h]);
    BatchRunsOnce(s0, t, [h], acts);
  }
}

=== FILE: wrappers.dfy ===
/** Failure-compatible wrappers shared by every module of the model: `Option`
    for values a JavaScript lookup may leave `undefined`, and `Result` for the
    calls that throw or abort in the source. */
module Wrappers {

  datatype Option<+T> = None | Some(value: T) {

    predicate IsFailure() {
      None?
    }

    function PropagateFailure<U>(): Option<U>
      requires None?
    {
      None
    }

    function Extract(): T
      requires Some?
    {
      value
    }

    function GetOr(default: T): T {
      match this
      case Some(v) => v
      case None => default
    }
  }

  datatype Result<+R, +E> = Success(value: R) | Failure(error: E) {

    predicate IsFailure() {
      Failure?
    }

    function PropagateFailure<U>(): Result<U, E>
      requires Failure?
    {
      Failure(error)
    }

    function Extract(): R
      requires Success?
    {
      value
    }
  }

  function Min(a: int, b: int): (m: int)
    ensures m <= a && m <= b && (m == a || m == b)
  {
    if a <= b then a else b
  }

  /** No element occurs twice. */
  predicate NoDuplicates<T(==)>(s: seq<T>)
  {
    forall i, j :: 0 <= i < j < |s| ==> s[i] != s[j]
  }

  /** Number of elements of `s` satisfying `p`. */
  function Count<T>(s: seq<T>, p: T -> bool): nat
  {
    if |s| == 0 then 0 else Count(s[..|s| - 1], p) + (if p(s[|s| - 1]) then 1 else 0)
  }

  /** The elements of `s` satisfying `p`, in their original order. */
  function Filter<T>(s: seq<T>, p: T -> bool): seq<T>
  {
    if |s| == 0 then [] else Filter(s[..|s| - 1], p) + (if p(s[|s| - 1]) then [s[|s| - 1]] else [])
  }

  lemma {:induction false} FilterProperties<T>(s: seq<T>, p: T -> bool)
    ensures |Filter(s, p)| == Count(s, p) <= |s|
    ensures forall x :: x in Filter(s, p) <==> x in s && p(x)
  {
    if |s| > 0 {
      FilterProperties(s[..|s| - 1], p);
      var last := s[|s| - 1];
      assert s == s[..|s| - 1] + [last];
      forall x
        ensures x in Filter(s, p) <==> x in s && p(x)
      {
        assert x in s <==> x in s[..|s| - 1] || x == last;
      }
    }
  }

  /** `f` applied to every element of `s`, in order. */
  function MapSeq<T, U>(s: seq<T>, f: T -> U): (r: seq<U>)
    ensures |r| == |s| && forall i :: 0 <= i < |s| ==> r[i] == f(s[i])
  {
    if |s| == 0 then [] else MapSeq(s[..|s| - 1], f) + [f(s[|s| - 1])]
  }

  lemma FilterSnoc<T>(s: seq<T>, x: T, p: T -> bool)
    ensures Filter(s + [x], p) == Filter(s, p) + (if p(x) then [x] else [])
  {
    assert (s + [x])[..|s|] == s;
  }

  lemma CountSnoc<T>(s: seq<T>, x: T, p: T -> bool)
    ensures Count(s + [x], p) == Count(s, p) + (if p(x) then 1 else 0)
  {
    assert (s + [x])[..|s|] == s;
  }

  lemma MapSnoc<T, U>(s: seq<T>, x: T, f: T -> U)
    ensures MapSeq(s + [x], f) == MapSeq(s, f) + [f(x)]
  {
    assert (s + [x])[..|s|] == s;
  }

  /** Filtering the images by `q` is mapping the elements filtered by `p`,
      when `q` holds of an image exactly when `p` holds of its element. */
  lemma {:induction false} FilterMap<T, U>(s: seq<T>, f: T -> U, p: T -> bool, q: U -> bool)
    requires forall x :: x in s ==> (q(f(x)) <==> p(x))
    ensures Filter(MapSeq(s, f), q) == MapSeq(Filter(s, p), f)
  {
    if |s| > 0 {
      var init := s[..|s| - 1];
      assert forall x :: x in init ==> x in s;
      FilterMap(init, f, p, q);
      assert MapSeq(s, f)[..|s| - 1] == MapSeq(init, f);
    }
  }

  lemma AppendAssoc<T>(a: seq<T>, b: seq<T>, c: seq<T>)
    ensures a + (b + c) == (a + b) + c
  {
  }

  /** Cutting `x + y` inside `x` cuts `x`. */
  lemma SliceAppend<T>(x: seq<T>, y: seq<T>, n: nat)
    requires n <= |x|
    ensures (x + y)[..n] == x[..n] && (x + y)[n..] == x[n..] + y
  {
  }

  /** `s` cut around the run `s[1..k + 1]`. */
  lemma SplitAround<T>(s: seq<T>, k: nat)
    requires k + 2 <= |s|
    ensures s == [s[0]] + s[1..k + 1] + [s[k + 1]] + s[k + 2..]
  {
  }

  /** Dropping `j` elements after dropping `k` drops `k + j`. */
  lemma SuffixOfSuffix<T>(s: seq<T>, k: nat, j: nat)
    requires k + j <= |s|
    ensures s[k..][j..] == s[k + j..]
  {
  }

  /** A prefix of the suffix from `k` is an infix, and the suffix's
      elements are the sequence's, shifted by `k`. */
  lemma InfixOfSuffix<T>(s: seq<T>, k: nat, n: nat)
    requires k + n <= |s|
    ensures s[k..][..n] == s[k..k + n]
    ensures forall i :: 0 <= i < |s| - k ==> s[k..][i] == s[k + i]
  {
  }

  /** Every element is counted exactly when every element passes. */
  lemma {:induction false} CountAll<T>(s: seq<T>, p: T -> bool)
    ensures Count(s, p) == |s| <==> forall x :: x in s ==> p(x)
  {
    if |s| > 0 {
      var init := s[..|s| - 1];
      CountAll(init, p);
      FilterProperties(init, p);
      assert s == init + [s[|s| - 1]];
      assert forall x :: x in s <==> x in init || x == s[|s| - 1];
    }
  }
}
